=== FILE: README.md ===
# Amundsen metadata service: proxies and table/badge endpoints in Dafny

This project models the core of the Amundsen metadata service. That core is the layer between the REST
endpoints and the graph database.

- **Gremlin proxy** (`AbstractGremlinProxy`):
  - the writes built from `upsert_node_as_tx` / `upsert_edge_as_tx` chained into one traversal and ended by `next()`;
  - the deletes by synthetic edge id `"{start}_{end}_{label}"`;
  - the reads whose results the proxy ranks or post-processes in Python.
- **Neo4j proxy** (`Neo4jProxy`):
  - the description, tag and owner writes, as Cypher MERGE / MATCH / DELETE patterns run inside explicit transactions of the 1.x Python driver;
  - the reads that answer None rather than raise;
  - the column query's ordering and its NotFound rule;
  - the helpers `_safe_get` and `_get_relation_by_type`.
- **Proxy factory**:
  - the process-wide client of `get_proxy_client`, recycled after an hour;
  - the parameter map `_create_proxy` builds, rewritten for Amazon Neptune.
- **Endpoints**:
  - `TableTagAPI` put / delete (badge whitelist, reserved names, NotFound to 404);
  - the NotFound handling of `TableDetailAPI.get` and `TableDescriptionAPI` get / put;
  - `BadgeCommon` put / delete.
- **`to_resource_type`** and the pieces of Python's `str` it relies on.

Modules:

| module | role |
|---|---|
| `Common` | `Option`, `Result`, and the exception kinds the source raises |
| `Values` | property values |
| `Strings` | `split`, `join`, `lower`, `title`, `str(int)` |
| `ResourceTypes` | `ResourceType`, `UserResourceRel`, `to_resource_type` |
| `Ranking` | sorting and `order().by(desc).limit(n)` |
| `TraversalGraph` | the Gremlin property graph and its upserts, drops and `out()` |
| `GremlinProxy` | the Gremlin writes and tag/relation listings |
| `GremlinReads` | the Gremlin reads with Python post-processing |
| `PatternGraph` | the Neo4j graph and the MATCH / MERGE / DELETE patterns |
| `Transactions` | the driver's transaction calls and the write flows |
| `Neo4jProxy` | the Neo4j proxy |
| `ProxyFactory` | the client factory |
| `Http` | handler replies |
| `TableApi` | the table endpoints |
| `BadgeApi` | the badge endpoints |

The database, the clock, AWS credentials and every call into another component are parameters of the model:

- Each proxy operation is a function from the graph before to the graph after, plus what the call returned or raised.
- Each handler takes the outcome of the proxy call it makes as an input.
- The lemmas at the end of `TableApi` connect the handlers to the Neo4j and Gremlin models.

## Model

| member | source | states |
|---|---|---|
| Strings.Split | metadata_service/proxy/gremlin_proxy.py:448 | `split` on a one-character separator gives one more piece than there are separators, none containing it |
| Strings.SplitAround | metadata_service/proxy/gremlin_proxy.py:448 | splitting `a + sep + b` is splitting `a` followed by splitting `b` |
| Strings.SplitWithoutSeparator | metadata_service/proxy/gremlin_proxy.py:448 | a string without the separator is a single piece |
| Strings.SplitJoin | metadata_service/proxy/__init__.py:92 | splitting undoes joining when no piece contains the separator |
| Strings.Lower | metadata_service/proxy/gremlin_proxy.py:751 | `lower()` keeps length and maps each letter to lower case |
| Strings.TitleFrom | metadata_service/entity/resource_type.py:20 | `title()` from a position: length kept, each character is the case-mapped input character |
| Strings.Title | metadata_service/entity/resource_type.py:20 | `title()` keeps length; a cased first character is upper-cased |
| Strings.TitleFromIgnoresCase | metadata_service/entity/resource_type.py:20 | strings equal up to case title-case alike, from any position |
| Strings.TitleIgnoresCase | metadata_service/entity/resource_type.py:20 | `title()` does not depend on the case of its input |
| Strings.TitleKeepsLowerRun | metadata_service/entity/resource_type.py:20 | after a cased character, a lower-case run is left unchanged |
| Strings.CapitalisedWordIsTitle | metadata_service/entity/resource_type.py:20 | a capitalised word is the title of its lower-case form |
| Strings.NatToString | metadata_service/proxy/__init__.py:92 | `str(n)` is the decimal digits of `n`: their value is `n`, with no leading zero |
| Strings.IntToString | metadata_service/proxy/__init__.py:92 | `str(i)`: a minus sign exactly for negative `i`, followed by the digits of its magnitude |
| Strings.IntToStringInjective | metadata_service/proxy/__init__.py:92 | distinct integers print differently, so the port in the endpoint is the configured one |
| ResourceTypes.FromName | metadata_service/entity/resource_type.py:20 | `ResourceType[name]` finds the member with that name, else KeyError |
| ResourceTypes.ToResourceType | metadata_service/entity/resource_type.py:13-20 | success iff the title-cased label is a member's name, and then that member |
| ResourceTypes.LowerNameRoundTrip | metadata_service/entity/resource_type.py:7-20 | every member is recovered from its lower-cased name |
| ResourceTypes.TableLabel | metadata_service/entity/resource_type.py:13-20 | the label `table` parses to `Table` |
| ResourceTypes.ParseIgnoresCase | metadata_service/entity/resource_type.py:20 | labels equal up to case parse to the same outcome |
| Ranking.Insert | metadata_service/proxy/neo4j_proxy.py:100 | inserting into a sorted sequence keeps it sorted and adds exactly `x` (multiset) |
| Ranking.InsertKeepsHeadFirst | metadata_service/proxy/neo4j_proxy.py:100 | nothing inserted behind the head of a sorted sequence is smaller than the head |
| Ranking.SortBy | metadata_service/proxy/neo4j_proxy.py:100 | the result is sorted ascending and a permutation of the input |
| Ranking.SortedPrefixIsTop | metadata_service/proxy/gremlin_proxy.py:480-481 | in a descending permutation, nothing outside a prefix beats anything inside it |
| Ranking.TopBy | metadata_service/proxy/gremlin_proxy.py:792-793 | at most `n` input elements, descending, none left out that beats one kept |
| Ranking.MapSeq | metadata_service/proxy/neo4j_proxy.py:105-124 | one result per element, in order, each the function of its element |
| Ranking.MapPermutes | metadata_service/proxy/neo4j_proxy.py:100-124 | mapping permuted sequences gives permuted results |
| TraversalGraph.EdgeIdMiddle | metadata_service/proxy/gremlin_proxy.py:1002-1006 | two synthetic ids with the same start and label name the same end |
| TraversalGraph.CanonicalMatchEnds | metadata_service/proxy/gremlin_proxy.py:1007-1010 | on a canonical store, an edge found by id `start_end_label` ends at `end` |
| TraversalGraph.Assign | metadata_service/proxy/gremlin_proxy.py:973-976 | present values are set, None values skipped, other properties kept |
| TraversalGraph.UpsertNode | metadata_service/proxy/gremlin_proxy.py:963-978 | reuses the vertex with the key or adds one with the label; edges and other vertices unchanged |
| TraversalGraph.UpsertNodeIdempotent | metadata_service/proxy/gremlin_proxy.py:963-978 | upserting a vertex twice is upserting it once |
| TraversalGraph.CountMatchesPositive | metadata_service/proxy/gremlin_proxy.py:1007-1010 | some edge matches iff the match count is positive |
| TraversalGraph.MergeInto | metadata_service/proxy/gremlin_proxy.py:1011-1012 | properties merge into the matched edges only; endpoints, labels and order kept |
| TraversalGraph.CountMatchesMerge | metadata_service/proxy/gremlin_proxy.py:1011-1012 | merging non-key properties keeps each edge's match status |
| TraversalGraph.UpsertEdge | metadata_service/proxy/gremlin_proxy.py:996-1013 | no start vertex: no traverser; no match and no end vertex: server error; otherwise links kept |
| TraversalGraph.CreateEdge | metadata_service/proxy/gremlin_proxy.py:1007 | the create branch alone: no start vertex: no traverser; start but no end: server error; otherwise exactly one new canonical edge, vertices and links kept |
| TraversalGraph.AndUpsertEdge | metadata_service/proxy/gremlin_proxy.py:1007-1010 | an edge upsert chained after earlier steps: an error passes through; after an empty step `fold()` still runs the create branch; server error iff nothing matches and the end is missing |
| TraversalGraph.Next | metadata_service/proxy/gremlin_proxy.py:558 | `next()`: success iff a traverser reaches the end; none: NoResult; an error leaves the store as before the traversal |
| TraversalGraph.UpsertEdgeWrites | metadata_service/proxy/gremlin_proxy.py:1007-1012 | no match: exactly one new canonical edge appended; a match: the same edges with properties merged |
| TraversalGraph.UpsertEdgeCount | metadata_service/proxy/gremlin_proxy.py:1007-1010 | the upsert never creates a second edge with the same id out of `start` |
| TraversalGraph.MergeTwice | metadata_service/proxy/gremlin_proxy.py:1011-1012 | merging the same properties twice is merging them once |
| TraversalGraph.MergeIntoTwice | metadata_service/proxy/gremlin_proxy.py:1011-1012 | merging into the same edges twice changes nothing more |
| TraversalGraph.UpsertEdgeIdempotent | metadata_service/proxy/gremlin_proxy.py:996-1013 | a second identical edge upsert finds the first and changes nothing |
| TraversalGraph.UpsertEdgeCanonical | metadata_service/proxy/gremlin_proxy.py:1007-1010 | the upsert keeps a canonical store canonical |
| TraversalGraph.UpsertEdgeClosed | metadata_service/proxy/gremlin_proxy.py:1007-1010 | the upsert keeps a closed store closed |
| TraversalGraph.UpsertEdgeFinds | metadata_service/proxy/gremlin_proxy.py:1007-1010 | after a successful upsert an edge out of `start` carries the id |
| TraversalGraph.UpsertEdgeTail | metadata_service/proxy/gremlin_proxy.py:1007-1010 | edges the upsert adds leave `start` under `kind` |
| TraversalGraph.UpsertEdgeKeepsMatches | metadata_service/proxy/gremlin_proxy.py:1007-1012 | edges other upserts would find are still found |
| TraversalGraph.UpsertEdgeLinks | metadata_service/proxy/gremlin_proxy.py:996-1013 | links kept; on a canonical store `start` is linked to `end` |
| TraversalGraph.UpsertEdgeFound | metadata_service/proxy/gremlin_proxy.py:1007-1012 | a property-less upsert that finds its edge changes nothing |
| TraversalGraph.UpsertNodeSettled | metadata_service/proxy/gremlin_proxy.py:963-978 | a vertex upsert whose values are already in place changes nothing |
| TraversalGraph.DropEdges | metadata_service/proxy/gremlin_proxy.py:893 | exactly the edges without a listed id remain, in order |
| TraversalGraph.DeleteEdges | metadata_service/proxy/gremlin_proxy.py:893 | vertices kept; the edges left are the undropped ones |
| TraversalGraph.DeleteEdgesClosed | metadata_service/proxy/gremlin_proxy.py:893 | dropping edges keeps a closed store closed |
| TraversalGraph.OutFrom | metadata_service/proxy/gremlin_proxy.py:518 | `out(kind)` lists exactly the existing ends of `v`'s `kind` edges; one edge lists its end iff it matches |
| TraversalGraph.OutFromConcat | metadata_service/proxy/gremlin_proxy.py:518 | the ends reached through `a + b` are those through `a` followed by those through `b`: the listing is in edge order |
| GremlinProxy.PutResourceDescription | metadata_service/proxy/gremlin_proxy.py:529-558 | success iff the resource vertex exists; otherwise a server error with nothing written; on success the Description vertex holds the text and no other vertex changes |
| GremlinProxy.DescriptionStepsRaise | metadata_service/proxy/gremlin_proxy.py:544-558 | without the resource vertex the DESCRIPTION upsert goes dry and the DESCRIPTION_OF create branch raises a server error |
| GremlinProxy.DescriptionStepsFlow | metadata_service/proxy/gremlin_proxy.py:538-558 | with the resource vertex both edge upserts flow, leaving the vertices of the Description upsert |
| GremlinProxy.DescriptionVertex | metadata_service/proxy/gremlin_proxy.py:533-543 | the Description upsert holds the text and leaves every other vertex as it was |
| GremlinProxy.PutTableDescription | metadata_service/proxy/gremlin_proxy.py:521-527 | success iff the table vertex exists; otherwise a server error with nothing written |
| GremlinProxy.GetTableDescription | metadata_service/proxy/gremlin_proxy.py:516-519 | NoResult when nothing is found; success iff the table exists and one of its DESCRIPTION edges reaches a vertex with a description, and the value is such a vertex's description |
| GremlinProxy.FirstDescriptionOfOut | metadata_service/proxy/gremlin_proxy.py:518 | over the table's DESCRIPTION targets, a first described one exists iff some DESCRIPTION edge reaches a described vertex, and its text is that vertex's description |
| GremlinProxy.FirstDescription | metadata_service/proxy/gremlin_proxy.py:518 | `values('description').next()`: the first target with a description, or StopIteration when none has one |
| GremlinProxy.PutKeepsDescribedOnlyBy | metadata_service/proxy/gremlin_proxy.py:529-558 | a description write keeps the resource's DESCRIPTION edges pointing at its own Description vertex |
| GremlinProxy.PutThenGetTableDescription | metadata_service/proxy/gremlin_proxy.py:516-558 | round trip: after a put on an existing table, the get returns the text written |
| GremlinProxy.SecondPutOverwrites | metadata_service/proxy/gremlin_proxy.py:516-558 | a second put replaces the first |
| GremlinProxy.PutColumnDescription | metadata_service/proxy/gremlin_proxy.py:608-638 | success iff the column vertex `table/column` exists; otherwise a server error with nothing written |
| GremlinProxy.GetColumnDescription | metadata_service/proxy/gremlin_proxy.py:640-644 | success iff the vertex keyed `table/column/_description` exists and has a description, which is then the value; otherwise NoResult |
| GremlinProxy.PutThenGetColumnDescription | metadata_service/proxy/gremlin_proxy.py:608-644 | on an existing column: round trip, and a second put replaces the first |
| GremlinProxy.AddTag | metadata_service/proxy/gremlin_proxy.py:560-586 | success iff the table vertex exists (or is the tag); the tag vertex has `tag_type`; both edge ids are found |
| GremlinProxy.TagVertex | metadata_service/proxy/gremlin_proxy.py:561-571 | the Tag upsert leaves the tag vertex with the `tag_type` given and adds no other id |
| GremlinProxy.AddTagLinks | metadata_service/proxy/gremlin_proxy.py:573-585 | when both edge upserts go through, both ids are found out of their start vertices |
| GremlinProxy.AddTagIdempotent | metadata_service/proxy/gremlin_proxy.py:560-586 | adding the same tag again changes nothing |
| GremlinProxy.TagsFrom | metadata_service/proxy/gremlin_proxy.py:398 | a server error iff some tag vertex lacks `tag_type`; otherwise one record per TAG edge into the table from a vertex, each the tag's key with its type, and nothing else |
| GremlinProxy.TableTags | metadata_service/proxy/gremlin_proxy.py:368-399 | a missing table is NoResult; otherwise a server error iff some tag vertex lacks `tag_type`; on success every TAG edge's tag is listed with its type, every listed record comes from such an edge, and there is one per edge |
| GremlinProxy.AddTagShape | metadata_service/proxy/gremlin_proxy.py:560-586 | a successful `add_tag` upserts the tag vertex, keeps the old edges and adds only TAG edges from the tag or TAGGED_BY edges |
| GremlinProxy.AddTagKeepsTagTypes | metadata_service/proxy/gremlin_proxy.py:560-586 | after `add_tag`, a table whose tags all had a type still lists without raising |
| GremlinProxy.AddTagListsTag | metadata_service/proxy/gremlin_proxy.py:398 | after `add_tag` on a table whose tags all have a type, `get_table` lists the tag with its type |
| GremlinProxy.DeleteTag | metadata_service/proxy/gremlin_proxy.py:588-606 | vertices kept; an edge survives iff its id is neither of the two ids built |
| GremlinProxy.DeleteTagUnlists | metadata_service/proxy/gremlin_proxy.py:588-606 | after `delete_tag` a listing that succeeded still succeeds and no longer shows the tag |
| GremlinProxy.DeleteTagLeavesReverseEdge | metadata_service/proxy/gremlin_proxy.py:596-600 | as written, the TAGGED_BY edge `add_tag` wrote survives `delete_tag` |
| GremlinProxy.DeleteTagExample | metadata_service/proxy/gremlin_proxy.py:596-600 | tag `pii` on table `t`: the edge `t_pii_TAGGED_BY` outlives `delete_tag` |
| GremlinProxy.DeleteTagCorrected | metadata_service/proxy/gremlin_proxy.py:588-606 | vertices kept; an edge survives iff its id is neither of the ids `add_tag` wrote |
| GremlinProxy.DeleteTagCorrectedUnlinks | metadata_service/proxy/gremlin_proxy.py:588-606 | the corrected delete removes both directions between tag and table |
| GremlinProxy.GetUser | metadata_service/proxy/gremlin_proxy.py:342-349 | the User vertex's email; no User: NoResult from `next()`; a User without `email`: server error from `by('email')` |
| GremlinProxy.AddOwner | metadata_service/proxy/gremlin_proxy.py:507-514 | `get_user` failing: the same error, nothing written; otherwise success iff the table exists or the OWNER edge is already there, else a server error with nothing written; on success the OWNER edge is found and no vertex changes |
| GremlinProxy.DeleteOwner | metadata_service/proxy/gremlin_proxy.py:491-505 | vertices kept; exactly the OWNER and OWNER_OF ids are dropped |
| GremlinProxy.DeleteOwnerUnlinks | metadata_service/proxy/gremlin_proxy.py:491-505 | after `delete_owner` neither direction links owner and table |
| GremlinProxy.Labels | metadata_service/proxy/gremlin_proxy.py:833-843 | NotFound iff the relation is not one of follow / own / read |
| GremlinProxy.LabelsSeparate | metadata_service/proxy/gremlin_proxy.py:833-843 | distinct relations have distinct labels; no reverse label is a forward label |
| GremlinProxy.AddResourceRelation | metadata_service/proxy/gremlin_proxy.py:809-861 | unknown relation: NotFound, no change; own / read succeed iff the resource exists; the user vertex carries its email |
| GremlinProxy.DeleteResourceRelation | metadata_service/proxy/gremlin_proxy.py:863-893 | unknown relation: NotFound; otherwise exactly the forward id (and, for own / read, the reverse id) is dropped |
| GremlinProxy.TablesFrom | metadata_service/proxy/gremlin_proxy.py:734 | only Table vertices are listed |
| GremlinProxy.TablesFromComplete | metadata_service/proxy/gremlin_proxy.py:734 | every table linked by the label is listed |
| GremlinProxy.TablesFromFrame | metadata_service/proxy/gremlin_proxy.py:734 | the listing depends only on the user's edges with the label and their ends |
| GremlinProxy.TablesByRelation | metadata_service/proxy/gremlin_proxy.py:723-751 | NotFound iff the relation is unknown; every table listed is a Table linked by the relation's label |
| GremlinProxy.TablesFromSound | metadata_service/proxy/gremlin_proxy.py:734 | every table listed is linked from the user |
| GremlinProxy.TablesFromLinked | metadata_service/proxy/gremlin_proxy.py:734 | each listed table is the end of one of the user's edges with the label |
| GremlinProxy.AddRelationListsTable | metadata_service/proxy/gremlin_proxy.py:723-861 | after adding a relation to a table, listing that relation shows the table |
| GremlinProxy.RelationWriteShape | metadata_service/proxy/gremlin_proxy.py:809-861 | a relation write keeps old edges and adds only edges with the relation's labels |
| GremlinProxy.SecondEdgeShape | metadata_service/proxy/gremlin_proxy.py:852-860 | the reverse-edge upsert adds only edges with the two labels |
| GremlinProxy.AddRelationIsolated | metadata_service/proxy/gremlin_proxy.py:723-861 | adding one relation never changes the tables another relation lists |
| GremlinProxy.ListingAfterUserUpsert | metadata_service/proxy/gremlin_proxy.py:825-860 | upserting the user vertex and adding other-label edges keeps the listing |
| GremlinProxy.TablesFromTail | metadata_service/proxy/gremlin_proxy.py:734 | appended edges with another label add nothing to the listing |
| GremlinProxy.TablesFromNone | metadata_service/proxy/gremlin_proxy.py:734 | with no edge of the label out of the user, the listing is empty |
| GremlinReads.CountValue | metadata_service/proxy/gremlin_proxy.py:480 | a read count orders only when it is an integer |
| GremlinReads.EdgeCount | metadata_service/proxy/gremlin_proxy.py:479 | a missing `read_count` counts 0 |
| GremlinReads.FirstCountInto | metadata_service/proxy/gremlin_proxy.py:479 | the count of the first READ_BY edge into the user that has one, from whichever table, else 0 |
| GremlinReads.ReadBysOf | metadata_service/proxy/gremlin_proxy.py:475 | the followed READ_BY edges: as many as there are, each one followed, each edge kept exactly as often as it occurs when followed and never otherwise |
| GremlinReads.ReadBysOfMembers | metadata_service/proxy/gremlin_proxy.py:475 | an edge is kept iff it is in the list and is a followed READ_BY edge of the table |
| GremlinReads.ProjectReaders | metadata_service/proxy/gremlin_proxy.py:476-479 | a failure iff some edge's count fails; otherwise the k-th record is the k-th edge's user, that user's email and the edge's count |
| GremlinReads.ReadersFrom | metadata_service/proxy/gremlin_proxy.py:474-479 | a failure iff some READ_BY edge of the table has no count; otherwise the records pair one to one, in order, with the followed READ_BY edges: user, email and count of the k-th edge; each record stands for such an edge |
| GremlinReads.ReadersAreVia | metadata_service/proxy/gremlin_proxy.py:474-479 | records paired with the followed edges each stand for a READ_BY edge of the table |
| GremlinReads.FollowedWitness | metadata_service/proxy/gremlin_proxy.py:475 | some followed edge has a property iff some READ_BY edge of the table in the list has it |
| GremlinReads.ReadByViaTail | metadata_service/proxy/gremlin_proxy.py:475 | a reader found among the later edges is found among all of them |
| GremlinReads.TableReaders | metadata_service/proxy/gremlin_proxy.py:473-481 | a missing table has no readers; otherwise min(5, READ_BY edges) readers, by count descending, a sub-multiset of all readers with none left out outranking one kept |
| GremlinReads.TableReadersAreReaders | metadata_service/proxy/gremlin_proxy.py:473-481 | every reader listed has a READ_BY edge from the table |
| GremlinReads.OneReader | metadata_service/proxy/gremlin_proxy.py:473-481 | a table with a single followed READ_BY edge whose count is found has exactly that edge's user, email and count as its readers |
| GremlinReads.TwoReadsFirstCount | metadata_service/proxy/gremlin_proxy.py:479 | in the two-read store, the count looked up for `u` as written is 7, from `t2`'s edge |
| GremlinReads.TwoReadsFollowed | metadata_service/proxy/gremlin_proxy.py:475 | in the two-read store, `t1` follows exactly its own READ_BY edge, to `u` |
| GremlinReads.ReaderCountFromOtherTable | metadata_service/proxy/gremlin_proxy.py:479 | as written, the reader of `t1` is reported with its count for `t2` |
| GremlinReads.ReaderCountFromFollowedEdge | metadata_service/proxy/gremlin_proxy.py:479 | with the followed edge's count, the reader of `t1` shows its own count |
| GremlinReads.ReadEdges | metadata_service/proxy/gremlin_proxy.py:765 | zero iff the user has no READ edge |
| GremlinReads.ReadsOf | metadata_service/proxy/gremlin_proxy.py:765 | the READ edges of the user: as many as there are, each edge kept exactly as often as it occurs when it is a READ edge and never otherwise |
| GremlinReads.ReadsOfMembers | metadata_service/proxy/gremlin_proxy.py:765 | an edge is kept iff it is in the list and is a READ edge of the user |
| GremlinReads.ProjectReads | metadata_service/proxy/gremlin_proxy.py:766-790 | a server error iff some edge has no integer `read_count`; otherwise the k-th record is the k-th edge's table and count |
| GremlinReads.FrequentFrom | metadata_service/proxy/gremlin_proxy.py:765-791 | a server error iff some READ edge of the user has no integer `read_count`; otherwise the records pair one to one, in order, with the READ edges: table and count of the k-th edge |
| GremlinReads.RecordsAreRead | metadata_service/proxy/gremlin_proxy.py:765-791 | records paired with the READ edges each stand for a READ edge with that table and count |
| GremlinReads.ReadsWitness | metadata_service/proxy/gremlin_proxy.py:765 | some kept edge has a property iff some READ edge of the user in the list has it |
| GremlinReads.FrequentlyUsed | metadata_service/proxy/gremlin_proxy.py:753-807 | NotFound iff the user has no READ edge; otherwise min(50, READ edges) records, by count descending, a sub-multiset of the projected READ edges |
| GremlinReads.FrequentFromNoReads | metadata_service/proxy/gremlin_proxy.py:765-791 | with no READ edges the projection is empty |
| GremlinReads.FrequentlyUsedTop | metadata_service/proxy/gremlin_proxy.py:753-807 | every table returned was read with the count shown, and no edge left out outranks one returned |
| GremlinReads.ReorderPopular | metadata_service/proxy/gremlin_proxy.py:646-674 | empty uris: `[]`; success iff every uri has a record; then one table per uri, the first record with that key; else IndexError |
| GremlinReads.FirstOfType | metadata_service/proxy/gremlin_proxy.py:414-415 | the first record of a type, None iff there is none |
| GremlinReads.ColumnDescription | metadata_service/proxy/gremlin_proxy.py:417-421 | `''` or the text of a Description / Programmatic_Description record |
| GremlinReads.DefaultDescriptionFirst | metadata_service/proxy/gremlin_proxy.py:417-421 | a user description wins over any programmatic one |
| GremlinReads.ProgrammaticDescriptionFallback | metadata_service/proxy/gremlin_proxy.py:417-421 | without a user description the first programmatic one, else `''` |
| GremlinReads.WatermarkType | metadata_service/proxy/gremlin_proxy.py:448 | the second-to-last `/`-piece, or IndexError |
| GremlinReads.SplitPieces | metadata_service/proxy/gremlin_proxy.py:448 | one piece iff no separator |
| GremlinReads.WatermarkTypeDefined | metadata_service/proxy/gremlin_proxy.py:448 | the type is found iff the key contains `/` |
| GremlinReads.WatermarkTypeOfKey | metadata_service/proxy/gremlin_proxy.py:448 | round trip: `table/type/` yields `type` |
| PatternGraph.Find | metadata_service/proxy/neo4j_proxy.py:448 | MATCH binds the first matching node; None iff no node matches |
| PatternGraph.FindExtends | metadata_service/proxy/neo4j_proxy.py:448 | appending nodes keeps the first match |
| PatternGraph.FindStable | metadata_service/proxy/neo4j_proxy.py:448 | changes that keep every node's match status keep the first match |
| PatternGraph.MergeNode | metadata_service/proxy/neo4j_proxy.py:294-298 | no match: one node created; a match: every match gets the ON MATCH map, others kept; relationships kept |
| PatternGraph.MergeNodeFinds | metadata_service/proxy/neo4j_proxy.py:294-298 | after the merge the key finds a node, where it was if it existed |
| PatternGraph.MergeNodeKeepsOthers | metadata_service/proxy/neo4j_proxy.py:294-298 | the first match of another label is unchanged |
| PatternGraph.MergeNodeIdempotent | metadata_service/proxy/neo4j_proxy.py:294-298 | merging the same node twice is merging it once |
| PatternGraph.MergedNodesSettle | metadata_service/proxy/neo4j_proxy.py:294-298 | after `SET u = p` every matching node is exactly `p` |
| PatternGraph.MergeSettledNodes | metadata_service/proxy/neo4j_proxy.py:294-298 | a merge whose matches already hold `p` changes nothing |
| PatternGraph.MergePair | metadata_service/proxy/neo4j_proxy.py:302 | both relationships present afterwards; only they may be added; no-op when both already exist |
| PatternGraph.MergeRelation | metadata_service/proxy/neo4j_proxy.py:300-304 | a row iff both nodes are found; then both relationships link them, nodes unchanged |
| PatternGraph.Without | metadata_service/proxy/neo4j_proxy.py:570 | exactly the relationships other than the two deleted |
| PatternGraph.DeletePair | metadata_service/proxy/neo4j_proxy.py:570 | both relationships go, only when both are there; nodes unchanged |
| PatternGraph.DeleteAfterMerge | metadata_service/proxy/neo4j_proxy.py:519-570 | the pattern delete undoes the pattern merge |
| PatternGraph.Targets | metadata_service/proxy/neo4j_proxy.py:269 | exactly the nodes of the kind a `kind` relationship leads to |
| Transactions.Begin | metadata_service/proxy/neo4j_proxy.py:309 | an open transaction with nothing done |
| Transactions.RunTx | metadata_service/proxy/neo4j_proxy.py:311-315 | a statement on an open transaction changes its work, not the visible graph |
| Transactions.CommitTx | metadata_service/proxy/neo4j_proxy.py:321 | commit publishes an open transaction's work and closes it; no effect when closed |
| Transactions.RollbackTx | metadata_service/proxy/neo4j_proxy.py:327-328 | rollback discards the work and closes; no effect when closed |
| Transactions.CloseTx | metadata_service/proxy/neo4j_proxy.py:335 | closing an open transaction rolls it back |
| Transactions.CommitAfterRollback | metadata_service/proxy/neo4j_proxy.py:465-470 | a commit after a rollback publishes nothing |
| Transactions.Finish | metadata_service/proxy/neo4j_proxy.py:335 | the outcome shows what is visible after the calls |
| Transactions.RollbackOrCommit | metadata_service/proxy/neo4j_proxy.py:309-335 | no row: rolled back, graph unchanged, raises; otherwise committed |
| Transactions.RollbackThenCommit | metadata_service/proxy/neo4j_proxy.py:454-471 | no row: rolled back and the later commit is a no-op; otherwise committed |
| Transactions.CheckedWrite | metadata_service/proxy/neo4j_proxy.py:531-553 | validation fails: rolled back, unchanged, not closed again; otherwise the writes are committed |
| Neo4jProxy.SafeGet | metadata_service/proxy/neo4j_proxy.py:228-240 | agrees with the nested lookup when every step is found; None once a step is None; AttributeError on a non-dict |
| Neo4jProxy.SafeGetAppend | metadata_service/proxy/neo4j_proxy.py:228-240 | a two-part lookup continues from where the first part stopped |
| Neo4jProxy.SafeGetStopsAtMissing | metadata_service/proxy/neo4j_proxy.py:228-240 | a missing key yields None whatever follows |
| Neo4jProxy.RelationByType | metadata_service/proxy/neo4j_proxy.py:735-745 | NotImplementedError iff the relation is unknown; forward and reverse labels differ |
| Neo4jProxy.RelationByTypeRoundTrip | metadata_service/proxy/neo4j_proxy.py:735-745 | each relation is recovered from its label; no reverse label names a relation |
| Neo4jProxy.ToColumns | metadata_service/proxy/neo4j_proxy.py:105-124 | AttributeError iff some row's description cannot be read; otherwise one column per row, in order, with the row's fields and `_safe_get` description |
| Neo4jProxy.ReadableRows | metadata_service/proxy/neo4j_proxy.py:100-124 | whether every row's description reads does not depend on the row order |
| Neo4jProxy.ExecColQuery | metadata_service/proxy/neo4j_proxy.py:90-129 | NotFound iff no row; success iff every row converts; the columns are a permutation of the rows' columns, sorted by sort order; the last record has the largest sort order |
| Neo4jProxy.SortedRowsFacts | metadata_service/proxy/neo4j_proxy.py:100-121 | the last sorted row is a row with the largest sort order; every column comes from a row |
| Neo4jProxy.PutDescription | metadata_service/proxy/neo4j_proxy.py:283-338 | success iff the target exists; failure: unchanged, RuntimeError, rolled back and closed; success: committed and closed |
| Neo4jProxy.DescriptionLinked | metadata_service/proxy/neo4j_proxy.py:294-304 | the relationship statement finds a row iff the target exists, then links the merged Description holding the text |
| Neo4jProxy.PutTableDescription | metadata_service/proxy/neo4j_proxy.py:283-338 | success iff the Table exists; failure leaves the graph unchanged |
| Neo4jProxy.PutColumnDescription | metadata_service/proxy/neo4j_proxy.py:366-427 | success iff the Column `table/column` exists; failure leaves the graph unchanged |
| Neo4jProxy.GetTableDescription | metadata_service/proxy/neo4j_proxy.py:259-281 | None when the table or its description is missing; otherwise the first DESCRIPTION target's description |
| Neo4jProxy.PutTableDescriptionSettles | metadata_service/proxy/neo4j_proxy.py:283-338 | after a put every Description the table reaches is its own and holds the text |
| Neo4jProxy.PutTableDescriptionWrites | metadata_service/proxy/neo4j_proxy.py:311-321 | a successful put leaves the graph the two statements wrote |
| Neo4jProxy.PutThenGetTableDescription | metadata_service/proxy/neo4j_proxy.py:259-338 | round trip: after a successful put the get returns the text |
| Neo4jProxy.SecondPutOverwrites | metadata_service/proxy/neo4j_proxy.py:259-338 | a second put replaces the first |
| Neo4jProxy.ReadSettledDescription | metadata_service/proxy/neo4j_proxy.py:259-281 | a table that reaches a Description node, all of whose reached Description nodes hold the text, reads back that text |
| Neo4jProxy.ColumnDescriptionFrom | metadata_service/proxy/neo4j_proxy.py:352 | None when no named column has a description; the first named column with a description gives its first description; a value is the description of a DESCRIPTION target of a column with that name |
| Neo4jProxy.ColumnDescriptionSkip | metadata_service/proxy/neo4j_proxy.py:352 | passing over a first column that is not the described one keeps what the rest gives |
| Neo4jProxy.GetColumnDescription | metadata_service/proxy/neo4j_proxy.py:341-364 | None when the table, the column or its description is missing; the first named COLUMN of the table with a description gives its first description; a value always comes from such a column |
| Neo4jProxy.AddTag | metadata_service/proxy/neo4j_proxy.py:502-553 | NotFound iff the Table is missing, then unchanged and rolled back; else committed with the Tag linked both ways, every old relationship kept and only those two added |
| Neo4jProxy.AddTagIdempotent | metadata_service/proxy/neo4j_proxy.py:518-527 | adding a tag twice is adding it once |
| Neo4jProxy.DeleteTag | metadata_service/proxy/neo4j_proxy.py:556-584 | always succeeds; removes TAG and TAGGED_BY only when both exist; nodes kept |
| Neo4jProxy.AddThenDeleteTag | metadata_service/proxy/neo4j_proxy.py:502-584 | deleting a tag undoes adding it; the Tag node stays |
| Neo4jProxy.AddOwnerBy | metadata_service/proxy/neo4j_proxy.py:430-471 | success iff, after the User merge, both the User matched by the given property and the Table are found; failure: unchanged, RuntimeError, rollback then commit; success: committed with the owner linked both ways, every old relationship kept and only those two added |
| Neo4jProxy.AddOwner | metadata_service/proxy/neo4j_proxy.py:443-449 | as written, a failure leaves the graph unchanged |
| Neo4jProxy.AddOwnerCorrected | metadata_service/proxy/neo4j_proxy.py:430-471 | with the User matched by `key`, success iff the Table exists |
| Neo4jProxy.AddOwnerFreshUserFails | metadata_service/proxy/neo4j_proxy.py:443-449 | as written, an owner without a `table_key` User node is never linked |
| Neo4jProxy.AddOwnerExample | metadata_service/proxy/neo4j_proxy.py:443-449 | with only Table `t`, as written `add_owner(t, ann)` fails and corrected it succeeds |
| Neo4jProxy.DeleteOwnerBy | metadata_service/proxy/neo4j_proxy.py:474-499 | always succeeds; removes OWNER_OF and OWNER only when both exist |
| Neo4jProxy.DeleteOwner | metadata_service/proxy/neo4j_proxy.py:474-499 | as written: succeeds and keeps the nodes |
| Neo4jProxy.AddThenDeleteOwner | metadata_service/proxy/neo4j_proxy.py:430-499 | with the User matched by `key`, deleting an owner undoes adding it |
| ProxyFactory.AgeSeconds | metadata_service/proxy/__init__.py:30 | `timedelta.seconds`: within a day, and for ages under a day the whole seconds elapsed |
| ProxyFactory.GetProxyClient | metadata_service/proxy/__init__.py:20-50 | reuses a live client that needs no recycling; otherwise returns what `_create_proxy()` gives: a new client installed and stamped, or its exception with no client kept; close attempted iff recycling |
| ProxyFactory.RetriedAfterFailedCreate | metadata_service/proxy/__init__.py:38-48 | after `_create_proxy()` raised, the next call builds a client again |
| ProxyFactory.ReusedWithinAnHour | metadata_service/proxy/__init__.py:13-34 | a new client is handed out unchanged within the hour |
| ProxyFactory.RecycledAfterAnHour | metadata_service/proxy/__init__.py:28-48 | between an hour and a day after creation the client is closed and replaced |
| ProxyFactory.AgeIgnoresWholeDays | metadata_service/proxy/__init__.py:30 | the age is only seen modulo a day |
| ProxyFactory.CreateProxyParams | metadata_service/proxy/__init__.py:53-92 | non-Neptune: the six settings; Neptune: `wss://host:port/gremlin`, AWS credentials and session token |
| ProxyFactory.NeptuneHostSplits | metadata_service/proxy/__init__.py:92 | the endpoint splits back into scheme, host and port |
| TableApi.TagTypeArg | metadata_service/api/table.py:118-132 | absent `tag_type` means `'default'` |
| TableApi.Admission | metadata_service/api/table.py:134-153 | badge not whitelisted: 404; whitelisted name as a tag: 409; otherwise admitted |
| TableApi.Attempt | metadata_service/api/table.py:155-159 | succeeds iff `add_tag` and any index update succeed, with the first error |
| TableApi.PutTag | metadata_service/api/table.py:121-170 | refusal makes no call; `add_tag(tag, type)` iff admitted; OK iff the try succeeds; NotFound: 404; other errors propagate |
| TableApi.TagOrBadge | metadata_service/api/table.py:134-153 | a name is usable as a badge or as a tag, never both, never neither |
| TableApi.DefaultTagAdmitted | metadata_service/api/table.py:118-163 | without `tag_type` a tag is added as `'default'` iff it is not a reserved badge name |
| TableApi.PutTagOverNeo4j | metadata_service/api/table.py:155-170 | over Neo4j: OK iff the table exists; a missing table: 404 and unchanged |
| TableApi.DeleteTag | metadata_service/api/table.py:172-198 | `delete_tag` gets the tag and the `tag_type` argument (`default` when absent); OK on success; 404 on NotFound; other errors propagate |
| TableApi.DeleteTagOverNeo4j | metadata_service/api/table.py:184-191 | over Neo4j the delete always answers OK |
| TableApi.GetTableDetail | metadata_service/api/table.py:25-33 | the table on success; 404 on NotFound; other errors propagate |
| TableApi.GetTableDescription | metadata_service/api/table.py:77-90 | never propagates: OK with the value; 404 on NotFound; 500 otherwise |
| TableApi.DescriptionOverNeo4j | metadata_service/api/table.py:82-84 | over Neo4j the read always answers OK; a missing table gives None |
| TableApi.DescriptionOverGremlin | metadata_service/api/table.py:89-90 | over Gremlin a table without a description answers 500 |
| TableApi.PutTableDescription | metadata_service/api/table.py:92-105 | OK on success; 404 on NotFound; other errors propagate |
| TableApi.PutDescriptionOverNeo4j | metadata_service/api/table.py:99-105 | over Neo4j a missing table raises RuntimeError, not 404; an existing one answers OK and reads back the text |
| BadgeApi.PutBadge | metadata_service/api/badge.py:46-96 | as written: `add_badge` called iff both fields are set and every whitelist entry equals the badge; OK iff the call succeeds; else 404 |
| BadgeApi.PutBadgeCorrected | metadata_service/api/badge.py:46-96 | `add_badge` called iff both fields are set and the badge is in the whitelist; OK iff the call succeeds; else 404 |
| BadgeApi.WhitelistChecksCompared | metadata_service/api/badge.py:65-75 | the two checks agree on one-entry lists; they differ on the empty list and on two different badges |
| BadgeApi.DeleteBadge | metadata_service/api/badge.py:98-124 | OK on success; 404 on NotFound; other errors propagate |
| Http.DeleteReply | metadata_service/api/table.py:184-198 | OK on success; 404 on NotFound; other errors propagate with their error |

## Left out

- Query text, the Bolt and Gremlin drivers, connection handling, retries, logging and timers. A database is a value; a query is a function on it.
- Error message texts. Only the exception kind and the HTTP status are modelled.
- The `_proxy_client_lock` and concurrency. `get_proxy_client` is modelled as one atomic step; the second check inside the lock only matters under concurrent callers.
- boto3 and `import_string`. The AWS credentials and the created client are parameters.
- The clock. `now` and the creation time are integer microseconds passed in.
- Table and dashboard projections of `get_table`, `get_popular_tables`, `get_table_by_user_relation`, `get_frequently_used_tables` and `get_dashboard`: schema, cluster, database, names, descriptions and columns. Tables are listed by key and a frequently used table by its key and read count; `PopularTable` fields are carried as given.
- The popularity score and its cache (`_get_popular_tables`). The ordered uri list is an input to `ReorderPopular`.
- Column statistics and `int(float(...))` in `_exec_col_query`: floating point.
- `get_user` of the Neo4j proxy, `get_users`, `get_tags`, `get_latest_updated_ts`, lineage and dashboard operations. These are outside the core; the Gremlin `get_user` is modelled because `add_owner` calls it.
- `GremlinReads.CountValue`: a non-integer `read_count` is a server error, because the server's ordering of mixed types is not modelled.
- `GremlinReads.TableReaders`, `GremlinReads.FrequentlyUsed`: the order of ties is not stated, because neither database specifies it.
- `GremlinReads.TableReaders`: a user without an `email` property is reported with None, not as a traversal error.
- `GremlinProxy.AddResourceRelation`: success iff the resource exists is stated for own and read only. For follow, an edge already found to a missing vertex also succeeds.
- `PatternGraph.Find`: MATCH binds the first matching node, so keys are assumed unique. A Cypher MATCH over several matching nodes yields several rows, and MATCH…MERGE and MATCH…DELETE act on each of them, while `PatternGraph.MergeRelation` and `PatternGraph.DeletePair` act on the first match only.
- `Transactions.CommitTx`, `Transactions.RollbackTx`, `Transactions.CloseTx`: the 1.x Bolt driver is taken to ignore commit, rollback and close on a closed transaction, and to roll back an open transaction on close. The driver is not part of this model; these assumptions decide the call logs of `Neo4jProxy.AddOwnerBy` and `Neo4jProxy.AddTag`.
- `GremlinProxy.DistinctKeyProperty`: the key property name is assumed to differ from `description`, `tag_type` and `email`, the data properties the writes set.
- `GremlinProxy.GetTableDescription`: when several DESCRIPTION edges reach described vertices, the contract says the value is one of their texts, not which; the writes keep a single Description vertex per resource (`PutKeepsDescribedOnlyBy`), so the round trip is exact.
- `GremlinProxy.GetColumnDescription`: the get reads the Description vertex `table/column/_description` by key and does not look at the column vertex; the round trip `PutThenGetColumnDescription` needs the column vertex, without which the put raises and writes nothing.
- Neo4jProxy.GetColumnDescription: no round-trip lemma for the Neo4j column description. The put links through `table_key` and the get walks `COLUMN` and `name`, so the two do not meet unless the graph is laid out accordingly.
- Keyword arguments. The handlers call the proxies with `table_uri=` (and `tag_type=` for the Neo4j tag calls), while the Neo4j proxy's parameters are `table_key` and the Gremlin tag methods' are `id`. The model connects each handler to the proxy operation of the same meaning and leaves out the TypeError those calls would raise.
- `TableApi.Attempt`: the search-document fetch and the index update form one input outcome.
- `TableApi.PutTableDescription`: the JSON body parsing (`json.loads(request.data)`) is left out. The description text is an input.
- `BadgeApi.PutBadge`: `Badge.equals` is taken to be equality of the three fields. `metadata_service/entity/badge.py` is not part of this model.
- `BadgeApi.PutBadge`: `WHITELIST_BADGES` is treated as a list of badges, as this loop uses it. `TableTagAPI` reads the same setting as a list of names.
- Strings.Title: only ASCII letters are cased; Unicode case mapping is not modelled.
- Strings.Lower: only ASCII letters are lowered; Unicode case mapping is not modelled.

## Findings

| source | as written | input that shows it | evidently intended | confidence | as-written member | corrected member |
|---|---|---|---|---|---|---|
| metadata_service/proxy/gremlin_proxy.py:596-600 | `delete_tag` builds the reverse id as `{tag}_{id}_TAGGED_BY` | `add_tag(id='t', tag='pii')` writes `t_pii_TAGGED_BY`; `delete_tag` looks for `pii_t_TAGGED_BY` and leaves the edge | drop `{id}_{tag}_TAGGED_BY`, the id `add_tag` writes | not executed | GremlinProxy.DeleteTagLeavesReverseEdge | GremlinProxy.DeleteTagCorrectedUnlinks |
| metadata_service/proxy/gremlin_proxy.py:479 | the reader's `read_count` is taken from `inE('READ_BY')` on the user vertex, which is the first READ_BY edge from any table | user `u` read `t2` seven times and `t1` once, and `t2`'s edge comes first: `t1`'s reader is reported with 7 | the count on the READ_BY edge from this table to the user | not executed | GremlinReads.ReaderCountFromOtherTable | GremlinReads.ReaderCountFromFollowedEdge |
| metadata_service/proxy/neo4j_proxy.py:443-449 | `add_owner` merges the User on `key` but matches it on `table_key` | a graph with only Table `t`: `add_owner(t, ann)` creates User `{email, key}`, finds no row and rolls back | match the User on `key`, the property it was merged on | not executed | Neo4jProxy.AddOwnerFreshUserFails | Neo4jProxy.AddOwnerCorrected |
| metadata_service/api/badge.py:65-75 | the loop refuses the badge at the first whitelist entry that differs from it | an empty whitelist admits every badge; a whitelist of two different badges admits none | admit the badge iff it is one of the whitelisted combinations | not executed | BadgeApi.PutBadge | BadgeApi.PutBadgeCorrected |

=== FILE: badge_api.dfy ===
/**
 * `BadgeCommon`: the checks a badge must pass before `add_badge` is called, and how the proxy's outcome
 * becomes an HTTP status. The proxy call's outcome is an input.
 */
module BadgeApi {
  import opened Common
  import opened ResourceTypes
  import Http

  /** A badge as the handler builds it; two badges are equal when their three fields are. */
  datatype Badge = Badge(name: string, category: string, badgeType: string)

  /** What `put` did: its reply, and the badge it passed to `add_badge` if it called it. */
  datatype BadgePut = BadgePut(reply: Http.Reply<()>, addBadgeCall: Option<(string, ResourceType, Badge)>)

  /** Every whitelist entry equals the incoming badge, the condition under which the loop lets it through. */
  predicate AllEqual(whitelist: seq<Badge>, incoming: Badge)
  {
    forall j :: 0 <= j < |whitelist| ==> whitelist[j] == incoming
  }

  /**
   * `BadgeCommon.put` as written: NOT_FOUND for an empty category or badge type; then NOT_FOUND at the
   * first whitelist entry that differs from the incoming badge; then `add_badge`, whose success is OK
   * and any exception NOT_FOUND.
   */
  method PutBadge(id: string, resourceType: ResourceType, badge: Badge, whitelist: seq<Badge>, addBadge: Result<()>)
    returns (r: BadgePut)
    ensures r.addBadgeCall.Some? <==> badge.category != "" && badge.badgeType != "" && AllEqual(whitelist, badge)
    ensures r.addBadgeCall.Some? ==> r.addBadgeCall.value == (id, resourceType, badge)
    ensures r.reply == Http.Respond(Http.Ok, ()) <==> r.addBadgeCall.Some? && addBadge.Success?
    ensures r.reply.Respond? && (r.reply.status == Http.Ok || r.reply.status == Http.NotFound)
  {
    if badge.badgeType == "" || badge.category == "" {
      return BadgePut(Http.Respond(Http.NotFound, ()), None);
    }
    var i := 0;
    while i < |whitelist|
      invariant 0 <= i <= |whitelist|
      invariant AllEqual(whitelist[..i], badge)
    {
      if whitelist[i] != badge {
        return BadgePut(Http.Respond(Http.NotFound, ()), None);
      }
      i := i + 1;
    }
    assert whitelist[..i] == whitelist;
    var status := if addBadge.Success? then Http.Ok else Http.NotFound;
    r := BadgePut(Http.Respond(status, ()), Some((id, resourceType, badge)));
  }

  /** `BadgeCommon.put` with the whitelist check its messages describe: the badge must be one of the whitelisted combinations. */
  method PutBadgeCorrected(id: string, resourceType: ResourceType, badge: Badge, whitelist: seq<Badge>, addBadge: Result<()>)
    returns (r: BadgePut)
    ensures r.addBadgeCall.Some? <==> badge.category != "" && badge.badgeType != "" && badge in whitelist
    ensures r.addBadgeCall.Some? ==> r.addBadgeCall.value == (id, resourceType, badge)
    ensures r.reply == Http.Respond(Http.Ok, ()) <==> r.addBadgeCall.Some? && addBadge.Success?
    ensures r.reply.Respond? && (r.reply.status == Http.Ok || r.reply.status == Http.NotFound)
  {
    if badge.badgeType == "" || badge.category == "" {
      return BadgePut(Http.Respond(Http.NotFound, ()), None);
    }
    var i := 0;
    while i < |whitelist|
      invariant 0 <= i <= |whitelist|
      invariant badge !in whitelist[..i]
    {
      if whitelist[i] == badge {
        var status := if addBadge.Success? then Http.Ok else Http.NotFound;
        return BadgePut(Http.Respond(status, ()), Some((id, resourceType, badge)));
      }
      i := i + 1;
    }
    assert whitelist[..i] == whitelist;
    r := BadgePut(Http.Respond(Http.NotFound, ()), None);
  }

  /**
   * The two checks agree on a whitelist holding exactly one badge, and differ on the empty whitelist
   * (as written admits, corrected refuses) and on any whitelist of two different badges.
   */
  lemma WhitelistChecksCompared(w: Badge, incoming: Badge, other: Badge)
    requires other != incoming
    ensures AllEqual([w], incoming) <==> incoming in [w]
    ensures AllEqual([], incoming) && incoming !in []
    ensures !AllEqual([incoming, other], incoming) && incoming in [incoming, other]
  {
    assert [w][0] == w;
    assert [incoming, other][1] == other;
  }

  /** `BadgeCommon.delete`: OK on success, NOT_FOUND on NotFoundException; other exceptions propagate. */
  function DeleteBadge(outcome: Result<()>): (r: Http.Reply<()>)
    ensures r == Http.Respond(Http.Ok, ()) <==> outcome.Success?
    ensures r == Http.Respond(Http.NotFound, ()) <==> outcome.Failure? && outcome.error.NotFound?
    ensures r.Raise? <==> outcome.Failure? && !outcome.error.NotFound?
    ensures r.Raise? ==> r.error == outcome.error
  {
    Http.DeleteReply(outcome)
  }
}

=== FILE: common.dfy ===
/** Failure-compatible wrappers and the error kinds the metadata service raises. */
module Common {

  /** Python's `None` / a present value. */
  datatype Option<+T> = None | Some(value: T) {
    function GetOr(default: T): T {
      match this
      case Some(v) => v
      case None => default
    }
  }

  /** The errors the proxies and API handlers can raise. */
  datatype Error =
    | NotFound(message: string)      // metadata_service.exception.NotFoundException
    | RuntimeError(message: string)  // a write whose relation query matched no row
    | NotImplemented(message: string)
    | KeyError(key: string)          // enum lookup or dict access on a missing key
    | IndexError                     // list index out of range
    | NoResult                       // a traversal's `next()` on an empty stream (StopIteration)
    | AttributeError                 // `.get` called on a value that is not a dict
    | ServerError(message: string)   // the graph server rejected the request and rolled it back

  /** The outcome of a call that either returns a value or raises. */
  datatype Result<+T> = Success(value: T) | Failure(error: Error) {
    predicate IsFailure() {
      Failure?
    }

    function PropagateFailure<U>(): Result<U>
      requires Failure?
    {
      Failure(error)
    }

    function Extract(): T
      requires Success?
    {
      value
    }
  }
}

=== FILE: gremlin_proxy.dfy ===
/**
 * `AbstractGremlinProxy`: the writes built from the vertex and edge upserts, the deletes by synthetic
 * edge id, and the reads whose results the proxy post-processes.
 */
module GremlinProxy {
  import opened Common
  import opened Values
  import opened Strings
  import opened Ranking
  import opened TraversalGraph
  import opened ResourceTypes

  /** The key property name (`key`, or `_key`) is not one of the data properties the writes set. */
  predicate DistinctKeyProperty(keyProp: string)
  {
    keyProp != "description" && keyProp != "tag_type" && keyProp != "email"
  }

  /** The key of the Description vertex of a resource. */
  function DescriptionKey(uri: string): string
  {
    uri + "/_description"
  }

  /** The key of a column vertex: `table_uri + '/' + column_name`. */
  function ColumnUri(table: string, column: string): string
  {
    table + "/" + column
  }

  // ---------------------------------------------------------------------------------------------
  // Descriptions

  /**
   * `_put_resource_description`: upsert the Description vertex `uri/_description` with the text, then
   * the DESCRIPTION and DESCRIPTION_OF edges, then `next()`. Without a `uri` vertex the DESCRIPTION
   * upsert yields nothing, the DESCRIPTION_OF create branch still runs and its `to()` finds no vertex:
   * the server raises and nothing is written.
   */
  function PutResourceDescription(g: Store, keyProp: string, uri: string, text: string): (w: Written)
    requires DistinctKeyProperty(keyProp)
    ensures w.result.Success? <==> uri in g.vertices
    ensures w.result.Failure? ==> w.result.error.ServerError? && w.g == g
    ensures w.result.Success? ==> DescriptionKey(uri) in w.g.vertices &&
                                  "description" in w.g.vertices[DescriptionKey(uri)].props &&
                                  w.g.vertices[DescriptionKey(uri)].props["description"] == VStr(text)
    ensures w.result.Success? ==> w.g.vertices.Keys == g.vertices.Keys + {DescriptionKey(uri)}
    ensures w.result.Success? ==> forall k :: k in g.vertices && k != DescriptionKey(uri) ==> w.g.vertices[k] == g.vertices[k]
  {
    DescriptionVertex(g, keyProp, uri, text);
    if uri in g.vertices then
      DescriptionStepsFlow(g, keyProp, uri, text);
      Next(g, DescriptionTraversal(g, keyProp, uri, text))
    else
      DescriptionStepsRaise(g, keyProp, uri, text);
      Next(g, DescriptionTraversal(g, keyProp, uri, text))
  }

  /** The traversal `_put_resource_description` builds, before `next()`. */
  function DescriptionTraversal(g: Store, keyProp: string, uri: string, text: string): Step
    requires DistinctKeyProperty(keyProp)
  {
    var dk := DescriptionKey(uri);
    var s0 := Flowing(UpsertNode(g, keyProp, dk, "Description", map["description" := Some(VStr(text))]));
    var s1 := AndUpsertEdge(s0, keyProp, uri, dk, "DESCRIPTION");
    AndUpsertEdge(s1, keyProp, dk, uri, "DESCRIPTION_OF")
  }

  /** Without the resource vertex the description traversal raises a server error. */
  lemma DescriptionStepsRaise(g: Store, keyProp: string, uri: string, text: string)
    requires DistinctKeyProperty(keyProp)
    requires uri !in g.vertices
    ensures var s := DescriptionTraversal(g, keyProp, uri, text);
            s.Raised? && s.error.ServerError?
  {
    var dk := DescriptionKey(uri);
    assert |dk| > |uri|;
    var s0 := Flowing(UpsertNode(g, keyProp, dk, "Description", map["description" := Some(VStr(text))]));
    var s1 := AndUpsertEdge(s0, keyProp, uri, dk, "DESCRIPTION");
    assert s1.Dry? && s1.g == s0.g;
    assert dk in s1.g.vertices;
  }

  /** With the resource vertex the description traversal flows through, its vertices those of the Description upsert. */
  lemma DescriptionStepsFlow(g: Store, keyProp: string, uri: string, text: string)
    requires DistinctKeyProperty(keyProp)
    requires uri in g.vertices
    ensures var s := DescriptionTraversal(g, keyProp, uri, text);
            s.Flowing? && s.g.vertices == UpsertNode(g, keyProp, DescriptionKey(uri), "Description", map["description" := Some(VStr(text))]).vertices
  {
    var dk := DescriptionKey(uri);
    var s0 := Flowing(UpsertNode(g, keyProp, dk, "Description", map["description" := Some(VStr(text))]));
    var s1 := AndUpsertEdge(s0, keyProp, uri, dk, "DESCRIPTION");
    assert dk in s0.g.vertices;
    assert s1.Flowing? && s1.g.vertices == s0.g.vertices;
  }

  /** The vertices after the Description upsert: the text in place and every other vertex as it was. */
  lemma DescriptionVertex(g: Store, keyProp: string, uri: string, text: string)
    requires DistinctKeyProperty(keyProp)
    ensures var dk := DescriptionKey(uri);
            var vs := UpsertNode(g, keyProp, dk, "Description", map["description" := Some(VStr(text))]).vertices;
            dk in vs && "description" in vs[dk].props && vs[dk].props["description"] == VStr(text) &&
            vs.Keys == g.vertices.Keys + {dk} &&
            forall k :: k in g.vertices && k != dk ==> vs[k] == g.vertices[k]
  {
  }

  /** `put_table_description`: the description write on the table vertex. */
  function PutTableDescription(g: Store, keyProp: string, uri: string, text: string): (w: Written)
    requires DistinctKeyProperty(keyProp)
    ensures w.result.Success? <==> uri in g.vertices
    ensures w.result.Failure? ==> w.result.error.ServerError? && w.g == g
  {
    PutResourceDescription(g, keyProp, uri, text)
  }

  /** The first `description` value among the given vertices, as `values('description').next()` finds it. */
  function FirstDescription(g: Store, targets: seq<string>): (r: Result<Value>)
    requires forall k :: 0 <= k < |targets| ==> targets[k] in g.vertices
    ensures r.Failure? <==> forall k :: 0 <= k < |targets| ==> "description" !in g.vertices[targets[k]].props
    ensures r.Failure? ==> r.error == NoResult
    ensures r.Success? ==> exists k :: 0 <= k < |targets| && "description" in g.vertices[targets[k]].props &&
                                       r.value == g.vertices[targets[k]].props["description"] &&
                                       forall j :: 0 <= j < k ==> "description" !in g.vertices[targets[j]].props
  {
    if |targets| == 0 then Failure(NoResult)
    else if "description" in g.vertices[targets[0]].props then Success(g.vertices[targets[0]].props["description"])
    else
      var r := FirstDescription(g, targets[1..]);
      assert forall k :: 1 <= k < |targets| ==> targets[1..][k - 1] == targets[k];
      if r.Success? then
        var k :| 0 <= k < |targets[1..]| && "description" in g.vertices[targets[1..][k]].props &&
                 r.value == g.vertices[targets[1..][k]].props["description"] &&
                 forall j :: 0 <= j < k ==> "description" !in g.vertices[targets[1..][j]].props;
        assert forall j :: 0 <= j < k + 1 ==> "description" !in g.vertices[targets[j]].props by {
          forall j | 0 <= j < k + 1
            ensures "description" !in g.vertices[targets[j]].props
          {
            if j > 0 {
              assert targets[j] == targets[1..][j - 1];
            }
          }
        }
        r
      else r
  }

  /** `get_table_description`: `V().has(key, uri).out('DESCRIPTION').values('description').next()`. */
  function GetTableDescription(g: Store, uri: string): (r: Result<Value>)
    ensures r.Failure? ==> r.error == NoResult
    ensures r.Success? <==> (uri in g.vertices &&
                             exists i :: 0 <= i < |g.edges| && g.edges[i].src == uri && g.edges[i].kind == "DESCRIPTION" &&
                                         g.edges[i].dst in g.vertices && "description" in g.vertices[g.edges[i].dst].props)
    ensures r.Success? ==>
      exists i :: 0 <= i < |g.edges| && g.edges[i].src == uri && g.edges[i].kind == "DESCRIPTION" &&
                  g.edges[i].dst in g.vertices && "description" in g.vertices[g.edges[i].dst].props &&
                  r.value == g.vertices[g.edges[i].dst].props["description"]
  {
    if uri in g.vertices then
      FirstDescriptionOfOut(g, uri);
      FirstDescription(g, Out(g, uri, "DESCRIPTION"))
    else FirstDescription(g, Out(g, uri, "DESCRIPTION"))
  }

  /** The first described DESCRIPTION target of `uri` is the target of one of its DESCRIPTION edges, and one exists whenever such an edge does. */
  lemma FirstDescriptionOfOut(g: Store, uri: string)
    requires uri in g.vertices
    ensures var r := FirstDescription(g, Out(g, uri, "DESCRIPTION"));
            (r.Success? <==> exists i :: 0 <= i < |g.edges| && g.edges[i].src == uri && g.edges[i].kind == "DESCRIPTION" &&
                                         g.edges[i].dst in g.vertices && "description" in g.vertices[g.edges[i].dst].props) &&
            (r.Success? ==> exists i :: 0 <= i < |g.edges| && g.edges[i].src == uri && g.edges[i].kind == "DESCRIPTION" &&
                                        g.edges[i].dst in g.vertices && "description" in g.vertices[g.edges[i].dst].props &&
                                        r.value == g.vertices[g.edges[i].dst].props["description"])
  {
    var ts := Out(g, uri, "DESCRIPTION");
    var r := FirstDescription(g, ts);
    if r.Success? {
      var k :| 0 <= k < |ts| && "description" in g.vertices[ts[k]].props &&
               r.value == g.vertices[ts[k]].props["description"] &&
               forall j :: 0 <= j < k ==> "description" !in g.vertices[ts[j]].props;
      assert ts[k] in ts;
      var i :| 0 <= i < |g.edges| && g.edges[i].src == uri && g.edges[i].kind == "DESCRIPTION" && g.edges[i].dst == ts[k];
    } else {
      forall i | 0 <= i < |g.edges| && g.edges[i].src == uri && g.edges[i].kind == "DESCRIPTION" && g.edges[i].dst in g.vertices
        ensures "description" !in g.vertices[g.edges[i].dst].props
      {
        assert g.edges[i].dst in ts;
        var k :| 0 <= k < |ts| && ts[k] == g.edges[i].dst;
      }
    }
  }

  /** Every DESCRIPTION edge out of `uri` leads to its own Description vertex, as the writes lay them out. */
  ghost predicate DescribedOnlyBy(g: Store, uri: string)
  {
    forall i :: 0 <= i < |g.edges| && g.edges[i].src == uri && g.edges[i].kind == "DESCRIPTION" ==>
      g.edges[i].dst == DescriptionKey(uri)
  }

  /** The edges a description write adds or reuses keep `uri`'s DESCRIPTION edges pointing at its own Description. */
  lemma PutKeepsDescribedOnlyBy(g: Store, keyProp: string, uri: string, text: string)
    requires DistinctKeyProperty(keyProp)
    requires DescribedOnlyBy(g, uri)
    ensures DescribedOnlyBy(PutResourceDescription(g, keyProp, uri, text).g, uri)
  {
    var dk := DescriptionKey(uri);
    var g0 := UpsertNode(g, keyProp, dk, "Description", map["description" := Some(VStr(text))]);
    assert g0.edges == g.edges;
    if uri in g.vertices {
      var s1 := UpsertEdge(g0, keyProp, uri, dk, "DESCRIPTION", map[]);
      var g1 := s1.g;
      assert DescribedOnlyBy(g1, uri) by {
        forall i | 0 <= i < |g1.edges| && g1.edges[i].src == uri && g1.edges[i].kind == "DESCRIPTION"
          ensures g1.edges[i].dst == dk
        {
          if i < |g0.edges| {
            assert g0.edges[i].src == uri && g0.edges[i].kind == "DESCRIPTION";
          }
        }
      }
      assert |dk| > |uri|;
      var g2 := UpsertEdge(g1, keyProp, dk, uri, "DESCRIPTION_OF", map[]).g;
      forall i | 0 <= i < |g2.edges| && g2.edges[i].src == uri && g2.edges[i].kind == "DESCRIPTION"
        ensures g2.edges[i].dst == dk
      {
        if i < |g1.edges| {
          assert g1.edges[i].src == uri && g1.edges[i].kind == "DESCRIPTION";
        }
      }
    }
  }

  /**
   * Round trip: after a description write on a resource whose DESCRIPTION edges lead to its own
   * Description vertex, the read returns the text just written.
   */
  lemma PutThenGetTableDescription(g: Store, keyProp: string, uri: string, text: string)
    requires DistinctKeyProperty(keyProp)
    requires uri in g.vertices
    requires DescribedOnlyBy(g, uri)
    ensures var w := PutTableDescription(g, keyProp, uri, text);
            w.result.Success? && DescribedOnlyBy(w.g, uri) && GetTableDescription(w.g, uri) == Success(VStr(text))
  {
    var dk := DescriptionKey(uri);
    var w := PutTableDescription(g, keyProp, uri, text);
    PutKeepsDescribedOnlyBy(g, keyProp, uri, text);
    var g0 := UpsertNode(g, keyProp, dk, "Description", map["description" := Some(VStr(text))]);
    var g1 := UpsertEdge(g0, keyProp, uri, dk, "DESCRIPTION", map[]).g;
    UpsertEdgeFinds(g0, keyProp, uri, dk, "DESCRIPTION", map[]);
    var i :| 0 <= i < |g1.edges| && Matches(g1.edges[i], keyProp, uri, "DESCRIPTION", EdgeId(uri, dk, "DESCRIPTION"));
    var g2 := w.g;
    assert g2.edges[i].src == uri && g2.edges[i].kind == "DESCRIPTION";
    assert g2.edges[i].dst == dk;
    var targets := Out(g2, uri, "DESCRIPTION");
    assert dk in targets;
    assert forall k :: 0 <= k < |targets| ==> targets[k] == dk by {
      forall k | 0 <= k < |targets|
        ensures targets[k] == dk
      {
        assert targets[k] in targets;
      }
    }
  }

  /** A second description write replaces the first: the read returns the latest text. */
  lemma SecondPutOverwrites(g: Store, keyProp: string, uri: string, first: string, second: string)
    requires DistinctKeyProperty(keyProp)
    requires uri in g.vertices
    requires DescribedOnlyBy(g, uri)
    ensures var g1 := PutTableDescription(g, keyProp, uri, first).g;
            GetTableDescription(PutTableDescription(g1, keyProp, uri, second).g, uri) == Success(VStr(second))
  {
    PutThenGetTableDescription(g, keyProp, uri, first);
    var g1 := PutTableDescription(g, keyProp, uri, first).g;
    PutThenGetTableDescription(g1, keyProp, uri, second);
  }

  /** `put_column_description`: the same write on the column vertex `table_uri/column_name`. */
  function PutColumnDescription(g: Store, keyProp: string, table: string, column: string, text: string): (w: Written)
    requires DistinctKeyProperty(keyProp)
    ensures w.result.Success? <==> ColumnUri(table, column) in g.vertices
    ensures w.result.Failure? ==> w.result.error.ServerError? && w.g == g
  {
    PutResourceDescription(g, keyProp, ColumnUri(table, column), text)
  }

  /** `get_column_description`: `V().has(key, table_uri/column_name/_description).values('description').next()`. */
  function GetColumnDescription(g: Store, table: string, column: string): (r: Result<Value>)
    ensures var dk := table + "/" + column + "/_description";
            (r.Success? <==> dk in g.vertices && "description" in g.vertices[dk].props) &&
            (r.Success? ==> r.value == g.vertices[dk].props["description"])
    ensures r.Failure? ==> r.error == NoResult
  {
    var dk := DescriptionKey(ColumnUri(table, column));
    if dk in g.vertices && "description" in g.vertices[dk].props then Success(g.vertices[dk].props["description"])
    else Failure(NoResult)
  }

  /** Round trip for columns: on an existing column the read returns the text just written, and a second write replaces it. */
  lemma PutThenGetColumnDescription(g: Store, keyProp: string, table: string, column: string, first: string, second: string)
    requires DistinctKeyProperty(keyProp)
    requires ColumnUri(table, column) in g.vertices
    ensures var g1 := PutColumnDescription(g, keyProp, table, column, first).g;
            GetColumnDescription(g1, table, column) == Success(VStr(first)) &&
            GetColumnDescription(PutColumnDescription(g1, keyProp, table, column, second).g, table, column) == Success(VStr(second))
  {
  }

  // ---------------------------------------------------------------------------------------------
  // Tags

  /**
   * `add_tag`: upsert the Tag vertex with its `tag_type`, then the edges `{tag}_{id}_TAG` and
   * `{id}_{tag}_TAGGED_BY`, then `next()`.
   */
  function AddTag(g: Store, keyProp: string, id: string, tag: string, tagType: string): (w: Written)
    requires DistinctKeyProperty(keyProp)
    ensures w.result.Success? <==> id in g.vertices || id == tag
    ensures w.result.Success? ==> w.g.vertices.Keys == g.vertices.Keys + {tag}
    ensures w.result.Success? ==> "tag_type" in w.g.vertices[tag].props && w.g.vertices[tag].props["tag_type"] == VStr(tagType)
    ensures w.result.Success? ==> AnyMatch(w.g.edges, keyProp, tag, "TAG", EdgeId(tag, id, "TAG"))
    ensures w.result.Success? ==> AnyMatch(w.g.edges, keyProp, id, "TAGGED_BY", EdgeId(id, tag, "TAGGED_BY"))
  {
    var g0 := UpsertNode(g, keyProp, tag, "Tag", map["tag_type" := Some(VStr(tagType))]);
    TagVertex(g, keyProp, tag, tagType);
    var s1 := UpsertEdge(g0, keyProp, tag, id, "TAG", map[]);
    if s1.Flowing? then
      var s2 := UpsertEdge(s1.g, keyProp, id, tag, "TAGGED_BY", map[]);
      if s2.Flowing? then
        AddTagLinks(g0, keyProp, id, tag);
        Next(g, s2)
      else Next(g, s2)
    else Next(g, s1)
  }

  /** The vertices after the Tag upsert: the tag is present with its `tag_type`, and no other id is added. */
  lemma TagVertex(g: Store, keyProp: string, tag: string, tagType: string)
    requires DistinctKeyProperty(keyProp)
    ensures var vs := UpsertNode(g, keyProp, tag, "Tag", map["tag_type" := Some(VStr(tagType))]).vertices;
            tag in vs && "tag_type" in vs[tag].props && vs[tag].props["tag_type"] == VStr(tagType) &&
            vs.Keys == g.vertices.Keys + {tag}
  {
  }

  /** When both edge upserts of `add_tag` go through, both ids are found out of their start vertices. */
  lemma AddTagLinks(g0: Store, keyProp: string, id: string, tag: string)
    requires UpsertEdge(g0, keyProp, tag, id, "TAG", map[]).Flowing?
    requires UpsertEdge(UpsertEdge(g0, keyProp, tag, id, "TAG", map[]).g, keyProp, id, tag, "TAGGED_BY", map[]).Flowing?
    ensures var g1 := UpsertEdge(g0, keyProp, tag, id, "TAG", map[]).g;
            var g2 := UpsertEdge(g1, keyProp, id, tag, "TAGGED_BY", map[]).g;
            AnyMatch(g2.edges, keyProp, tag, "TAG", EdgeId(tag, id, "TAG")) &&
            AnyMatch(g2.edges, keyProp, id, "TAGGED_BY", EdgeId(id, tag, "TAGGED_BY"))
  {
    var g1 := UpsertEdge(g0, keyProp, tag, id, "TAG", map[]).g;
    UpsertEdgeFinds(g0, keyProp, tag, id, "TAG", map[]);
    UpsertEdgeFinds(g1, keyProp, id, tag, "TAGGED_BY", map[]);
    UpsertEdgeKeepsMatches(g1, keyProp, id, tag, "TAGGED_BY", map[], tag, "TAG", EdgeId(tag, id, "TAG"));
  }

  /** Adding the same tag again changes nothing. */
  lemma AddTagIdempotent(g: Store, keyProp: string, id: string, tag: string, tagType: string)
    requires DistinctKeyProperty(keyProp)
    requires AddTag(g, keyProp, id, tag, tagType).result.Success?
    ensures var w := AddTag(g, keyProp, id, tag, tagType);
            AddTag(w.g, keyProp, id, tag, tagType) == w
  {
    var w := AddTag(g, keyProp, id, tag, tagType);
    var G := w.g;
    UpsertNodeSettled(G, keyProp, tag, "Tag", map["tag_type" := Some(VStr(tagType))]);
    UpsertEdgeFound(G, keyProp, tag, id, "TAG");
    UpsertEdgeFound(G, keyProp, id, tag, "TAGGED_BY");
  }

  /** A tag as `get_table` lists it: the tag vertex's key and its `tag_type`. */
  datatype TagRecord = TagRecord(name: string, tagType: Value)

  /** An edge `inE('TAG')` of `id` that leads back to an existing tag vertex. */
  predicate TagEdge(vs: map<string, Vertex>, e: Edge, id: string)
  {
    e.dst == id && e.kind == "TAG" && e.src in vs
  }

  /** The number of `inE('TAG')` edges of `id` that lead back to an existing vertex. */
  function TagEdges(vs: map<string, Vertex>, es: seq<Edge>, id: string): nat
  {
    if |es| == 0 then 0 else TagEdges(vs, es[..|es| - 1], id) + (if TagEdge(vs, es[|es| - 1], id) then 1 else 0)
  }

  /**
   * `inE('TAG').outV().project('tag_id', 'tag_type').by(key).by(__.values('tag_type'))` of `id`, in edge
   * order. A tag vertex without `tag_type` leaves the second `by` without a value, and the server raises.
   */
  function TagsFrom(vs: map<string, Vertex>, es: seq<Edge>, id: string): (r: Result<seq<TagRecord>>)
    ensures r.Failure? <==> exists i :: 0 <= i < |es| && TagEdge(vs, es[i], id) && "tag_type" !in vs[es[i].src].props
    ensures r.Failure? ==> r.error.ServerError?
    ensures r.Success? ==> forall i :: 0 <= i < |es| && TagEdge(vs, es[i], id) ==>
      TagRecord(es[i].src, vs[es[i].src].props["tag_type"]) in r.value
    ensures r.Success? ==> forall t :: t in r.value ==>
      exists i :: 0 <= i < |es| && TagEdge(vs, es[i], id) && "tag_type" in vs[es[i].src].props &&
                  t == TagRecord(es[i].src, vs[es[i].src].props["tag_type"])
    ensures r.Success? ==> |r.value| == TagEdges(vs, es, id)
    decreases |es|
  {
    if |es| == 0 then Success([])
    else
      var init := es[..|es| - 1];
      var e := es[|es| - 1];
      assert forall i :: 0 <= i < |init| ==> init[i] == es[i];
      match TagsFrom(vs, init, id)
      case Failure(err) => Failure(err)
      case Success(rest) =>
        if !TagEdge(vs, e, id) then Success(rest)
        else if "tag_type" !in vs[e.src].props then Failure(ServerError("the tag vertex has no tag_type"))
        else Success(rest + [TagRecord(e.src, vs[e.src].props["tag_type"])])
  }

  /** The tags `get_table` reports for the table `id`; without the vertex, `next()` finds no traverser. */
  function TableTags(g: Store, id: string): (r: Result<seq<TagRecord>>)
    ensures id !in g.vertices ==> r == Failure(NoResult)
    ensures id in g.vertices ==>
      (r.Failure? <==> exists i :: 0 <= i < |g.edges| && TagEdge(g.vertices, g.edges[i], id) &&
                                  "tag_type" !in g.vertices[g.edges[i].src].props)
    ensures r.Success? ==> forall i :: 0 <= i < |g.edges| && TagEdge(g.vertices, g.edges[i], id) ==>
      TagRecord(g.edges[i].src, g.vertices[g.edges[i].src].props["tag_type"]) in r.value
    ensures r.Success? ==> forall t :: t in r.value ==>
      exists i :: 0 <= i < |g.edges| && TagEdge(g.vertices, g.edges[i], id) && "tag_type" in g.vertices[g.edges[i].src].props &&
                  t == TagRecord(g.edges[i].src, g.vertices[g.edges[i].src].props["tag_type"])
    ensures r.Success? ==> |r.value| == TagEdges(g.vertices, g.edges, id)
  {
    if id in g.vertices then TagsFrom(g.vertices, g.edges, id) else Failure(NoResult)
  }

  /**
   * What a successful `add_tag` writes: the tag vertex upserted, the old edges in place, and new edges
   * only from the tag labelled TAG or labelled TAGGED_BY.
   */
  lemma AddTagShape(g: Store, keyProp: string, id: string, tag: string, tagType: string)
    requires DistinctKeyProperty(keyProp)
    requires AddTag(g, keyProp, id, tag, tagType).result.Success?
    ensures var w := AddTag(g, keyProp, id, tag, tagType);
            w.g.vertices == UpsertNode(g, keyProp, tag, "Tag", map["tag_type" := Some(VStr(tagType))]).vertices &&
            KeepsLinks(g.edges, w.g.edges) &&
            forall i :: |g.edges| <= i < |w.g.edges| ==>
              w.g.edges[i].kind == "TAGGED_BY" || (w.g.edges[i].src == tag && w.g.edges[i].kind == "TAG")
  {
    var g0 := UpsertNode(g, keyProp, tag, "Tag", map["tag_type" := Some(VStr(tagType))]);
    var s1 := UpsertEdge(g0, keyProp, tag, id, "TAG", map[]);
    UpsertEdgeTail(g0, keyProp, tag, id, "TAG", map[]);
    var s2 := UpsertEdge(s1.g, keyProp, id, tag, "TAGGED_BY", map[]);
    UpsertEdgeTail(s1.g, keyProp, id, tag, "TAGGED_BY", map[]);
    forall i | |g.edges| <= i < |s2.g.edges|
      ensures s2.g.edges[i].kind == "TAGGED_BY" || (s2.g.edges[i].src == tag && s2.g.edges[i].kind == "TAG")
    {
      if i < |s1.g.edges| {
        assert s2.g.edges[i].kind == s1.g.edges[i].kind && s2.g.edges[i].src == s1.g.edges[i].src;
      }
    }
  }

  /** `add_tag` gives every tag it touches a type, so a table whose tags all had one still lists without raising. */
  lemma AddTagKeepsTagTypes(g: Store, keyProp: string, id: string, tag: string, tagType: string)
    requires DistinctKeyProperty(keyProp)
    requires AddTag(g, keyProp, id, tag, tagType).result.Success?
    requires TagsFrom(g.vertices, g.edges, id).Success?
    ensures var w := AddTag(g, keyProp, id, tag, tagType);
            TagsFrom(w.g.vertices, w.g.edges, id).Success?
  {
    var w := AddTag(g, keyProp, id, tag, tagType);
    AddTagShape(g, keyProp, id, tag, tagType);
    forall i | 0 <= i < |w.g.edges| && TagEdge(w.g.vertices, w.g.edges[i], id)
      ensures "tag_type" in w.g.vertices[w.g.edges[i].src].props
    {
      var src := w.g.edges[i].src;
      if src != tag && i < |g.edges| {
        assert g.edges[i].src == src && g.edges[i].dst == id && g.edges[i].kind == "TAG";
        assert TagEdge(g.vertices, g.edges[i], id);
      }
    }
  }

  /** After `add_tag` on a table whose tags all have a type, `get_table` lists the tag with its type. */
  lemma AddTagListsTag(g: Store, keyProp: string, id: string, tag: string, tagType: string)
    requires DistinctKeyProperty(keyProp)
    requires Canonical(g, keyProp)
    requires AddTag(g, keyProp, id, tag, tagType).result.Success?
    requires TagsFrom(g.vertices, g.edges, id).Success?
    ensures var tags := TableTags(AddTag(g, keyProp, id, tag, tagType).g, id);
            tags.Success? && TagRecord(tag, VStr(tagType)) in tags.value
  {
    var w := AddTag(g, keyProp, id, tag, tagType);
    AddTagKeepsTagTypes(g, keyProp, id, tag, tagType);
    var g0 := UpsertNode(g, keyProp, tag, "Tag", map["tag_type" := Some(VStr(tagType))]);
    assert Canonical(g0, keyProp);
    UpsertEdgeLinks(g0, keyProp, tag, id, "TAG", map[]);
    var g1 := UpsertEdge(g0, keyProp, tag, id, "TAG", map[]).g;
    UpsertEdgeLinks(g1, keyProp, id, tag, "TAGGED_BY", map[]);
    assert Linked(w.g, tag, id, "TAG");
    var i :| 0 <= i < |w.g.edges| && w.g.edges[i].src == tag && w.g.edges[i].dst == id && w.g.edges[i].kind == "TAG";
    assert TagEdge(w.g.vertices, w.g.edges[i], id);
    assert w.g.vertices[tag].props["tag_type"] == VStr(tagType);
  }

  /** The ids `delete_tag` drops: `{tag}_{id}_TAG` and, as written, `{tag}_{id}_TAGGED_BY`. */
  function DeleteTagIds(id: string, tag: string): set<string>
  {
    {EdgeId(tag, id, "TAG"), EdgeId(tag, id, "TAGGED_BY")}
  }

  /** `delete_tag`: drops every edge whose id is one of `DeleteTagIds`, and nothing else. */
  function DeleteTag(g: Store, keyProp: string, id: string, tag: string): (r: Store)
    ensures r.vertices == g.vertices
    ensures forall e :: e in r.edges <==>
      e in g.edges && !HasId(e, keyProp, EdgeId(tag, id, "TAG")) && !HasId(e, keyProp, EdgeId(tag, id, "TAGGED_BY"))
  {
    DeleteEdges(g, keyProp, DeleteTagIds(id, tag))
  }

  /**
   * After `delete_tag` on a canonical store, `get_table` no longer lists the tag on that table, and a
   * listing that did not raise before does not raise after.
   */
  lemma DeleteTagUnlists(g: Store, keyProp: string, id: string, tag: string)
    requires Canonical(g, keyProp)
    ensures TableTags(g, id).Success? ==> TableTags(DeleteTag(g, keyProp, id, tag), id).Success?
    ensures var tags := TableTags(DeleteTag(g, keyProp, id, tag), id);
            tags.Success? ==> forall t :: t in tags.value ==> t.name != tag
  {
    var r := DeleteTag(g, keyProp, id, tag);
    if id in g.vertices {
      forall i | 0 <= i < |r.edges| && TagEdge(r.vertices, r.edges[i], id)
        ensures TagEdge(g.vertices, r.edges[i], id) && r.edges[i] in g.edges && r.edges[i].src != tag
        ensures TagsFrom(g.vertices, g.edges, id).Success? ==> "tag_type" in r.vertices[r.edges[i].src].props
      {
        var e := r.edges[i];
        assert e in g.edges;
        var j :| 0 <= j < |g.edges| && g.edges[j] == e;
        assert HasId(e, keyProp, EdgeId(e.src, e.dst, e.kind));
      }
      var after := TagsFrom(r.vertices, r.edges, id);
      if after.Success? {
        forall t | t in after.value
          ensures t.name != tag
        {
          var i :| 0 <= i < |r.edges| && TagEdge(r.vertices, r.edges[i], id) && "tag_type" in r.vertices[r.edges[i].src].props &&
                   t == TagRecord(r.edges[i].src, r.vertices[r.edges[i].src].props["tag_type"]);
        }
      }
    }
  }

  /**
   * As written, `delete_tag` leaves the reverse edge behind: the TAGGED_BY edge `add_tag` wrote has
   * the id `{id}_{tag}_TAGGED_BY`, which is not among the ids dropped.
   */
  lemma DeleteTagLeavesReverseEdge(g: Store, keyProp: string, id: string, tag: string, tagType: string)
    requires DistinctKeyProperty(keyProp)
    requires AddTag(g, keyProp, id, tag, tagType).result.Success?
    requires EdgeId(id, tag, "TAGGED_BY") != EdgeId(tag, id, "TAGGED_BY")
    ensures AnyMatch(DeleteTag(AddTag(g, keyProp, id, tag, tagType).g, keyProp, id, tag).edges,
                     keyProp, id, "TAGGED_BY", EdgeId(id, tag, "TAGGED_BY"))
  {
    var G := AddTag(g, keyProp, id, tag, tagType).g;
    var rev := EdgeId(id, tag, "TAGGED_BY");
    var i :| 0 <= i < |G.edges| && Matches(G.edges[i], keyProp, id, "TAGGED_BY", rev);
    var e := G.edges[i];
    assert |rev| != |EdgeId(tag, id, "TAG")|;
    assert !HasId(e, keyProp, EdgeId(tag, id, "TAG")) && !HasId(e, keyProp, EdgeId(tag, id, "TAGGED_BY"));
    assert e in G.edges;
    var r := DeleteTag(G, keyProp, id, tag);
    assert e in r.edges;
    var j :| 0 <= j < |r.edges| && r.edges[j] == e;
    assert Matches(r.edges[j], keyProp, id, "TAGGED_BY", rev);
  }

  /** A concrete case: tag `pii` on table `t`. The edge `t_pii_TAGGED_BY` outlives `delete_tag`. */
  lemma DeleteTagExample()
    ensures var g := Store(map["t" := Vertex("Table", map[])], []);
            var G := AddTag(g, "key", "t", "pii", "default").g;
            AddTag(g, "key", "t", "pii", "default").result.Success? &&
            AnyMatch(DeleteTag(G, "key", "t", "pii").edges, "key", "t", "TAGGED_BY", "t_pii_TAGGED_BY")
  {
    var g := Store(map["t" := Vertex("Table", map[])], []);
    assert EdgeId("t", "pii", "TAGGED_BY") == "t_pii_TAGGED_BY";
    assert EdgeId("pii", "t", "TAGGED_BY") == "pii_t_TAGGED_BY";
    assert EdgeId("t", "pii", "TAGGED_BY") != EdgeId("pii", "t", "TAGGED_BY") by {
      assert EdgeId("t", "pii", "TAGGED_BY")[0] == 't';
      assert EdgeId("pii", "t", "TAGGED_BY")[0] == 'p';
    }
    DeleteTagLeavesReverseEdge(g, "key", "t", "pii", "default");
  }

  /** The ids a delete must drop to undo `add_tag`: the forward id and the reverse id it wrote. */
  function DeleteTagIdsCorrected(id: string, tag: string): set<string>
  {
    {EdgeId(tag, id, "TAG"), EdgeId(id, tag, "TAGGED_BY")}
  }

  /** `delete_tag` with the reverse id `add_tag` actually writes. */
  function DeleteTagCorrected(g: Store, keyProp: string, id: string, tag: string): (r: Store)
    ensures r.vertices == g.vertices
    ensures forall e :: e in r.edges <==>
      e in g.edges && !HasId(e, keyProp, EdgeId(tag, id, "TAG")) && !HasId(e, keyProp, EdgeId(id, tag, "TAGGED_BY"))
  {
    DeleteEdges(g, keyProp, DeleteTagIdsCorrected(id, tag))
  }

  /** On a canonical store the corrected delete removes both directions between the tag and the table. */
  lemma DeleteTagCorrectedUnlinks(g: Store, keyProp: string, id: string, tag: string)
    requires Canonical(g, keyProp)
    ensures !Linked(DeleteTagCorrected(g, keyProp, id, tag), tag, id, "TAG")
    ensures !Linked(DeleteTagCorrected(g, keyProp, id, tag), id, tag, "TAGGED_BY")
  {
    var r := DeleteTagCorrected(g, keyProp, id, tag);
    forall i | 0 <= i < |r.edges|
      ensures !(r.edges[i].src == tag && r.edges[i].dst == id && r.edges[i].kind == "TAG")
      ensures !(r.edges[i].src == id && r.edges[i].dst == tag && r.edges[i].kind == "TAGGED_BY")
    {
      var e := r.edges[i];
      assert e in g.edges;
      var j :| 0 <= j < |g.edges| && g.edges[j] == e;
      assert HasId(e, keyProp, EdgeId(e.src, e.dst, e.kind));
    }
  }

  // ---------------------------------------------------------------------------------------------
  // Owners

  /** A vertex labelled User with that key, as `V().hasLabel('User').has(key, id)` finds it. */
  predicate IsUser(g: Store, v: string)
  {
    v in g.vertices && g.vertices[v].kind == "User"
  }

  /**
   * `get_user`: `project('id', 'email').by(key).by('email').next()` on the User vertex. No such vertex
   * leaves `next()` with nothing; a User without `email` makes the `by('email')` projection raise.
   */
  function GetUser(g: Store, id: string): (r: Result<Value>)
    ensures r.Success? <==> IsUser(g, id) && "email" in g.vertices[id].props
    ensures r.Success? ==> r.value == g.vertices[id].props["email"]
    ensures !IsUser(g, id) ==> r == Failure(NoResult)
    ensures IsUser(g, id) && r.Failure? ==> r.error.ServerError?
  {
    if !IsUser(g, id) then Failure(NoResult)
    else if "email" !in g.vertices[id].props then Failure(ServerError("the User vertex has no email"))
    else Success(g.vertices[id].props["email"])
  }

  /** `add_owner`: look the owner up with `get_user` (raising when that does), then upsert the OWNER edge only. */
  function AddOwner(g: Store, keyProp: string, table: string, owner: string): (w: Written)
    ensures GetUser(g, owner).Failure? ==> w == Written(g, Failure(GetUser(g, owner).error))
    ensures GetUser(g, owner).Success? && table in g.vertices ==> w.result.Success?
    ensures w.result.Success? <==>
              GetUser(g, owner).Success? &&
              (table in g.vertices || AnyMatch(g.edges, keyProp, owner, "OWNER", EdgeId(owner, table, "OWNER")))
    ensures GetUser(g, owner).Success? && w.result.Failure? ==> w.result.error.ServerError?
    ensures w.result.Failure? ==> w.g == g
    ensures w.result.Success? ==> w.g.vertices == g.vertices &&
                                  AnyMatch(w.g.edges, keyProp, owner, "OWNER", EdgeId(owner, table, "OWNER"))
  {
    match GetUser(g, owner)
    case Failure(e) => Written(g, Failure(e))
    case Success(_) =>
      var s := UpsertEdge(g, keyProp, owner, table, "OWNER", map[]);
      CountMatchesPositive(g.edges, keyProp, owner, "OWNER", EdgeId(owner, table, "OWNER"));
      if s.Flowing? then
        CountMatchesPositive(s.g.edges, keyProp, owner, "OWNER", EdgeId(owner, table, "OWNER"));
        Next(g, s)
      else Next(g, s)
  }

  /** `delete_owner`: drops the edges `{owner}_{table}_OWNER` and `{table}_{owner}_OWNER_OF`, and nothing else. */
  function DeleteOwner(g: Store, keyProp: string, table: string, owner: string): (r: Store)
    ensures r.vertices == g.vertices
    ensures forall e :: e in r.edges <==>
      e in g.edges && !HasId(e, keyProp, EdgeId(owner, table, "OWNER")) && !HasId(e, keyProp, EdgeId(table, owner, "OWNER_OF"))
  {
    DeleteEdges(g, keyProp, {EdgeId(owner, table, "OWNER"), EdgeId(table, owner, "OWNER_OF")})
  }

  /** On a canonical store, `delete_owner` removes every OWNER edge from the owner to the table and every OWNER_OF edge back. */
  lemma DeleteOwnerUnlinks(g: Store, keyProp: string, table: string, owner: string)
    requires Canonical(g, keyProp)
    ensures !Linked(DeleteOwner(g, keyProp, table, owner), owner, table, "OWNER")
    ensures !Linked(DeleteOwner(g, keyProp, table, owner), table, owner, "OWNER_OF")
  {
    var r := DeleteOwner(g, keyProp, table, owner);
    forall i | 0 <= i < |r.edges|
      ensures !(r.edges[i].src == owner && r.edges[i].dst == table && r.edges[i].kind == "OWNER")
      ensures !(r.edges[i].src == table && r.edges[i].dst == owner && r.edges[i].kind == "OWNER_OF")
    {
      var e := r.edges[i];
      assert e in g.edges;
      var j :| 0 <= j < |g.edges| && g.edges[j] == e;
      assert HasId(e, keyProp, EdgeId(e.src, e.dst, e.kind));
    }
  }

  // ---------------------------------------------------------------------------------------------
  // Relations between users and resources

  /** The edge label a relation is written under, and the label of its reverse edge if it has one. */
  datatype RelationLabels = RelationLabels(forward: string, reverse: Option<string>)

  function Labels(rel: UserResourceRel): (r: Result<RelationLabels>)
    ensures r.Failure? <==> rel.Unrecognised?
    ensures r.Failure? ==> r.error.NotFound?
  {
    match rel
    case Follow => Success(RelationLabels("FOLLOW", None))
    case Own => Success(RelationLabels("OWNER", Some("OWNER_OF")))
    case Read => Success(RelationLabels("READ", Some("READ_BY")))
    case Unrecognised(_) => Failure(NotFound("Relation type not found"))
  }

  /** Distinct relations are written under distinct labels, and no reverse label is any relation's forward label. */
  lemma LabelsSeparate(a: UserResourceRel, b: UserResourceRel)
    requires Labels(a).Success? && Labels(b).Success?
    ensures a != b ==> Labels(a).value.forward != Labels(b).value.forward
    ensures Labels(a).value.reverse != Some(Labels(b).value.forward)
  {
  }

  /**
   * `add_resource_relation_by_user`: upsert the User vertex (`email` = the user id), then the forward
   * edge and, for own and read, the reverse edge, then `next()`. An unrecognised relation raises
   * NotFound before the traversal runs.
   */
  function AddResourceRelation(g: Store, keyProp: string, id: string, user: string, rel: UserResourceRel): (w: Written)
    requires DistinctKeyProperty(keyProp)
    ensures rel.Unrecognised? ==> w.g == g && w.result.Failure? && w.result.error.NotFound?
    ensures !rel.Unrecognised? && (id in g.vertices || id == user) ==> w.result.Success?
    ensures (rel == Own || rel == Read) ==> (w.result.Success? <==> id in g.vertices || id == user)
    ensures w.result.Success? ==> user in w.g.vertices && "email" in w.g.vertices[user].props &&
                                  w.g.vertices[user].props["email"] == VStr(user)
  {
    match Labels(rel)
    case Failure(e) => Written(g, Failure(e))
    case Success(labels) =>
      var g0 := UpsertNode(g, keyProp, user, "User", map["email" := Some(VStr(user))]);
      var s1 := UpsertEdge(g0, keyProp, user, id, labels.forward, map[]);
      var s2 := if labels.reverse.Some? then AndUpsertEdge(s1, keyProp, id, user, labels.reverse.value) else s1;
      Next(g, s2)
  }

  /** The ids `delete_resource_relation_by_user` drops. */
  function RelationIds(id: string, user: string, labels: RelationLabels): set<string>
  {
    {EdgeId(user, id, labels.forward)} +
    (if labels.reverse.Some? then {EdgeId(id, user, labels.reverse.value)} else {})
  }

  /** `delete_resource_relation_by_user`: drops exactly the forward id and, for own and read, the reverse id. */
  function DeleteResourceRelation(g: Store, keyProp: string, id: string, user: string, rel: UserResourceRel): (w: Written)
    ensures rel.Unrecognised? ==> w.g == g && w.result.Failure? && w.result.error.NotFound?
    ensures !rel.Unrecognised? ==> w.result.Success? && w.g.vertices == g.vertices
    ensures rel == Follow ==> forall e :: e in w.g.edges <==>
      e in g.edges && !HasId(e, keyProp, EdgeId(user, id, "FOLLOW"))
    ensures rel == Own ==> forall e :: e in w.g.edges <==>
      e in g.edges && !HasId(e, keyProp, EdgeId(user, id, "OWNER")) && !HasId(e, keyProp, EdgeId(id, user, "OWNER_OF"))
    ensures rel == Read ==> forall e :: e in w.g.edges <==>
      e in g.edges && !HasId(e, keyProp, EdgeId(user, id, "READ")) && !HasId(e, keyProp, EdgeId(id, user, "READ_BY"))
  {
    match Labels(rel)
    case Failure(e) => Written(g, Failure(e))
    case Success(labels) => Written(DeleteEdges(g, keyProp, RelationIds(id, user, labels)), Success(()))
  }

  /** A vertex labelled Table. */
  predicate IsTable(vs: map<string, Vertex>, v: string)
  {
    v in vs && vs[v].kind == "Table"
  }

  /** `outE(label).inV().hasLabel('Table')` out of `user`, as table keys in edge order. */
  function TablesFrom(vs: map<string, Vertex>, es: seq<Edge>, user: string, kind: string): (r: seq<string>)
    ensures forall t :: t in r ==> IsTable(vs, t)
    decreases |es|
  {
    if |es| == 0 then []
    else
      var e := es[|es| - 1];
      TablesFrom(vs, es[..|es| - 1], user, kind)
        + (if e.src == user && e.kind == kind && IsTable(vs, e.dst) then [e.dst] else [])
  }

  /** Every table linked from `user` by `kind` is listed. */
  lemma {:induction false} TablesFromComplete(vs: map<string, Vertex>, es: seq<Edge>, user: string, kind: string, i: nat)
    requires i < |es| && es[i].src == user && es[i].kind == kind && IsTable(vs, es[i].dst)
    ensures es[i].dst in TablesFrom(vs, es, user, kind)
    decreases |es|
  {
    if i < |es| - 1 {
      TablesFromComplete(vs, es[..|es| - 1], user, kind, i);
    }
  }

  /** The listing only looks at edges out of `user` labelled `kind`, and at whether their ends are tables. */
  lemma {:induction false} TablesFromFrame(vs1: map<string, Vertex>, es1: seq<Edge>, vs2: map<string, Vertex>, es2: seq<Edge>,
                                           user: string, kind: string)
    requires |es1| == |es2|
    requires forall i :: 0 <= i < |es1| ==> (es1[i].src == user && es1[i].kind == kind) == (es2[i].src == user && es2[i].kind == kind)
    requires forall i :: 0 <= i < |es1| && es1[i].src == user && es1[i].kind == kind ==>
      es1[i].dst == es2[i].dst && IsTable(vs1, es1[i].dst) == IsTable(vs2, es2[i].dst)
    ensures TablesFrom(vs1, es1, user, kind) == TablesFrom(vs2, es2, user, kind)
    decreases |es1|
  {
    if |es1| > 0 {
      TablesFromFrame(vs1, es1[..|es1| - 1], vs2, es2[..|es2| - 1], user, kind);
    }
  }

  /** `get_table_by_user_relation`: the tables `user` reaches by the relation's forward label. */
  function TablesByRelation(g: Store, user: string, rel: UserResourceRel): (r: Result<seq<string>>)
    ensures r.Failure? <==> rel.Unrecognised?
    ensures r.Failure? ==> r.error.NotFound?
    ensures r.Success? ==> forall t :: t in r.value ==> IsTable(g.vertices, t) && Linked(g, user, t, Labels(rel).value.forward)
  {
    var labels :- Labels(rel);
    var ts := if user in g.vertices then TablesFrom(g.vertices, g.edges, user, labels.forward) else [];
    TablesFromSound(g, user, labels.forward, ts);
    Success(ts)
  }

  lemma TablesFromSound(g: Store, user: string, kind: string, ts: seq<string>)
    requires ts == (if user in g.vertices then TablesFrom(g.vertices, g.edges, user, kind) else [])
    ensures forall t :: t in ts ==> Linked(g, user, t, kind)
  {
    if user in g.vertices {
      TablesFromLinked(g.vertices, g.edges, user, kind);
    }
  }

  lemma {:induction false} TablesFromLinked(vs: map<string, Vertex>, es: seq<Edge>, user: string, kind: string)
    ensures forall t :: t in TablesFrom(vs, es, user, kind) ==>
      exists i :: 0 <= i < |es| && es[i].src == user && es[i].dst == t && es[i].kind == kind
    decreases |es|
  {
    if |es| > 0 {
      var init := es[..|es| - 1];
      TablesFromLinked(vs, init, user, kind);
      forall t | t in TablesFrom(vs, init, user, kind)
        ensures exists i :: 0 <= i < |es| && es[i].src == user && es[i].dst == t && es[i].kind == kind
      {
        var i :| 0 <= i < |init| && init[i].src == user && init[i].dst == t && init[i].kind == kind;
        assert es[i] == init[i];
      }
    }
  }

  /** After a relation is added to a table, listing that relation shows the table. */
  lemma AddRelationListsTable(g: Store, keyProp: string, id: string, user: string, rel: UserResourceRel)
    requires DistinctKeyProperty(keyProp)
    requires Canonical(g, keyProp)
    requires !rel.Unrecognised?
    requires IsTable(g.vertices, id)
    ensures AddResourceRelation(g, keyProp, id, user, rel).result.Success?
    ensures id in TablesByRelation(AddResourceRelation(g, keyProp, id, user, rel).g, user, rel).value
  {
    var labels := Labels(rel).value;
    var w := AddResourceRelation(g, keyProp, id, user, rel);
    var g0 := UpsertNode(g, keyProp, user, "User", map["email" := Some(VStr(user))]);
    assert Canonical(g0, keyProp);
    UpsertEdgeLinks(g0, keyProp, user, id, labels.forward, map[]);
    var g1 := UpsertEdge(g0, keyProp, user, id, labels.forward, map[]).g;
    if labels.reverse.Some? {
      UpsertEdgeLinks(g1, keyProp, id, user, labels.reverse.value, map[]);
    }
    assert Linked(w.g, user, id, labels.forward);
    var i :| 0 <= i < |w.g.edges| && w.g.edges[i].src == user && w.g.edges[i].dst == id && w.g.edges[i].kind == labels.forward;
    assert IsTable(w.g.vertices, id);
    TablesFromComplete(w.g.vertices, w.g.edges, user, labels.forward, i);
  }

  /**
   * The shape of a relation write that did not raise: the user vertex upserted, the old edges in place,
   * and every new edge labelled with the relation's forward or reverse label.
   */
  lemma RelationWriteShape(g: Store, keyProp: string, id: string, user: string, rel: UserResourceRel)
    requires DistinctKeyProperty(keyProp)
    requires !rel.Unrecognised?
    ensures var w := AddResourceRelation(g, keyProp, id, user, rel);
            var labels := Labels(rel).value;
            w.g == g ||
            (w.g.vertices == UpsertNode(g, keyProp, user, "User", map["email" := Some(VStr(user))]).vertices &&
             KeepsLinks(g.edges, w.g.edges) &&
             forall i :: |g.edges| <= i < |w.g.edges| ==>
               w.g.edges[i].kind == labels.forward || Some(w.g.edges[i].kind) == labels.reverse)
  {
    var labels := Labels(rel).value;
    var g0 := UpsertNode(g, keyProp, user, "User", map["email" := Some(VStr(user))]);
    var s1 := UpsertEdge(g0, keyProp, user, id, labels.forward, map[]);
    if s1.Flowing? {
      UpsertEdgeTail(g0, keyProp, user, id, labels.forward, map[]);
      if labels.reverse.Some? {
        SecondEdgeShape(g0, s1.g, keyProp, id, user, labels.forward, labels.reverse.value);
      }
    }
  }

  /** A second edge upsert after one labelled `first` keeps the earlier edges and adds only `first` and `second` edges. */
  lemma SecondEdgeShape(g0: Store, h: Store, keyProp: string, start: string, end: string, first: string, second: string)
    requires h.vertices == g0.vertices && KeepsLinks(g0.edges, h.edges)
    requires forall i :: |g0.edges| <= i < |h.edges| ==> h.edges[i].kind == first
    ensures var s2 := UpsertEdge(h, keyProp, start, end, second, map[]);
            s2.Flowing? ==>
              s2.g.vertices == g0.vertices && KeepsLinks(g0.edges, s2.g.edges) &&
              forall i :: |g0.edges| <= i < |s2.g.edges| ==> s2.g.edges[i].kind == first || s2.g.edges[i].kind == second
  {
    var s2 := UpsertEdge(h, keyProp, start, end, second, map[]);
    if s2.Flowing? {
      UpsertEdgeTail(h, keyProp, start, end, second, map[]);
      forall i | |g0.edges| <= i < |s2.g.edges|
        ensures s2.g.edges[i].kind == first || s2.g.edges[i].kind == second
      {
        if i < |h.edges| {
          assert s2.g.edges[i].kind == h.edges[i].kind;
        }
      }
    }
  }

  /** Adding one relation never changes which tables another relation lists. */
  lemma AddRelationIsolated(g: Store, keyProp: string, id: string, user: string, rel: UserResourceRel, other: UserResourceRel)
    requires DistinctKeyProperty(keyProp)
    requires Closed(g)
    requires !rel.Unrecognised? && !other.Unrecognised? && rel != other
    ensures TablesByRelation(AddResourceRelation(g, keyProp, id, user, rel).g, user, other) == TablesByRelation(g, user, other)
  {
    var kind := Labels(other).value.forward;
    LabelsSeparate(rel, other);
    LabelsSeparate(other, rel);
    var w := AddResourceRelation(g, keyProp, id, user, rel);
    RelationWriteShape(g, keyProp, id, user, rel);
    if w.g != g {
      assert forall i :: |g.edges| <= i < |w.g.edges| ==> !(w.g.edges[i].src == user && w.g.edges[i].kind == kind);
      ListingAfterUserUpsert(g, keyProp, user, w.g.edges, kind);
    }
  }

  /**
   * Upserting the user vertex and appending edges that are not `kind` edges out of `user` leaves the
   * `kind` listing of `user` as it was (empty when the user was not there before).
   */
  lemma ListingAfterUserUpsert(g: Store, keyProp: string, user: string, es: seq<Edge>, kind: string)
    requires DistinctKeyProperty(keyProp)
    requires Closed(g)
    requires KeepsLinks(g.edges, es)
    requires forall i :: |g.edges| <= i < |es| ==> !(es[i].src == user && es[i].kind == kind)
    ensures var vs0 := UpsertNode(g, keyProp, user, "User", map["email" := Some(VStr(user))]).vertices;
            TablesFrom(vs0, es, user, kind) == if user in g.vertices then TablesFrom(g.vertices, g.edges, user, kind) else []
  {
    var vs0 := UpsertNode(g, keyProp, user, "User", map["email" := Some(VStr(user))]).vertices;
    if user in g.vertices {
      forall i | 0 <= i < |g.edges|
        ensures IsTable(g.vertices, g.edges[i].dst) == IsTable(vs0, g.edges[i].dst)
      {
        assert g.edges[i].dst in g.vertices;
      }
      TablesFromFrame(g.vertices, g.edges, vs0, es[..|g.edges|], user, kind);
      TablesFromTail(vs0, es, |g.edges|, user, kind);
    } else {
      forall i | 0 <= i < |g.edges|
        ensures es[i].src != user
      {
        assert g.edges[i].src in g.vertices;
      }
      TablesFromNone(vs0, es, user, kind);
    }
  }

  /** Edges beyond a prefix that leave `user` under another label add nothing to the listing. */
  lemma {:induction false} TablesFromTail(vs: map<string, Vertex>, es: seq<Edge>, n: nat, user: string, kind: string)
    requires n <= |es|
    requires forall i :: n <= i < |es| ==> !(es[i].src == user && es[i].kind == kind)
    ensures TablesFrom(vs, es, user, kind) == TablesFrom(vs, es[..n], user, kind)
    decreases |es|
  {
    if |es| > n {
      assert es[..|es| - 1][..n] == es[..n];
      TablesFromTail(vs, es[..|es| - 1], n, user, kind);
    } else {
      assert es[..n] == es;
    }
  }

  lemma {:induction false} TablesFromNone(vs: map<string, Vertex>, es: seq<Edge>, user: string, kind: string)
    requires forall i :: 0 <= i < |es| ==> !(es[i].src == user && es[i].kind == kind)
    ensures TablesFrom(vs, es, user, kind) == []
    decreases |es|
  {
    if |es| > 0 {
      TablesFromNone(vs, es[..|es| - 1], user, kind);
    }
  }
}

=== FILE: gremlin_reads.dfy ===
/**
 * The reads of `AbstractGremlinProxy` whose results the proxy ranks or post-processes in Python:
 * the readers of a table, a user's frequently used tables, the re-ordering of popular tables, and
 * the column description and watermark type chosen in `get_table`.
 */
module GremlinReads {
  import opened Common
  import opened Values
  import opened Strings
  import opened Ranking
  import opened TraversalGraph

  // ---------------------------------------------------------------------------------------------
  // Read counts

  /** A `read_count` property as the ordering sees it: an integer, or a value the server cannot rank. */
  function CountValue(v: Value): (r: Result<int>)
    ensures r.Success? <==> v.VInt?
    ensures r.Success? ==> r.value == v.i
  {
    match v
    case VInt(i) => Success(i)
    case _ => Failure(ServerError("read_count is not a number"))
  }

  /** `coalesce(values('read_count'), constant(0))` on one edge. */
  function EdgeCount(e: Edge): (r: Result<int>)
    ensures "read_count" !in e.props ==> r == Success(0)
    ensures "read_count" in e.props ==> r == CountValue(e.props["read_count"])
  {
    if "read_count" in e.props then CountValue(e.props["read_count"]) else Success(0)
  }

  /**
   * `coalesce(inE('READ_BY').values('read_count'), constant(0))` evaluated on a user vertex: the count on
   * the first READ_BY edge into the user that has one, whichever table that edge comes from.
   */
  function FirstCountInto(es: seq<Edge>, user: string): (r: Result<int>)
    ensures (forall i :: 0 <= i < |es| && es[i].dst == user && es[i].kind == "READ_BY" ==> "read_count" !in es[i].props)
            ==> r == Success(0)
    ensures r != Success(0) ==> exists i :: 0 <= i < |es| && es[i].dst == user && es[i].kind == "READ_BY" &&
                                           "read_count" in es[i].props && r == CountValue(es[i].props["read_count"])
  {
    if |es| == 0 then Success(0)
    else if es[0].dst == user && es[0].kind == "READ_BY" && "read_count" in es[0].props then
      CountValue(es[0].props["read_count"])
    else
      var r := FirstCountInto(es[1..], user);
      assert r != Success(0) ==> exists i :: 1 <= i < |es| && es[i].dst == user && es[i].kind == "READ_BY" &&
                                            "read_count" in es[i].props && r == CountValue(es[i].props["read_count"]) by {
        if r != Success(0) {
          var j :| 0 <= j < |es[1..]| && es[1..][j].dst == user && es[1..][j].kind == "READ_BY" &&
                   "read_count" in es[1..][j].props && r == CountValue(es[1..][j].props["read_count"]);
          assert es[j + 1] == es[1..][j];
        }
      }
      r
  }

  // ---------------------------------------------------------------------------------------------
  // Table readers

  /** A `Reader`: the user's key, the user's `email` property and the read count. */
  datatype Reader = Reader(user: string, email: Option<Value>, readCount: int)

  function ReaderCount(r: Reader): int { r.readCount }

  /** Where a reader's count is taken from: as written, or from the READ_BY edge that was followed. */
  datatype CountSource = FirstEdgeIntoUser | FollowedEdge

  function EmailOf(v: Vertex): Option<Value>
  {
    if "email" in v.props then Some(v.props["email"]) else None
  }

  /** The edge `e` followed by `out('READ_BY')` from `table`. */
  predicate ReadByFrom(vs: map<string, Vertex>, e: Edge, table: string)
  {
    e.src == table && e.kind == "READ_BY" && e.dst in vs
  }

  /** The number of READ_BY edges out of `table` that `out('READ_BY')` follows to a vertex. */
  function ReadByEdges(vs: map<string, Vertex>, es: seq<Edge>, table: string): nat
  {
    if |es| == 0 then 0
    else (if ReadByFrom(vs, es[0], table) then 1 else 0) + ReadByEdges(vs, es[1..], table)
  }

  /** The READ_BY edges out of `table` that reach a vertex, in edge order, each as often as it occurs in `es`. */
  function ReadBysOf(vs: map<string, Vertex>, es: seq<Edge>, table: string): (r: seq<Edge>)
    ensures |r| == ReadByEdges(vs, es, table)
    ensures forall k :: 0 <= k < |r| ==> ReadByFrom(vs, r[k], table)
    ensures forall e :: multiset(r)[e] == if ReadByFrom(vs, e, table) then multiset(es)[e] else 0
  {
    if |es| == 0 then []
    else
      assert es == [es[0]] + es[1..];
      if ReadByFrom(vs, es[0], table) then [es[0]] + ReadBysOf(vs, es[1..], table) else ReadBysOf(vs, es[1..], table)
  }

  /** The count a reader reached along `e` is shown with: as written, or from `e` itself. */
  function ReaderCountOf(all: seq<Edge>, e: Edge, source: CountSource): Result<int>
  {
    if source == FirstEdgeIntoUser then FirstCountInto(all, e.dst) else EdgeCount(e)
  }

  /**
   * `project('user_id', 'email', 'read_count')` over the followed READ_BY edges, one record per edge in
   * order; `count` is how the `read_count` of a record is found from its edge.
   */
  function ProjectReaders(vs: map<string, Vertex>, followed: seq<Edge>, count: Edge -> Result<int>): (r: Result<seq<Reader>>)
    requires forall k :: 0 <= k < |followed| ==> followed[k].dst in vs
    ensures r.Failure? <==> exists i :: 0 <= i < |followed| && count(followed[i]).Failure?
    ensures r.Success? ==>
      |r.value| == |followed| &&
      forall k :: 0 <= k < |r.value| ==> r.value[k].user == followed[k].dst && r.value[k].email == EmailOf(vs[followed[k].dst]) &&
                                         count(followed[k]) == Success(r.value[k].readCount)
  {
    if |followed| == 0 then Success([])
    else
      var e := followed[0];
      var tail := ProjectReaders(vs, followed[1..], count);
      assert forall i :: 1 <= i < |followed| ==> followed[i] == followed[1..][i - 1];
      var c := count(e);
      if c.Failure? then Failure(c.error)
      else if tail.Failure? then Failure(tail.error)
      else Success([Reader(e.dst, EmailOf(vs[e.dst]), c.value)] + tail.value)
  }

  /**
   * `out('READ_BY').project('user_id', 'email', 'read_count')` before ordering: one record per READ_BY
   * edge out of `table`, in edge order; `all` is the whole edge list the count is looked up in.
   */
  function ReadersFrom(vs: map<string, Vertex>, es: seq<Edge>, all: seq<Edge>, table: string, source: CountSource): (r: Result<seq<Reader>>)
    ensures r.Success? ==> |r.value| == ReadByEdges(vs, es, table)
    ensures r.Success? ==> forall k :: 0 <= k < |r.value| ==> ReadByVia(vs, es, table, r.value[k], source)
    ensures r.Failure? <==> exists i :: 0 <= i < |es| && ReadByFrom(vs, es[i], table) && ReaderCountOf(all, es[i], source).Failure?
    ensures r.Success? ==>
      var followed := ReadBysOf(vs, es, table);
      |r.value| == |followed| &&
      forall k :: 0 <= k < |r.value| ==> r.value[k].user == followed[k].dst && r.value[k].email == EmailOf(vs[followed[k].dst]) &&
                                         ReaderCountOf(all, followed[k], source) == Success(r.value[k].readCount)
  {
    var followed := ReadBysOf(vs, es, table);
    var r := ProjectReaders(vs, followed, e => ReaderCountOf(all, e, source));
    FollowedWitness(vs, es, table, e => ReaderCountOf(all, e, source).Failure?);
    if r.Success? then
      ReadersAreVia(vs, es, all, table, source, r.value);
      r
    else r
  }

  /** Records paired one to one with the followed READ_BY edges each stand for such an edge. */
  lemma ReadersAreVia(vs: map<string, Vertex>, es: seq<Edge>, all: seq<Edge>, table: string, source: CountSource, rs: seq<Reader>)
    requires var followed := ReadBysOf(vs, es, table);
             |rs| == |followed| &&
             forall k :: 0 <= k < |rs| ==> rs[k].user == followed[k].dst && rs[k].email == EmailOf(vs[followed[k].dst]) &&
                                           ReaderCountOf(all, followed[k], source) == Success(rs[k].readCount)
    ensures forall k :: 0 <= k < |rs| ==> ReadByVia(vs, es, table, rs[k], source)
  {
    var followed := ReadBysOf(vs, es, table);
    forall k | 0 <= k < |rs|
      ensures ReadByVia(vs, es, table, rs[k], source)
    {
      assert followed[k] in es by {
        ReadBysOfMembers(vs, es, table);
      }
      var i :| 0 <= i < |es| && es[i] == followed[k];
    }
  }

  /** Some followed edge satisfies `bad` exactly when some READ_BY edge of `table` in `es` does. */
  lemma FollowedWitness(vs: map<string, Vertex>, es: seq<Edge>, table: string, bad: Edge -> bool)
    ensures var followed := ReadBysOf(vs, es, table);
            (exists m :: 0 <= m < |followed| && bad(followed[m])) <==>
            (exists i :: 0 <= i < |es| && ReadByFrom(vs, es[i], table) && bad(es[i]))
  {
    var followed := ReadBysOf(vs, es, table);
    forall m | 0 <= m < |followed| && bad(followed[m])
      ensures exists i :: 0 <= i < |es| && ReadByFrom(vs, es[i], table) && bad(es[i])
    {
      assert followed[m] in es by {
        ReadBysOfMembers(vs, es, table);
      }
      var i :| 0 <= i < |es| && es[i] == followed[m];
    }
    forall i | 0 <= i < |es| && ReadByFrom(vs, es[i], table) && bad(es[i])
      ensures exists m :: 0 <= m < |followed| && bad(followed[m])
    {
      assert es[i] in followed by {
        ReadBysOfMembers(vs, es, table);
      }
      var m :| 0 <= m < |followed| && followed[m] == es[i];
    }
  }

  /** The edges `ReadBysOf` keeps are exactly the followed READ_BY edges of `table` in `es`. */
  lemma ReadBysOfMembers(vs: map<string, Vertex>, es: seq<Edge>, table: string)
    ensures forall e :: e in ReadBysOf(vs, es, table) <==> e in es && ReadByFrom(vs, e, table)
  {
    var r := ReadBysOf(vs, es, table);
    forall e
      ensures e in r <==> e in es && ReadByFrom(vs, e, table)
    {
      assert e in r <==> multiset(r)[e] > 0;
      assert e in es <==> multiset(es)[e] > 0;
    }
  }

  /**
   * `reader` stands for a READ_BY edge out of `table` in `es`, carries its user's `email`, and, when the
   * count is taken from the followed edge, carries that edge's count.
   */
  ghost predicate ReadByVia(vs: map<string, Vertex>, es: seq<Edge>, table: string, reader: Reader, source: CountSource)
  {
    exists i :: 0 <= i < |es| && ReadByFrom(vs, es[i], table) && es[i].dst == reader.user &&
                reader.email == EmailOf(vs[reader.user]) &&
                (source == FollowedEdge ==> EdgeCount(es[i]) == Success(reader.readCount))
  }

  lemma ReadByViaTail(vs: map<string, Vertex>, es: seq<Edge>, table: string, reader: Reader, source: CountSource)
    requires |es| > 0
    requires ReadByVia(vs, es[1..], table, reader, source)
    ensures ReadByVia(vs, es, table, reader, source)
  {
    var j :| 0 <= j < |es[1..]| && ReadByFrom(vs, es[1..][j], table) && es[1..][j].dst == reader.user &&
             (source == FollowedEdge ==> EdgeCount(es[1..][j]) == Success(reader.readCount));
    assert es[j + 1] == es[1..][j];
  }

  /**
   * `_get_table_users`: the readers of `table` ordered by read count descending, at most five. As
   * written (`FirstEdgeIntoUser`) a reader's count is looked up from the user's side.
   */
  function TableReaders(g: Store, table: string, source: CountSource): (r: Result<seq<Reader>>)
    ensures table !in g.vertices ==> r == Success([])
    ensures r.Success? ==> SortedDescBy(r.value, ReaderCount)
    ensures table in g.vertices ==> (r.Success? <==> ReadersFrom(g.vertices, g.edges, g.edges, table, source).Success?)
    ensures table in g.vertices && r.Success? ==> |r.value| == Min(ReadByEdges(g.vertices, g.edges, table), 5)
    ensures table in g.vertices && r.Success? ==>
              var all := ReadersFrom(g.vertices, g.edges, g.edges, table, source).value;
              multiset(r.value) <= multiset(all) &&
              forall i, j :: 0 <= i < |all| && all[i] !in r.value && 0 <= j < |r.value| ==> all[i].readCount <= r.value[j].readCount
  {
    if table !in g.vertices then Success([])
    else
      var records :- ReadersFrom(g.vertices, g.edges, g.edges, table, source);
      Success(TopBy(records, ReaderCount, 5))
  }

  /**
   * Every reader listed is a user the table has a READ_BY edge to; with the count taken from the followed
   * edge, the count shown is the one on that edge.
   */
  lemma TableReadersAreReaders(g: Store, table: string, source: CountSource)
    requires TableReaders(g, table, source).Success?
    ensures var rs := TableReaders(g, table, source).value;
            forall k :: 0 <= k < |rs| ==> ReadByVia(g.vertices, g.edges, table, rs[k], source)
  {
    if table in g.vertices {
      var records := ReadersFrom(g.vertices, g.edges, g.edges, table, source).value;
      var rs := TableReaders(g, table, source).value;
      forall k | 0 <= k < |rs|
        ensures ReadByVia(g.vertices, g.edges, table, rs[k], source)
      {
        assert rs[k] in multiset(rs);
        assert rs[k] in multiset(records);
        var m :| 0 <= m < |records| && records[m] == rs[k];
      }
    }
  }

  /** A store in which user `u` read table `t2` seven times and table `t1` once; `t2`'s edge comes first. */
  function TwoReadsStore(): Store
  {
    Store(map["t1" := Vertex("Table", map[]), "t2" := Vertex("Table", map[]), "u" := Vertex("User", map[])],
          [Edge("t2", "u", "READ_BY", map["read_count" := VInt(7)]),
           Edge("t1", "u", "READ_BY", map["read_count" := VInt(1)])])
  }

  /** As written, `t1`'s only reader is reported with `t2`'s count of seven, though `u` read `t1` once. */
  lemma ReaderCountFromOtherTable()
    ensures TableReaders(TwoReadsStore(), "t1", FirstEdgeIntoUser) == Success([Reader("u", None, 7)])
  {
    var g := TwoReadsStore();
    TwoReadsFollowed();
    TwoReadsFirstCount();
    OneReader(g, "t1", FirstEdgeIntoUser, g.edges[1], 7);
  }

  /** Taking the count from the edge followed, `t1`'s reader is reported with its own count of one. */
  lemma ReaderCountFromFollowedEdge()
    ensures TableReaders(TwoReadsStore(), "t1", FollowedEdge) == Success([Reader("u", None, 1)])
  {
    var g := TwoReadsStore();
    TwoReadsFollowed();
    assert EdgeCount(g.edges[1]) == Success(1);
    OneReader(g, "t1", FollowedEdge, g.edges[1], 1);
  }

  /** A table with a single followed READ_BY edge, whose count is found, has that edge's user as its only reader. */
  lemma OneReader(g: Store, table: string, source: CountSource, e: Edge, count: int)
    requires table in g.vertices
    requires ReadBysOf(g.vertices, g.edges, table) == [e]
    requires ReaderCountOf(g.edges, e, source) == Success(count)
    ensures TableReaders(g, table, source) == Success([Reader(e.dst, EmailOf(g.vertices[e.dst]), count)])
  {
    var reader := Reader(e.dst, EmailOf(g.vertices[e.dst]), count);
    var f := ReadersFrom(g.vertices, g.edges, g.edges, table, source);
    assert f.Success? by {
      forall i | 0 <= i < |g.edges| && ReadByFrom(g.vertices, g.edges[i], table)
        ensures ReaderCountOf(g.edges, g.edges[i], source).Success?
      {
        assert g.edges[i] in [e] by {
          ReadBysOfMembers(g.vertices, g.edges, table);
        }
      }
    }
    assert f.value[0] == reader;
    assert f.value == [reader];
    assert TopBy([reader], ReaderCount, 5) == [reader];
  }

  /** As written, the count looked up for `u` is the one on `t2`'s edge, the first into `u`. */
  lemma TwoReadsFirstCount()
    ensures FirstCountInto(TwoReadsStore().edges, "u") == Success(7)
    ensures ReaderCountOf(TwoReadsStore().edges, TwoReadsStore().edges[1], FirstEdgeIntoUser) == Success(7)
  {
    var es := TwoReadsStore().edges;
    assert es[0].dst == "u" && es[0].kind == "READ_BY" && "read_count" in es[0].props;
  }

  /** In `TwoReadsStore`, `t1` has exactly one READ_BY edge, the second one. */
  lemma TwoReadsFollowed()
    ensures var g := TwoReadsStore();
            ReadBysOf(g.vertices, g.edges, "t1") == [g.edges[1]] && ReadByFrom(g.vertices, g.edges[1], "t1") &&
            !ReadByFrom(g.vertices, g.edges[0], "t1") && g.edges[1].dst == "u"
  {
    var g := TwoReadsStore();
    var es := g.edges;
    assert es[1..][1..] == [];
    assert es[1..][0] == es[1];
  }

  // ---------------------------------------------------------------------------------------------
  // Frequently used tables

  /** One row of `get_frequently_used_tables` before ordering: the table read and the edge's read count. */
  datatype FrequentRecord = FrequentRecord(table: string, readCount: int)

  function FrequentCount(r: FrequentRecord): int { r.readCount }

  predicate ReadOf(e: Edge, user: string)
  {
    e.src == user && e.kind == "READ"
  }

  /** The number of READ edges out of `user`. */
  function ReadEdges(es: seq<Edge>, user: string): (n: nat)
    ensures n == 0 <==> forall i :: 0 <= i < |es| ==> !ReadOf(es[i], user)
  {
    if |es| == 0 then 0
    else
      var n := ReadEdges(es[1..], user);
      assert n == 0 <==> forall i :: 1 <= i < |es| ==> !ReadOf(es[i], user) by {
        assert forall i :: 1 <= i < |es| ==> es[i] == es[1..][i - 1];
      }
      (if ReadOf(es[0], user) then 1 else 0) + n
  }

  /** The READ edges out of `user` in edge order, each as often as it occurs in `es`. */
  function ReadsOf(es: seq<Edge>, user: string): (r: seq<Edge>)
    ensures |r| == ReadEdges(es, user)
    ensures forall e :: multiset(r)[e] == if ReadOf(e, user) then multiset(es)[e] else 0
  {
    if |es| == 0 then []
    else
      assert es == [es[0]] + es[1..];
      if ReadOf(es[0], user) then [es[0]] + ReadsOf(es[1..], user) else ReadsOf(es[1..], user)
  }

  /** The READ edge `e` cannot be projected: its `read_count` is missing or not a number. */
  predicate Unprojectable(e: Edge)
  {
    "read_count" !in e.props || !e.props["read_count"].VInt?
  }

  /** `record` stands for a READ edge of `user` carrying its table and integer read count. */
  ghost predicate ReadRecorded(es: seq<Edge>, user: string, record: FrequentRecord)
  {
    exists i :: 0 <= i < |es| && ReadOf(es[i], user) && es[i].dst == record.table &&
                "read_count" in es[i].props && es[i].props["read_count"] == VInt(record.readCount)
  }

  /** `project(..., 'read_count').by('read_count')` over READ edges, one record per edge in order. */
  function ProjectReads(readEdges: seq<Edge>): (r: Result<seq<FrequentRecord>>)
    ensures r.Failure? <==> exists i :: 0 <= i < |readEdges| && Unprojectable(readEdges[i])
    ensures r.Failure? ==> r.error.ServerError?
    ensures r.Success? ==>
      |r.value| == |readEdges| &&
      forall k :: 0 <= k < |r.value| ==> r.value[k].table == readEdges[k].dst && "read_count" in readEdges[k].props &&
                                         readEdges[k].props["read_count"] == VInt(r.value[k].readCount)
  {
    if |readEdges| == 0 then Success([])
    else
      var e := readEdges[0];
      var tail := ProjectReads(readEdges[1..]);
      assert forall i :: 1 <= i < |readEdges| ==> readEdges[i] == readEdges[1..][i - 1];
      if "read_count" !in e.props then Failure(ServerError("read_count is missing"))
      else
        var count := CountValue(e.props["read_count"]);
        if count.Failure? then Failure(count.error)
        else if tail.Failure? then Failure(tail.error)
        else Success([FrequentRecord(e.dst, count.value)] + tail.value)
  }

  /**
   * `outE('READ').project(..., 'read_count').by('read_count')`: one record per READ edge of `user`, in
   * edge order; an edge without an integer `read_count` cannot be projected and the server raises.
   */
  function FrequentFrom(es: seq<Edge>, user: string): (r: Result<seq<FrequentRecord>>)
    ensures r.Success? ==> |r.value| == ReadEdges(es, user)
    ensures r.Failure? ==> r.error.ServerError?
    ensures r.Success? ==> forall k :: 0 <= k < |r.value| ==> ReadRecorded(es, user, r.value[k])
    ensures r.Failure? <==> exists i :: 0 <= i < |es| && ReadOf(es[i], user) && Unprojectable(es[i])
    ensures r.Success? ==>
      var readEdges := ReadsOf(es, user);
      |r.value| == |readEdges| &&
      forall k :: 0 <= k < |r.value| ==> r.value[k].table == readEdges[k].dst && "read_count" in readEdges[k].props &&
                                         readEdges[k].props["read_count"] == VInt(r.value[k].readCount)
  {
    var r := ProjectReads(ReadsOf(es, user));
    ReadsWitness(es, user, Unprojectable);
    if r.Success? then
      RecordsAreRead(es, user, r.value);
      r
    else r
  }

  /** Records paired one to one with the READ edges of `user` each stand for such an edge. */
  lemma RecordsAreRead(es: seq<Edge>, user: string, rs: seq<FrequentRecord>)
    requires var readEdges := ReadsOf(es, user);
             |rs| == |readEdges| &&
             forall k :: 0 <= k < |rs| ==> rs[k].table == readEdges[k].dst && "read_count" in readEdges[k].props &&
                                           readEdges[k].props["read_count"] == VInt(rs[k].readCount)
    ensures forall k :: 0 <= k < |rs| ==> ReadRecorded(es, user, rs[k])
  {
    var readEdges := ReadsOf(es, user);
    forall k | 0 <= k < |rs|
      ensures ReadRecorded(es, user, rs[k])
    {
      assert readEdges[k] in es && ReadOf(readEdges[k], user) by {
        ReadsOfMembers(es, user);
      }
      var i :| 0 <= i < |es| && es[i] == readEdges[k];
    }
  }

  /** Some READ edge `ReadsOf` keeps satisfies `bad` exactly when some READ edge of `user` in `es` does. */
  lemma ReadsWitness(es: seq<Edge>, user: string, bad: Edge -> bool)
    ensures var readEdges := ReadsOf(es, user);
            (exists m :: 0 <= m < |readEdges| && bad(readEdges[m])) <==>
            (exists i :: 0 <= i < |es| && ReadOf(es[i], user) && bad(es[i]))
  {
    var readEdges := ReadsOf(es, user);
    forall m | 0 <= m < |readEdges| && bad(readEdges[m])
      ensures exists i :: 0 <= i < |es| && ReadOf(es[i], user) && bad(es[i])
    {
      assert readEdges[m] in es && ReadOf(readEdges[m], user) by {
        ReadsOfMembers(es, user);
      }
      var i :| 0 <= i < |es| && es[i] == readEdges[m];
    }
    forall i | 0 <= i < |es| && ReadOf(es[i], user) && bad(es[i])
      ensures exists m :: 0 <= m < |readEdges| && bad(readEdges[m])
    {
      assert es[i] in readEdges by {
        ReadsOfMembers(es, user);
      }
      var m :| 0 <= m < |readEdges| && readEdges[m] == es[i];
    }
  }

  /** The edges `ReadsOf` keeps are exactly the READ edges of `user` in `es`. */
  lemma ReadsOfMembers(es: seq<Edge>, user: string)
    ensures forall e :: e in ReadsOf(es, user) <==> e in es && ReadOf(e, user)
  {
    var r := ReadsOf(es, user);
    forall e
      ensures e in r <==> e in es && ReadOf(e, user)
    {
      assert e in r <==> multiset(r)[e] > 0;
      assert e in es <==> multiset(es)[e] > 0;
    }
  }

  /**
   * `get_frequently_used_tables`: the tables the user READ, by the edge's read count descending, at most
   * fifty; NotFound when the user has no READ edge at all.
   */
  function FrequentlyUsed(g: Store, user: string): (r: Result<seq<FrequentRecord>>)
    ensures r.Success? ==> |r.value| == Min(ReadEdges(g.edges, user), 50) && SortedDescBy(r.value, FrequentCount)
    ensures (r.Failure? && r.error.NotFound?) <==> user !in g.vertices || ReadEdges(g.edges, user) == 0
    ensures r.Success? ==> FrequentFrom(g.edges, user).Success? &&
                           multiset(r.value) <= multiset(FrequentFrom(g.edges, user).value)
  {
    if user !in g.vertices then
      Failure(NotFound("User " + user + " does not READ any resources"))
    else
      var records := FrequentFrom(g.edges, user);
      if records.Failure? then
        assert ReadEdges(g.edges, user) != 0 by {
          if ReadEdges(g.edges, user) == 0 {
            FrequentFromNoReads(g.edges, user);
          }
        }
        Failure(records.error)
      else if |records.value| == 0 then
        Failure(NotFound("User " + user + " does not READ any resources"))
      else
        Success(TopBy(records.value, FrequentCount, 50))
  }

  /** Without READ edges nothing can fail to project. */
  lemma {:induction false} FrequentFromNoReads(es: seq<Edge>, user: string)
    requires ReadEdges(es, user) == 0
    ensures FrequentFrom(es, user) == Success([])
  {
    if |es| > 0 {
      FrequentFromNoReads(es[1..], user);
    }
  }

  /**
   * Every table returned was READ by the user with the count shown, and a READ edge left out of the
   * fifty never outranks one returned.
   */
  lemma FrequentlyUsedTop(g: Store, user: string)
    requires FrequentlyUsed(g, user).Success?
    ensures var rs := FrequentlyUsed(g, user).value;
            forall k :: 0 <= k < |rs| ==> ReadRecorded(g.edges, user, rs[k])
    ensures var rs := FrequentlyUsed(g, user).value;
            var all := FrequentFrom(g.edges, user).value;
            forall i, j :: 0 <= i < |all| && all[i] !in rs && 0 <= j < |rs| ==> all[i].readCount <= rs[j].readCount
  {
    var all := FrequentFrom(g.edges, user).value;
    var rs := FrequentlyUsed(g, user).value;
    forall k | 0 <= k < |rs|
      ensures ReadRecorded(g.edges, user, rs[k])
    {
      assert rs[k] in multiset(rs);
      var m :| 0 <= m < |all| && all[m] == rs[k];
    }
    assert rs == TopBy(all, FrequentCount, 50);
  }

  // ---------------------------------------------------------------------------------------------
  // Popular tables

  /** `PopularTable`: the fields `get_popular_tables` projects for each table. */
  datatype PopularTable = PopularTable(database: string, cluster: string, schema: string, name: string, description: string)

  /** One row of the popular-tables projection, with the table's key. */
  datatype PopularRecord = PopularRecord(key: string, table: PopularTable)

  /** Some record carries the key `uri`. */
  predicate HasRecord(records: seq<PopularRecord>, uri: string)
  {
    exists j :: 0 <= j < |records| && records[j].key == uri
  }

  /** `[record for record in records if record['key'] == uri][0]` is the record at index `j`. */
  ghost predicate FirstWithKey(records: seq<PopularRecord>, uri: string, j: int)
  {
    0 <= j < |records| && records[j].key == uri && forall k :: 0 <= k < j ==> records[k].key != uri
  }

  /**
   * The loop of `get_popular_tables`: one table per cached uri, in the cached order, each the first
   * record with that key; a uri without a record raises IndexError. An empty uri list returns `[]`
   * before any query.
   */
  method ReorderPopular(uris: seq<string>, records: seq<PopularRecord>) returns (r: Result<seq<PopularTable>>)
    ensures uris == [] ==> r == Success([])
    ensures r.Success? <==> forall i :: 0 <= i < |uris| ==> HasRecord(records, uris[i])
    ensures r.Failure? ==> r.error == IndexError
    ensures r.Success? ==> |r.value| == |uris|
    ensures r.Success? ==> forall i :: 0 <= i < |uris| ==> exists j :: FirstWithKey(records, uris[i], j) && r.value[i] == records[j].table
  {
    if uris == [] {
      return Success([]);
    }
    var tables: seq<PopularTable> := [];
    var i := 0;
    while i < |uris|
      invariant 0 <= i <= |uris|
      invariant |tables| == i
      invariant forall p :: 0 <= p < i ==> HasRecord(records, uris[p])
      invariant forall p :: 0 <= p < i ==> exists j :: FirstWithKey(records, uris[p], j) && tables[p] == records[j].table
    {
      var j := 0;
      while j < |records| && records[j].key != uris[i]
        invariant 0 <= j <= |records|
        invariant forall k :: 0 <= k < j ==> records[k].key != uris[i]
      {
        j := j + 1;
      }
      if j == |records| {
        assert !HasRecord(records, uris[i]);
        return Failure(IndexError);
      }
      assert FirstWithKey(records, uris[i], j);
      ghost var before := tables;
      tables := tables + [records[j].table];
      assert forall p :: 0 <= p < i ==> tables[p] == before[p];
      assert tables[i] == records[j].table;
      i := i + 1;
    }
    return Success(tables);
  }

  // ---------------------------------------------------------------------------------------------
  // Post-processing in `get_table`

  /** One entry of a column's `column_descriptions`: the text and the Description vertex's label. */
  datatype ColumnDescriptionRecord = ColumnDescriptionRecord(text: string, descriptionType: string)

  /** The text of the first record of the given type. */
  function FirstOfType(ds: seq<ColumnDescriptionRecord>, kind: string): (r: Option<string>)
    ensures r.None? <==> forall i :: 0 <= i < |ds| ==> ds[i].descriptionType != kind
    ensures r.Some? ==> exists i :: 0 <= i < |ds| && ds[i].descriptionType == kind && ds[i].text == r.value &&
                                    forall k :: 0 <= k < i ==> ds[k].descriptionType != kind
  {
    if |ds| == 0 then None
    else if ds[0].descriptionType == kind then Some(ds[0].text)
    else
      var r := FirstOfType(ds[1..], kind);
      assert r.Some? ==> exists i :: 1 <= i < |ds| && ds[i].descriptionType == kind && ds[i].text == r.value &&
                                     forall k :: 0 <= k < i ==> ds[k].descriptionType != kind by {
        if r.Some? {
          var j :| 0 <= j < |ds[1..]| && ds[1..][j].descriptionType == kind && ds[1..][j].text == r.value &&
                   forall k :: 0 <= k < j ==> ds[1..][k].descriptionType != kind;
          assert forall k :: 1 <= k < j + 1 ==> ds[k] == ds[1..][k - 1];
        }
      }
      assert r.None? ==> forall i :: 0 <= i < |ds| ==> ds[i].descriptionType != kind by {
        if r.None? {
          forall i | 0 <= i < |ds| ensures ds[i].descriptionType != kind {
            if i > 0 { assert ds[i] == ds[1..][i - 1]; }
          }
        }
      }
      r
  }

  /** A column's description: the first `Description` text, else the first `Programmatic_Description`, else `''`. */
  function ColumnDescription(ds: seq<ColumnDescriptionRecord>): (r: string)
    ensures r == "" || exists i :: 0 <= i < |ds| && ds[i].text == r &&
                                   (ds[i].descriptionType == "Description" || ds[i].descriptionType == "Programmatic_Description")
  {
    match FirstOfType(ds, "Description")
    case Some(t) => t
    case None => FirstOfType(ds, "Programmatic_Description").GetOr("")
  }

  /** A user-written description wins over any programmatic one, wherever they stand in the list. */
  lemma DefaultDescriptionFirst(ds: seq<ColumnDescriptionRecord>, i: nat)
    requires i < |ds| && ds[i].descriptionType == "Description"
    requires forall k :: 0 <= k < i ==> ds[k].descriptionType != "Description"
    ensures ColumnDescription(ds) == ds[i].text
  {
    var t := FirstOfType(ds, "Description");
    var j :| 0 <= j < |ds| && ds[j].descriptionType == "Description" && ds[j].text == t.value &&
             forall k :: 0 <= k < j ==> ds[k].descriptionType != "Description";
    assert j == i;
  }

  /** Without a user-written description, the first programmatic one is taken; without either, `''`. */
  lemma ProgrammaticDescriptionFallback(ds: seq<ColumnDescriptionRecord>)
    requires forall k :: 0 <= k < |ds| ==> ds[k].descriptionType != "Description"
    ensures (forall k :: 0 <= k < |ds| ==> ds[k].descriptionType != "Programmatic_Description") ==> ColumnDescription(ds) == ""
    ensures forall i :: 0 <= i < |ds| && ds[i].descriptionType == "Programmatic_Description" &&
                        (forall k :: 0 <= k < i ==> ds[k].descriptionType != "Programmatic_Description")
                        ==> ColumnDescription(ds) == ds[i].text
  {
    var p := FirstOfType(ds, "Programmatic_Description");
    forall i | 0 <= i < |ds| && ds[i].descriptionType == "Programmatic_Description" &&
               (forall k :: 0 <= k < i ==> ds[k].descriptionType != "Programmatic_Description")
      ensures ColumnDescription(ds) == ds[i].text
    {
      var j :| 0 <= j < |ds| && ds[j].descriptionType == "Programmatic_Description" && ds[j].text == p.value &&
               forall k :: 0 <= k < j ==> ds[k].descriptionType != "Programmatic_Description";
      assert j == i;
    }
  }

  /** `key.split('/')[-2]`: the second-to-last `/`-piece of a watermark key; IndexError with fewer than two pieces. */
  function WatermarkType(key: string): (r: Result<string>)
    ensures r.Success? ==> '/' !in r.value
    ensures r.Failure? ==> r.error == IndexError
  {
    var parts := Split(key, '/');
    if |parts| < 2 then Failure(IndexError) else Success(parts[|parts| - 2])
  }

  /** A key without a separator is one piece; a key with one splits into at least two. */
  lemma SplitPieces(s: string, sep: char)
    ensures |Split(s, sep)| == 1 <==> sep !in s
  {
    if sep in s {
      var i :| 0 <= i < |s| && s[i] == sep;
      assert s == s[..i] + [sep] + s[i + 1..];
      SplitAround(s[..i], s[i + 1..], sep);
    } else {
      SplitWithoutSeparator(s, sep);
    }
  }

  /** The watermark type is found exactly when the key contains a `/`. */
  lemma WatermarkTypeDefined(key: string)
    ensures WatermarkType(key).Success? <==> '/' in key
  {
    SplitPieces(key, '/');
  }

  /** Round trip: the key `table_id/type/` yields `type` for a type without `/`. */
  lemma WatermarkTypeOfKey(tableId: string, kind: string)
    requires '/' !in kind
    ensures WatermarkType(tableId + "/" + kind + "/") == Success(kind)
  {
    var key := tableId + "/" + kind + "/";
    assert key == tableId + ['/'] + (kind + ['/'] + "");
    SplitAround(tableId, kind + ['/'] + "", '/');
    SplitAround(kind, "", '/');
    SplitWithoutSeparator(kind, '/');
    SplitWithoutSeparator("", '/');
  }
}

=== FILE: http.dfy ===
/** What a REST handler gives back: a status with a body, or an exception that escapes to Flask. */
module Http {
  import opened Common

  /** The `http.HTTPStatus` members the handlers answer with. */
  datatype Status = Ok | NotFound | Conflict | InternalServerError

  function Code(s: Status): int
  {
    match s
    case Ok => 200
    case NotFound => 404
    case Conflict => 409
    case InternalServerError => 500
  }

  /** A `(body, status)` pair returned by a handler, or an exception it lets propagate. */
  datatype Reply<T> = Respond(status: Status, body: T) | Raise(error: Error)

  /**
   * The reply both `delete` handlers build from a proxy call: OK on success, NOT_FOUND on
   * NotFoundException; any other exception propagates.
   */
  function DeleteReply(outcome: Result<()>): (r: Reply<()>)
    ensures r == Respond(Ok, ()) <==> outcome.Success?
    ensures r == Respond(Status.NotFound, ()) <==> outcome.Failure? && outcome.error.NotFound?
    ensures r.Raise? <==> outcome.Failure? && !outcome.error.NotFound?
    ensures r.Raise? ==> r.error == outcome.error
  {
    match outcome
    case Success(_) => Respond(Ok, ())
    case Failure(e) => if e.NotFound? then Respond(Status.NotFound, ()) else Raise(e)
  }
}

=== FILE: neo4j_proxy.dfy ===
/**
 * `Neo4jProxy`: the description, tag and owner writes as transactions over the pattern graph, the
 * reads that return None instead of raising, the column query's ordering and NotFound rule, and the
 * helpers `_safe_get` and `_get_relation_by_type`.
 */
module Neo4jProxy {
  import opened Common
  import opened Values
  import opened Ranking
  import opened ResourceTypes
  import opened PatternGraph
  import opened Transactions

  // ---------------------------------------------------------------------------------------------
  // `_safe_get`

  /** A decoded record value: None, a scalar, or a dict. */
  datatype Doc = DNull | DStr(s: string) | DInt(i: int) | DMap(m: map<string, Doc>)

  /** The value at `keys` when every step is a dict holding the next key (the plain nested lookup). */
  function Reach(d: Doc, keys: seq<string>): Option<Doc>
  {
    if |keys| == 0 then Some(d)
    else if d.DMap? && keys[0] in d.m then Reach(d.m[keys[0]], keys[1..])
    else None
  }

  /**
   * `_safe_get(dct, *keys)`: `.get` each key in turn and return None as soon as a step yields None; a
   * step on a value that is not a dict raises AttributeError.
   */
  function SafeGet(d: Doc, keys: seq<string>): (r: Result<Doc>)
    ensures Reach(d, keys).Some? ==> r == Success(Reach(d, keys).value)
    ensures r.Success? && r.value != DNull ==> Reach(d, keys) == Some(r.value)
    ensures r.Failure? ==> r.error == AttributeError
  {
    if |keys| == 0 then Success(d)
    else match d
      case DMap(m) =>
        var next := if keys[0] in m then m[keys[0]] else DNull;
        if next == DNull then Success(DNull) else SafeGet(next, keys[1..])
      case _ => Failure(AttributeError)
  }

  /** Looking up a path in two parts: the second part continues from where the first stopped, unless that was None. */
  lemma {:induction false} SafeGetAppend(d: Doc, p: seq<string>, q: seq<string>)
    requires |p| > 0
    ensures SafeGet(d, p + q) ==
      match SafeGet(d, p)
      case Failure(e) => Failure(e)
      case Success(v) => if v == DNull then Success(DNull) else SafeGet(v, q)
    decreases |p|
  {
    assert (p + q)[0] == p[0];
    assert (p + q)[1..] == p[1..] + q;
    if d.DMap? {
      var next := if p[0] in d.m then d.m[p[0]] else DNull;
      if next != DNull && |p| > 1 {
        SafeGetAppend(next, p[1..], q);
      } else if next != DNull {
        assert p[1..] + q == q;
      }
    }
  }

  /** A missing key on the way down yields None, whatever keys follow it. */
  lemma SafeGetStopsAtMissing(d: Doc, p: seq<string>, m: map<string, Doc>, k: string, q: seq<string>)
    requires Reach(d, p) == Some(DMap(m))
    requires k !in m || m[k] == DNull
    ensures SafeGet(d, p + [k] + q) == Success(DNull)
  {
    assert p + [k] + q == (p + [k]) + q;
    if |p| == 0 {
      assert p + [k] == [k];
    } else {
      SafeGetAppend(d, p, [k]);
    }
    SafeGetAppend(d, p + [k], q);
  }

  // ---------------------------------------------------------------------------------------------
  // `_get_relation_by_type`

  /** The relationship label of a user relation and the label of its reverse. */
  function RelationByType(rel: UserResourceRel): (r: Result<(string, string)>)
    ensures r.Failure? <==> rel.Unrecognised?
    ensures r.Failure? ==> r.error.NotImplemented?
    ensures r.Success? ==> r.value.0 != r.value.1
  {
    match rel
    case Follow => Success(("FOLLOW", "FOLLOWED_BY"))
    case Own => Success(("OWNER_OF", "OWNER"))
    case Read => Success(("READ", "READ_BY"))
    case Unrecognised(name) => Failure(NotImplemented("The relation type " + name + " is not defined!"))
  }

  /** The relation named by a relationship label, the inverse of `RelationByType`. */
  function RelationOfLabel(relName: string): (r: Option<UserResourceRel>)
  {
    if relName == "FOLLOW" then Some(Follow)
    else if relName == "OWNER_OF" then Some(Own)
    else if relName == "READ" then Some(Read)
    else None
  }

  /** Each known relation is recovered from its label, so no two relations share one. */
  lemma RelationByTypeRoundTrip(rel: UserResourceRel)
    requires !rel.Unrecognised?
    ensures RelationOfLabel(RelationByType(rel).value.0) == Some(rel)
    ensures RelationOfLabel(RelationByType(rel).value.1) == None
  {
  }

  // ---------------------------------------------------------------------------------------------
  // `_exec_col_query`

  /** One row of the column query: the column's fields and its optional Description node. */
  datatype ColumnRow = ColumnRow(name: string, colType: string, sortOrder: int, descriptionNode: Doc)

  /** A `Column` as the proxy builds it; `description` is None (`DNull`) when the column has none. */
  datatype Column = Column(name: string, description: Doc, colType: string, sortOrder: int)

  function RowOrder(r: ColumnRow): int { r.sortOrder }

  function ColumnOrder(c: Column): int { c.sortOrder }

  /** `_safe_get(record, 'col_dscrpt', 'description')`. */
  function RowDescription(r: ColumnRow): Result<Doc>
  {
    SafeGet(DMap(map["col_dscrpt" := r.descriptionNode]), ["col_dscrpt", "description"])
  }

  /** The `Column` the loop builds from one row whose description can be read. */
  function MakeColumn(row: ColumnRow): Column
  {
    var d := RowDescription(row);
    Column(row.name, if d.Success? then d.value else DNull, row.colType, row.sortOrder)
  }

  /** The loop building one `Column` per row, in row order; it raises at a row whose description cannot be read. */
  function ToColumns(rows: seq<ColumnRow>): (r: Result<seq<Column>>)
    ensures r.Success? <==> forall k :: 0 <= k < |rows| ==> RowDescription(rows[k]).Success?
    ensures r.Success? ==> r.value == MapSeq(rows, MakeColumn)
    ensures r.Success? ==>
      forall k :: 0 <= k < |rows| ==> r.value[k].name == rows[k].name && r.value[k].sortOrder == rows[k].sortOrder &&
                                      r.value[k].colType == rows[k].colType && Success(r.value[k].description) == RowDescription(rows[k])
    ensures r.Failure? ==> r.error == AttributeError
  {
    if |rows| == 0 then Success([])
    else
      var d := RowDescription(rows[0]);
      if d.Failure? then Failure(d.error)
      else
        var rest := ToColumns(rows[1..]);
        assert forall k :: 1 <= k < |rows| ==> rows[1..][k - 1] == rows[k];
        if rest.Failure? then rest
        else Success(MapSeq(rows, MakeColumn))
  }

  /** Whether every row's description can be read does not depend on the order of the rows. */
  lemma ReadableRows(a: seq<ColumnRow>, b: seq<ColumnRow>)
    requires multiset(a) == multiset(b)
    requires ToColumns(a).Success?
    ensures ToColumns(b).Success?
  {
    forall k | 0 <= k < |b|
      ensures RowDescription(b[k]).Success?
    {
      assert b[k] in multiset(a);
      var m :| 0 <= m < |a| && a[m] == b[k];
    }
  }

  /**
   * `_exec_col_query`: the rows `ORDER BY col.sort_order`, one column each, and the last row; NotFound
   * when the table has no column rows.
   */
  function ExecColQuery(rows: seq<ColumnRow>): (r: Result<(seq<Column>, ColumnRow)>)
    ensures r.Failure? && r.error.NotFound? <==> |rows| == 0
    ensures |rows| > 0 ==> (r.Success? <==> ToColumns(rows).Success?)
    ensures r.Success? ==> multiset(r.value.0) == multiset(ToColumns(rows).value) && SortedBy(r.value.0, ColumnOrder)
    ensures r.Success? ==> r.value.1 in rows && forall i :: 0 <= i < |rows| ==> rows[i].sortOrder <= r.value.1.sortOrder
  {
    var sorted := SortBy(rows, RowOrder);
    var cols := ToColumns(sorted);
    if cols.Failure? then
      assert |rows| != 0;
      assert ToColumns(rows).Failure? by {
        if ToColumns(rows).Success? {
          ReadableRows(rows, sorted);
        }
      }
      Failure(cols.error)
    else if |cols.value| == 0 then
      Failure(NotFound("Table URI does not exist"))
    else
      var last := sorted[|sorted| - 1];
      SortedRowsFacts(rows, sorted, cols.value);
      ReadableRows(sorted, rows);
      MapPermutes(sorted, rows, MakeColumn);
      Success((cols.value, last))
  }

  /** The last of the sorted rows has the largest sort order, and every column comes from some row. */
  lemma SortedRowsFacts(rows: seq<ColumnRow>, sorted: seq<ColumnRow>, cols: seq<Column>)
    requires multiset(sorted) == multiset(rows) && SortedBy(sorted, RowOrder) && |sorted| > 0
    requires |cols| == |sorted|
    requires forall k :: 0 <= k < |sorted| ==> cols[k].name == sorted[k].name && cols[k].sortOrder == sorted[k].sortOrder
    ensures sorted[|sorted| - 1] in rows
    ensures forall i :: 0 <= i < |rows| ==> rows[i].sortOrder <= sorted[|sorted| - 1].sortOrder
    ensures forall k :: 0 <= k < |cols| ==>
              exists i :: 0 <= i < |rows| && rows[i].name == cols[k].name && rows[i].sortOrder == cols[k].sortOrder
  {
    var last := sorted[|sorted| - 1];
    assert last in multiset(rows);
    forall i | 0 <= i < |rows|
      ensures rows[i].sortOrder <= last.sortOrder
    {
      assert rows[i] in multiset(sorted);
      var j :| 0 <= j < |sorted| && sorted[j] == rows[i];
    }
    forall k | 0 <= k < |cols|
      ensures exists i :: 0 <= i < |rows| && rows[i].name == cols[k].name && rows[i].sortOrder == cols[k].sortOrder
    {
      assert sorted[k] in multiset(rows);
      var i :| 0 <= i < |rows| && rows[i] == sorted[k];
    }
  }

  // ---------------------------------------------------------------------------------------------
  // Descriptions

  /** The property map `SET u = {description: ..., table_key: ...}` gives a Description node. */
  function DescriptionProps(text: string, key: string): Props
  {
    map["description" := VStr(text), "table_key" := VStr(key)]
  }

  function DescriptionKey(key: string): string
  {
    key + "/_description"
  }

  /**
   * The description writes: merge the Description node, then merge DESCRIPTION_OF / DESCRIPTION with the
   * target. No row from the second statement raises RuntimeError: the transaction is rolled back and
   * closed, never committed. Otherwise it is committed once and closed.
   */
  function PutDescription(g: Graph, descKey: string, targetKind: string, targetKey: string, text: string): (o: Outcome)
    requires targetKind != "Description"
    ensures o.result.Success? <==> Find(g.nodes, targetKind, "table_key", targetKey).Some?
    ensures o.result.Failure? ==> o.db == g && o.result.error.RuntimeError? && o.log == [Run, Run, Rollback, Close]
    ensures o.result.Success? ==> o.log == [Run, Run, Commit, Close]
    ensures o.result.Success? ==>
      var d := Find(o.db.nodes, "Description", "table_key", descKey);
      var t := Find(g.nodes, targetKind, "table_key", targetKey).value;
      d.Some? && o.db.nodes[d.value].props == DescriptionProps(text, descKey) &&
      Rel(t, d.value, "DESCRIPTION") in o.db.rels && Rel(d.value, t, "DESCRIPTION_OF") in o.db.rels
  {
    var p := DescriptionProps(text, descKey);
    var g1 := MergeNode(g, "Description", "table_key", descKey, p, Some(p));
    var linked := MergeRelation(g1, "Description", "table_key", descKey, targetKind, "table_key", targetKey,
                                "DESCRIPTION_OF", "DESCRIPTION");
    DescriptionLinked(g, descKey, targetKind, targetKey, text);
    RollbackOrCommit(g, g1, linked, RuntimeError("Failed to update the description"))
  }

  /** The two statements of a description write: the relationship statement finds a row exactly when the target exists, and then links the merged Description node. */
  lemma DescriptionLinked(g: Graph, descKey: string, targetKind: string, targetKey: string, text: string)
    requires targetKind != "Description"
    ensures var p := DescriptionProps(text, descKey);
            var g1 := MergeNode(g, "Description", "table_key", descKey, p, Some(p));
            var linked := MergeRelation(g1, "Description", "table_key", descKey, targetKind, "table_key", targetKey,
                                        "DESCRIPTION_OF", "DESCRIPTION");
            (linked.Some? <==> Find(g.nodes, targetKind, "table_key", targetKey).Some?) &&
            (linked.Some? ==>
               var d := Find(linked.value.nodes, "Description", "table_key", descKey);
               var t := Find(g.nodes, targetKind, "table_key", targetKey).value;
               d.Some? && linked.value.nodes[d.value].props == DescriptionProps(text, descKey) &&
               Rel(t, d.value, "DESCRIPTION") in linked.value.rels && Rel(d.value, t, "DESCRIPTION_OF") in linked.value.rels)
  {
    var p := DescriptionProps(text, descKey);
    MergeNodeFinds(g, "Description", "table_key", descKey, p, Some(p));
    MergeNodeKeepsOthers(g, "Description", "table_key", descKey, p, Some(p), targetKind, "table_key", targetKey);
    MergedNodesSettle(g, "Description", "table_key", descKey, p);
  }

  /** `put_table_description`: the Description node `table_key/_description` for a Table. */
  function PutTableDescription(g: Graph, table: string, text: string): (o: Outcome)
    ensures o.result.Success? <==> Find(g.nodes, "Table", "table_key", table).Some?
    ensures o.result.Failure? ==> o.db == g && o.log == [Run, Run, Rollback, Close]
  {
    PutDescription(g, DescriptionKey(table), "Table", table, text)
  }

  /** `put_column_description`: the Description node `table_key/column/_description` for the Column `table_key/column`. */
  function PutColumnDescription(g: Graph, table: string, column: string, text: string): (o: Outcome)
    ensures o.result.Success? <==> Find(g.nodes, "Column", "table_key", table + "/" + column).Some?
    ensures o.result.Failure? ==> o.db == g && o.log == [Run, Run, Rollback, Close]
  {
    PutDescription(g, DescriptionKey(table + "/" + column), "Column", table + "/" + column, text)
  }

  /** `d.description` of a Description node: None when the property is absent. */
  function DescriptionOf(n: Node): Option<Value>
  {
    if "description" in n.props then Some(n.props["description"]) else None
  }

  /**
   * `get_table_description`: the description of the first Description node the Table's DESCRIPTION
   * relationships lead to; None, not an error, when there is none.
   */
  function GetTableDescription(g: Graph, table: string): (r: Option<Value>)
    ensures Find(g.nodes, "Table", "table_key", table).None? ==> r.None?
    ensures (Find(g.nodes, "Table", "table_key", table).Some? &&
             forall d: nat :: d < |g.nodes| && g.nodes[d].kind == "Description" ==>
               Rel(Find(g.nodes, "Table", "table_key", table).value, d, "DESCRIPTION") !in g.rels) ==> r.None?
    ensures r.Some? ==> exists d :: d in Targets(g, g.rels, Find(g.nodes, "Table", "table_key", table).value, "DESCRIPTION", "Description") &&
                                    DescriptionOf(g.nodes[d]) == r
    ensures Find(g.nodes, "Table", "table_key", table).Some? ==>
              var ds := Targets(g, g.rels, Find(g.nodes, "Table", "table_key", table).value, "DESCRIPTION", "Description");
              |ds| > 0 ==> r == DescriptionOf(g.nodes[ds[0]])
  {
    var t := Find(g.nodes, "Table", "table_key", table);
    if t.None? then None
    else
      var ds := Targets(g, g.rels, t.value, "DESCRIPTION", "Description");
      if |ds| == 0 then None else DescriptionOf(g.nodes[ds[0]])
  }

  /** Every Description node the table's DESCRIPTION relationships reach is the table's own `table_key/_description`. */
  ghost predicate DescribedOnlyBy(g: Graph, table: string)
  {
    var t := Find(g.nodes, "Table", "table_key", table);
    t.Some? ==>
      forall d: nat :: d < |g.nodes| && g.nodes[d].kind == "Description" && Rel(t.value, d, "DESCRIPTION") in g.rels ==>
        Has(g.nodes[d], "Description", "table_key", DescriptionKey(table))
  }

  /** A successful put keeps the table described only by its own Description node, which now holds the text. */
  lemma PutTableDescriptionSettles(g: Graph, table: string, text: string)
    requires DescribedOnlyBy(g, table)
    requires PutTableDescription(g, table, text).result.Success?
    ensures var db := PutTableDescription(g, table, text).db;
            var t := Find(db.nodes, "Table", "table_key", table);
            DescribedOnlyBy(db, table) && t.Some? &&
            forall d: nat :: d < |db.nodes| && db.nodes[d].kind == "Description" && Rel(t.value, d, "DESCRIPTION") in db.rels ==>
              db.nodes[d].props == DescriptionProps(text, DescriptionKey(table))
  {
    var key := DescriptionKey(table);
    var p := DescriptionProps(text, key);
    var g1 := MergeNode(g, "Description", "table_key", key, p, Some(p));
    var t := Find(g.nodes, "Table", "table_key", table).value;
    DescriptionLinked(g, key, "Table", table, text);
    MergeNodeKeepsOthers(g, "Description", "table_key", key, p, Some(p), "Table", "table_key", table);
    MergedNodesSettle(g, "Description", "table_key", key, p);
    var db := MergeRelation(g1, "Description", "table_key", key, "Table", "table_key", table, "DESCRIPTION_OF", "DESCRIPTION").value;
    PutTableDescriptionWrites(g, table, text);
    forall d: nat | d < |db.nodes| && db.nodes[d].kind == "Description" && Rel(t, d, "DESCRIPTION") in db.rels
      ensures Has(db.nodes[d], "Description", "table_key", key) && db.nodes[d].props == p
    {
      if d < |g.nodes| && Rel(t, d, "DESCRIPTION") in g.rels {
        assert g.nodes[d].kind == "Description" ==> Has(g.nodes[d], "Description", "table_key", key);
      }
    }
  }

  /** A successful put leaves the graph the two MERGE statements wrote. */
  lemma PutTableDescriptionWrites(g: Graph, table: string, text: string)
    requires PutTableDescription(g, table, text).result.Success?
    ensures var key := DescriptionKey(table);
            var p := DescriptionProps(text, key);
            var g1 := MergeNode(g, "Description", "table_key", key, p, Some(p));
            var linked := MergeRelation(g1, "Description", "table_key", key, "Table", "table_key", table, "DESCRIPTION_OF", "DESCRIPTION");
            linked.Some? && PutTableDescription(g, table, text).db == linked.value
  {
    DescriptionLinked(g, DescriptionKey(table), "Table", table, text);
  }

  /** A table whose reachable Description nodes all hold the text, and which reaches one, reads back that text. */
  lemma ReadSettledDescription(db: Graph, table: string, text: string, d: nat)
    requires Find(db.nodes, "Table", "table_key", table).Some?
    requires d < |db.nodes| && db.nodes[d].kind == "Description"
    requires Rel(Find(db.nodes, "Table", "table_key", table).value, d, "DESCRIPTION") in db.rels
    requires forall e: nat :: e < |db.nodes| && db.nodes[e].kind == "Description" &&
                              Rel(Find(db.nodes, "Table", "table_key", table).value, e, "DESCRIPTION") in db.rels ==>
                                db.nodes[e].props == DescriptionProps(text, DescriptionKey(table))
    ensures GetTableDescription(db, table) == Some(VStr(text))
  {
    var t := Find(db.nodes, "Table", "table_key", table).value;
    var ds := Targets(db, db.rels, t, "DESCRIPTION", "Description");
    assert d in ds;
    assert db.nodes[ds[0]].props == DescriptionProps(text, DescriptionKey(table));
  }

  /** Round trip: after a successful put, the read returns the text written. */
  lemma PutThenGetTableDescription(g: Graph, table: string, text: string)
    requires DescribedOnlyBy(g, table)
    requires PutTableDescription(g, table, text).result.Success?
    ensures GetTableDescription(PutTableDescription(g, table, text).db, table) == Some(VStr(text))
  {
    var db := PutTableDescription(g, table, text).db;
    var key := DescriptionKey(table);
    var p := DescriptionProps(text, key);
    PutTableDescriptionSettles(g, table, text);
    PutTableDescriptionWrites(g, table, text);
    DescriptionLinked(g, key, "Table", table, text);
    MergeNodeKeepsOthers(g, "Description", "table_key", key, p, Some(p), "Table", "table_key", table);
    var d := Find(db.nodes, "Description", "table_key", key).value;
    ReadSettledDescription(db, table, text, d);
  }

  /** A second put overwrites the first rather than adding to it. */
  lemma SecondPutOverwrites(g: Graph, table: string, first: string, second: string)
    requires DescribedOnlyBy(g, table)
    requires Find(g.nodes, "Table", "table_key", table).Some?
    ensures var db := PutTableDescription(PutTableDescription(g, table, first).db, table, second).db;
            GetTableDescription(db, table) == Some(VStr(second))
  {
    var g1 := PutTableDescription(g, table, first).db;
    PutTableDescriptionSettles(g, table, first);
    PutThenGetTableDescription(g1, table, second);
  }

  /** Node `c` is a Column named `column` with at least one Description node. */
  predicate DescribedColumn(g: Graph, c: nat, column: string)
    requires c < |g.nodes|
  {
    Has(g.nodes[c], "Column", "name", column) && |Targets(g, g.rels, c, "DESCRIPTION", "Description")| > 0
  }

  /** A column named `column` that the table's COLUMN relationships reach, together with its Description nodes. */
  function ColumnDescriptionFrom(g: Graph, cs: seq<nat>, column: string): (r: Option<Value>)
    requires forall k :: 0 <= k < |cs| ==> cs[k] < |g.nodes|
    ensures forall k :: 0 <= k < |cs| && DescribedColumn(g, cs[k], column) &&
                        (forall j :: 0 <= j < k ==> !DescribedColumn(g, cs[j], column)) ==>
                          r == DescriptionOf(g.nodes[Targets(g, g.rels, cs[k], "DESCRIPTION", "Description")[0]])
    ensures (forall k :: 0 <= k < |cs| ==> !DescribedColumn(g, cs[k], column)) ==> r.None?
    ensures r.Some? ==> exists k, d :: 0 <= k < |cs| && Has(g.nodes[cs[k]], "Column", "name", column) &&
                                       d in Targets(g, g.rels, cs[k], "DESCRIPTION", "Description") && DescriptionOf(g.nodes[d]) == r
  {
    if |cs| == 0 then None
    else
      var ds := Targets(g, g.rels, cs[0], "DESCRIPTION", "Description");
      if Has(g.nodes[cs[0]], "Column", "name", column) && |ds| > 0 then DescriptionOf(g.nodes[ds[0]])
      else
        var r := ColumnDescriptionFrom(g, cs[1..], column);
        ColumnDescriptionSkip(g, cs, column, r);
        r
  }

  /** Skipping a first column that is not the described one keeps what the search over the rest found. */
  lemma ColumnDescriptionSkip(g: Graph, cs: seq<nat>, column: string, r: Option<Value>)
    requires forall k :: 0 <= k < |cs| ==> cs[k] < |g.nodes|
    requires |cs| > 0 && !DescribedColumn(g, cs[0], column)
    requires forall k :: 0 <= k < |cs| - 1 && DescribedColumn(g, cs[1..][k], column) &&
                         (forall j :: 0 <= j < k ==> !DescribedColumn(g, cs[1..][j], column)) ==>
                           r == DescriptionOf(g.nodes[Targets(g, g.rels, cs[1..][k], "DESCRIPTION", "Description")[0]])
    requires (forall k :: 0 <= k < |cs| - 1 ==> !DescribedColumn(g, cs[1..][k], column)) ==> r.None?
    requires r.Some? ==> exists k, d :: 0 <= k < |cs| - 1 && Has(g.nodes[cs[1..][k]], "Column", "name", column) &&
                                        d in Targets(g, g.rels, cs[1..][k], "DESCRIPTION", "Description") && DescriptionOf(g.nodes[d]) == r
    ensures forall k :: 0 <= k < |cs| && DescribedColumn(g, cs[k], column) &&
                        (forall j :: 0 <= j < k ==> !DescribedColumn(g, cs[j], column)) ==>
                          r == DescriptionOf(g.nodes[Targets(g, g.rels, cs[k], "DESCRIPTION", "Description")[0]])
    ensures (forall k :: 0 <= k < |cs| ==> !DescribedColumn(g, cs[k], column)) ==> r.None?
    ensures r.Some? ==> exists k, d :: 0 <= k < |cs| && Has(g.nodes[cs[k]], "Column", "name", column) &&
                                       d in Targets(g, g.rels, cs[k], "DESCRIPTION", "Description") && DescriptionOf(g.nodes[d]) == r
  {
    var tail := cs[1..];
    assert forall k :: 1 <= k < |cs| ==> tail[k - 1] == cs[k];
    if r.Some? {
      var k, d :| 0 <= k < |tail| && Has(g.nodes[tail[k]], "Column", "name", column) &&
                  d in Targets(g, g.rels, tail[k], "DESCRIPTION", "Description") && DescriptionOf(g.nodes[d]) == r;
      assert cs[k + 1] == tail[k];
    }
  }

  /**
   * `get_column_description`: the description reached along Table -COLUMN-> Column {name} -DESCRIPTION->
   * Description; None, not an error, when there is no such path.
   */
  function GetColumnDescription(g: Graph, table: string, column: string): (r: Option<Value>)
    ensures Find(g.nodes, "Table", "table_key", table).None? ==> r.None?
    ensures (Find(g.nodes, "Table", "table_key", table).Some? &&
             forall c: nat :: c < |g.nodes| && Has(g.nodes[c], "Column", "name", column) &&
                              Rel(Find(g.nodes, "Table", "table_key", table).value, c, "COLUMN") in g.rels ==>
                                |Targets(g, g.rels, c, "DESCRIPTION", "Description")| == 0) ==> r.None?
    ensures Find(g.nodes, "Table", "table_key", table).Some? ==>
              var cs := Targets(g, g.rels, Find(g.nodes, "Table", "table_key", table).value, "COLUMN", "Column");
              forall k :: 0 <= k < |cs| && DescribedColumn(g, cs[k], column) &&
                          (forall j :: 0 <= j < k ==> !DescribedColumn(g, cs[j], column)) ==>
                            r == DescriptionOf(g.nodes[Targets(g, g.rels, cs[k], "DESCRIPTION", "Description")[0]])
    ensures r.Some? ==> Find(g.nodes, "Table", "table_key", table).Some? &&
                        exists c, d :: c in Targets(g, g.rels, Find(g.nodes, "Table", "table_key", table).value, "COLUMN", "Column") &&
                                       Has(g.nodes[c], "Column", "name", column) &&
                                       d in Targets(g, g.rels, c, "DESCRIPTION", "Description") && DescriptionOf(g.nodes[d]) == r
  {
    var t := Find(g.nodes, "Table", "table_key", table);
    if t.None? then None
    else ColumnDescriptionFrom(g, Targets(g, g.rels, t.value, "COLUMN", "Column"), column)
  }

  // ---------------------------------------------------------------------------------------------
  // Tags

  /** `SET u = {tag_type: 'default', table_key: tag}`: every tag the proxy writes has the type 'default'. */
  function TagProps(tag: string): Props
  {
    map["tag_type" := VStr("default"), "table_key" := VStr(tag)]
  }

  /**
   * `add_tag`: check that the Table exists (NotFound, rolled back, otherwise), merge the Tag node, merge
   * TAG / TAGGED_BY, commit. The transaction is closed by the commit, so the final close is skipped.
   */
  function AddTag(g: Graph, table: string, tag: string): (o: Outcome)
    ensures o.result.Failure? <==> Find(g.nodes, "Table", "table_key", table).None?
    ensures o.result.Failure? ==> o.db == g && o.result.error.NotFound? && o.log == [Run, Rollback]
    ensures o.result.Success? ==> o.log == [Run, Run, Run, Commit]
    ensures o.result.Success? ==>
      var a := Find(o.db.nodes, "Tag", "table_key", tag);
      var b := Find(o.db.nodes, "Table", "table_key", table);
      a.Some? && b == Find(g.nodes, "Table", "table_key", table) &&
      o.db.nodes[a.value].props == TagProps(tag) &&
      Rel(a.value, b.value, "TAG") in o.db.rels && Rel(b.value, a.value, "TAGGED_BY") in o.db.rels &&
      (forall x :: x in g.rels ==> x in o.db.rels) &&
      (forall x :: x in o.db.rels ==> x in g.rels || x == Rel(a.value, b.value, "TAG") || x == Rel(b.value, a.value, "TAGGED_BY"))
    ensures |o.db.nodes| >= |g.nodes|
    ensures forall i :: 0 <= i < |g.nodes| && g.nodes[i].kind != "Tag" ==> o.db.nodes[i] == g.nodes[i]
  {
    var p := TagProps(tag);
    var g1 := MergeNode(g, "Tag", "table_key", tag, p, Some(p));
    MergeNodeFinds(g, "Tag", "table_key", tag, p, Some(p));
    MergeNodeKeepsOthers(g, "Tag", "table_key", tag, p, Some(p), "Table", "table_key", table);
    MergedNodesSettle(g, "Tag", "table_key", tag, p);
    // With the Table found, the relationship statement always returns a row.
    var linked := MergeRelation(g1, "Tag", "table_key", tag, "Table", "table_key", table, "TAG", "TAGGED_BY");
    CheckedWrite(g, Find(g.nodes, "Table", "table_key", table).Some?, g1, linked.GetOr(g1),
                 NotFound("table_key " + table + " does not exist"))
  }

  /** Adding a tag twice is adding it once: MERGE creates no second node or relationship. */
  lemma AddTagIdempotent(g: Graph, table: string, tag: string)
    ensures var once := AddTag(g, table, tag).db;
            AddTag(once, table, tag).db == once
  {
    var once := AddTag(g, table, tag);
    if once.result.Success? {
      var p := TagProps(tag);
      var g1 := MergeNode(g, "Tag", "table_key", tag, p, Some(p));
      MergeNodeIdempotent(g, "Tag", "table_key", tag, p);
      var db := once.db;
      assert db.nodes == g1.nodes;
      assert MergeNode(db, "Tag", "table_key", tag, p, Some(p)).nodes == MergeNode(g1, "Tag", "table_key", tag, p, Some(p)).nodes;
    }
  }

  /**
   * `delete_tag`: delete the TAG and TAGGED_BY relationships between the Tag and the Table, only when
   * both are there; the Tag node itself is never deleted. The `finally` commits and closes.
   */
  function DeleteTag(g: Graph, table: string, tag: string): (o: Outcome)
    ensures o.result.Success? && o.log == [Run, Commit, Close]
    ensures o.db.nodes == g.nodes
    ensures var a := Find(g.nodes, "Tag", "table_key", tag);
            var b := Find(g.nodes, "Table", "table_key", table);
            if a.Some? && b.Some? && Rel(a.value, b.value, "TAG") in g.rels && Rel(b.value, a.value, "TAGGED_BY") in g.rels
            then forall x :: x in o.db.rels <==> x in g.rels && x != Rel(a.value, b.value, "TAG") && x != Rel(b.value, a.value, "TAGGED_BY")
            else o.db == g
  {
    var a := Find(g.nodes, "Tag", "table_key", tag);
    var b := Find(g.nodes, "Table", "table_key", table);
    var w := if a.Some? && b.Some? then DeletePair(g, a.value, b.value, "TAG", "TAGGED_BY") else g;
    Finish(CloseTx(CommitTx(RunTx(Begin(g), w))), Success(()))
  }

  /** `delete_tag` undoes `add_tag`'s relationships and leaves its Tag node in place. */
  lemma AddThenDeleteTag(g: Graph, table: string, tag: string)
    requires AddTag(g, table, tag).result.Success?
    ensures var added := AddTag(g, table, tag).db;
            var db := DeleteTag(added, table, tag).db;
            var a := Find(db.nodes, "Tag", "table_key", tag).value;
            var b := Find(db.nodes, "Table", "table_key", table).value;
            db.nodes == added.nodes && Rel(a, b, "TAG") !in db.rels && Rel(b, a, "TAGGED_BY") !in db.rels
  {
  }

  // ---------------------------------------------------------------------------------------------
  // Owners

  /** `ON CREATE SET u = {email: owner, key: owner}`. */
  function OwnerProps(owner: string): Props
  {
    map["email" := VStr(owner), "key" := VStr(owner)]
  }

  /**
   * `add_owner` with the User node matched by `userProp` in the relationship statement: merge the User
   * by `key`, then match it by `userProp` and merge OWNER_OF / OWNER with the Table. No row raises
   * RuntimeError and rolls back; either way the `finally` commits (a no-op after the rollback) and closes.
   */
  function AddOwnerBy(g: Graph, table: string, owner: string, userProp: string): (o: Outcome)
    ensures o.result.Failure? ==> o.db == g && o.result.error.RuntimeError? && o.log == [Run, Run, Rollback, Commit, Close]
    ensures o.result.Success? ==> o.log == [Run, Run, Commit, Close]
    ensures o.result.Success? ==>
      var u := Find(o.db.nodes, "User", userProp, owner);
      var t := Find(o.db.nodes, "Table", "table_key", table);
      u.Some? && t.Some? && Rel(u.value, t.value, "OWNER_OF") in o.db.rels && Rel(t.value, u.value, "OWNER") in o.db.rels &&
      (forall x :: x in g.rels ==> x in o.db.rels) &&
      (forall x :: x in o.db.rels ==> x in g.rels || x == Rel(u.value, t.value, "OWNER_OF") || x == Rel(t.value, u.value, "OWNER"))
    ensures var merged := MergeNode(g, "User", "key", owner, OwnerProps(owner), None).nodes;
            o.result.Success? <==> Find(merged, "User", userProp, owner).Some? && Find(merged, "Table", "table_key", table).Some?
  {
    var p := OwnerProps(owner);
    var g1 := MergeNode(g, "User", "key", owner, p, None);
    var linked := MergeRelation(g1, "User", userProp, owner, "Table", "table_key", table, "OWNER_OF", "OWNER");
    RollbackThenCommit(g, g1, linked, RuntimeError("Failed to create relation between owner and table"))
  }

  /** `add_owner` as written: the relationship statement matches the User by `table_key`. */
  function AddOwner(g: Graph, table: string, owner: string): (o: Outcome)
    ensures o.result.Failure? ==> o.db == g && o.log == [Run, Run, Rollback, Commit, Close]
  {
    AddOwnerBy(g, table, owner, "table_key")
  }

  /** `add_owner` with the User matched by the `key` it was merged on. */
  function AddOwnerCorrected(g: Graph, table: string, owner: string): (o: Outcome)
    ensures o.result.Success? <==> Find(g.nodes, "Table", "table_key", table).Some?
  {
    var p := OwnerProps(owner);
    MergeNodeFinds(g, "User", "key", owner, p, None);
    MergeNodeKeepsOthers(g, "User", "key", owner, p, None, "Table", "table_key", table);
    AddOwnerBy(g, table, owner, "key")
  }

  /**
   * As written, an owner with no User node carrying `table_key` is never linked: the User node the first
   * statement creates has only `email` and `key`, the second statement finds no row, and the whole
   * transaction is rolled back, even when the Table exists.
   */
  lemma AddOwnerFreshUserFails(g: Graph, table: string, owner: string)
    requires Find(g.nodes, "User", "table_key", owner).None?
    ensures AddOwner(g, table, owner).result.Failure? && AddOwner(g, table, owner).db == g
  {
    var p := OwnerProps(owner);
    var g1 := MergeNode(g, "User", "key", owner, p, None);
    forall i | 0 <= i < |g1.nodes|
      ensures !Has(g1.nodes[i], "User", "table_key", owner)
    {
      if i >= |g.nodes| {
        assert g1.nodes[i] == Node("User", p);
      }
    }
  }

  /** A concrete case: a graph holding only the Table `t`; as written `add_owner(t, ann)` fails, corrected it succeeds. */
  lemma AddOwnerExample()
    ensures var g := Graph([Node("Table", map["table_key" := VStr("t")])], []);
            AddOwner(g, "t", "ann").result.Failure? && AddOwnerCorrected(g, "t", "ann").result.Success?
  {
    var g := Graph([Node("Table", map["table_key" := VStr("t")])], []);
    assert Find(g.nodes, "Table", "table_key", "t") == Some(0);
    AddOwnerFreshUserFails(g, "t", "ann");
  }

  /**
   * `delete_owner` with the User matched by `userProp`: delete OWNER_OF and OWNER between the User and the
   * Table when both are there; the `finally` commits and closes.
   */
  function DeleteOwnerBy(g: Graph, table: string, owner: string, userProp: string): (o: Outcome)
    ensures o.result.Success? && o.log == [Run, Commit, Close]
    ensures o.db.nodes == g.nodes
    ensures var u := Find(g.nodes, "User", userProp, owner);
            var t := Find(g.nodes, "Table", "table_key", table);
            if u.Some? && t.Some? && Rel(u.value, t.value, "OWNER_OF") in g.rels && Rel(t.value, u.value, "OWNER") in g.rels
            then forall x :: x in o.db.rels <==> x in g.rels && x != Rel(u.value, t.value, "OWNER_OF") && x != Rel(t.value, u.value, "OWNER")
            else o.db == g
  {
    var u := Find(g.nodes, "User", userProp, owner);
    var t := Find(g.nodes, "Table", "table_key", table);
    var w := if u.Some? && t.Some? then DeletePair(g, u.value, t.value, "OWNER_OF", "OWNER") else g;
    Finish(CloseTx(CommitTx(RunTx(Begin(g), w))), Success(()))
  }

  /** `delete_owner` as written, matching the User by `table_key`. */
  function DeleteOwner(g: Graph, table: string, owner: string): (o: Outcome)
    ensures o.db.nodes == g.nodes && o.result.Success?
  {
    DeleteOwnerBy(g, table, owner, "table_key")
  }

  /** With the User matched by `key` on both sides, deleting an owner undoes adding it. */
  lemma AddThenDeleteOwner(g: Graph, table: string, owner: string)
    requires AddOwnerCorrected(g, table, owner).result.Success?
    ensures var added := AddOwnerCorrected(g, table, owner).db;
            var db := DeleteOwnerBy(added, table, owner, "key").db;
            var u := Find(db.nodes, "User", "key", owner).value;
            var t := Find(db.nodes, "Table", "table_key", table).value;
            Rel(u, t, "OWNER_OF") !in db.rels && Rel(t, u, "OWNER") !in db.rels
  {
  }
}

=== FILE: pattern_graph.dfy ===
/**
 * The property graph behind a Cypher endpoint as `Neo4jProxy` uses it: nodes with a label and a
 * property map, relationships between node positions, and the MATCH / MERGE / DELETE patterns the
 * proxy's queries are built from. A MATCH on `(:Label {prop: value})` binds the first such node.
 */
module PatternGraph {
  import opened Common
  import opened Values

  datatype Node = Node(kind: string, props: Props)

  /** A relationship from the node at position `src` to the node at position `dst`. */
  datatype Rel = Rel(src: nat, dst: nat, kind: string)

  datatype Graph = Graph(nodes: seq<Node>, rels: seq<Rel>)

  /** `(n:kind {prop: value})` matches `n`. */
  predicate Has(n: Node, kind: string, prop: string, value: string)
  {
    n.kind == kind && prop in n.props && n.props[prop] == VStr(value)
  }

  /** A property map that keeps the node matching `{prop: value}`. */
  predicate Keeps(p: Props, prop: string, value: string)
  {
    prop in p && p[prop] == VStr(value)
  }

  /** Every relationship joins two nodes of the graph. */
  ghost predicate WellFormed(g: Graph)
  {
    forall r :: r in g.rels ==> r.src < |g.nodes| && r.dst < |g.nodes|
  }

  /** The position of the first node matching `(:kind {prop: value})`. */
  function Find(nodes: seq<Node>, kind: string, prop: string, value: string): (r: Option<nat>)
    ensures r.None? <==> forall i :: 0 <= i < |nodes| ==> !Has(nodes[i], kind, prop, value)
    ensures r.Some? ==> r.value < |nodes| && Has(nodes[r.value], kind, prop, value) &&
                        forall i :: 0 <= i < r.value ==> !Has(nodes[i], kind, prop, value)
  {
    if |nodes| == 0 then None
    else
      var last := |nodes| - 1;
      var front := Find(nodes[..last], kind, prop, value);
      assert forall i :: 0 <= i < last ==> nodes[..last][i] == nodes[i];
      if front.Some? then front
      else if Has(nodes[last], kind, prop, value) then Some(last)
      else None
  }

  /** A node found in a prefix is found at the same position in any extension. */
  lemma FindExtends(nodes: seq<Node>, more: seq<Node>, kind: string, prop: string, value: string)
    requires Find(nodes, kind, prop, value).Some?
    ensures Find(nodes + more, kind, prop, value) == Find(nodes, kind, prop, value)
  {
    var i := Find(nodes, kind, prop, value).value;
    assert (nodes + more)[i] == nodes[i];
    assert forall j :: 0 <= j < i ==> (nodes + more)[j] == nodes[j];
  }

  /** Changing nodes of other labels, or only properties that keep the match, leaves the first match where it was. */
  lemma FindStable(a: seq<Node>, b: seq<Node>, kind: string, prop: string, value: string)
    requires |a| == |b|
    requires forall i :: 0 <= i < |a| ==> (Has(a[i], kind, prop, value) <==> Has(b[i], kind, prop, value))
    ensures Find(a, kind, prop, value) == Find(b, kind, prop, value)
  {
  }

  /** The node `SET u = {...}` leaves on a match: `onMatch` replaces the whole property map. */
  function Matched(n: Node, kind: string, prop: string, value: string, onMatch: Option<Props>): Node
  {
    if Has(n, kind, prop, value) && onMatch.Some? then Node(kind, onMatch.value) else n
  }

  /**
   * `MERGE (u:kind {prop: value}) ON CREATE SET u = onCreate [ON MATCH SET u = onMatch]`: when some node
   * matches, every match gets the `onMatch` map (if there is one); otherwise one node is created.
   */
  function MergeNode(g: Graph, kind: string, prop: string, value: string, onCreate: Props, onMatch: Option<Props>): (r: Graph)
    ensures r.rels == g.rels
    ensures Find(g.nodes, kind, prop, value).None? ==> r.nodes == g.nodes + [Node(kind, onCreate)]
    ensures Find(g.nodes, kind, prop, value).Some? ==> |r.nodes| == |g.nodes|
    ensures forall i :: 0 <= i < |g.nodes| && !Has(g.nodes[i], kind, prop, value) ==> r.nodes[i] == g.nodes[i]
    ensures onMatch.Some? ==> forall i :: 0 <= i < |g.nodes| && Has(g.nodes[i], kind, prop, value) ==> r.nodes[i] == Node(kind, onMatch.value)
    ensures onMatch.None? ==> forall i :: 0 <= i < |g.nodes| ==> r.nodes[i] == g.nodes[i]
  {
    if Find(g.nodes, kind, prop, value).None? then Graph(g.nodes + [Node(kind, onCreate)], g.rels)
    else Graph(seq(|g.nodes|, i requires 0 <= i < |g.nodes| => Matched(g.nodes[i], kind, prop, value, onMatch)), g.rels)
  }

  /** When the maps written keep the match, a merged node is found afterwards, at the same place if it was there before. */
  lemma MergeNodeFinds(g: Graph, kind: string, prop: string, value: string, onCreate: Props, onMatch: Option<Props>)
    requires Keeps(onCreate, prop, value)
    requires onMatch.Some? ==> Keeps(onMatch.value, prop, value)
    ensures var r := MergeNode(g, kind, prop, value, onCreate, onMatch);
            Find(r.nodes, kind, prop, value).Some? &&
            (Find(g.nodes, kind, prop, value).Some? ==> Find(r.nodes, kind, prop, value) == Find(g.nodes, kind, prop, value))
  {
    var r := MergeNode(g, kind, prop, value, onCreate, onMatch);
    if Find(g.nodes, kind, prop, value).None? {
      assert Has(r.nodes[|g.nodes|], kind, prop, value);
    } else {
      FindStable(g.nodes, r.nodes, kind, prop, value);
    }
  }

  /** A merge leaves the first match of every other label where it was, and finds none where there was none. */
  lemma MergeNodeKeepsOthers(g: Graph, kind: string, prop: string, value: string, onCreate: Props, onMatch: Option<Props>,
                             other: string, prop2: string, value2: string)
    requires other != kind
    ensures Find(MergeNode(g, kind, prop, value, onCreate, onMatch).nodes, other, prop2, value2) == Find(g.nodes, other, prop2, value2)
  {
    var r := MergeNode(g, kind, prop, value, onCreate, onMatch);
    if Find(g.nodes, other, prop2, value2).None? {
      forall i | 0 <= i < |r.nodes|
        ensures !Has(r.nodes[i], other, prop2, value2)
      {
        if i < |g.nodes| && Has(g.nodes[i], kind, prop, value) && onMatch.Some? {
          assert r.nodes[i].kind == kind;
        }
      }
    } else if Find(g.nodes, kind, prop, value).None? {
      FindExtends(g.nodes, [Node(kind, onCreate)], other, prop2, value2);
    } else {
      FindStable(g.nodes, r.nodes, other, prop2, value2);
    }
  }

  /** Merging the same node with the same maps twice is merging it once. */
  lemma MergeNodeIdempotent(g: Graph, kind: string, prop: string, value: string, p: Props)
    requires Keeps(p, prop, value)
    ensures var once := MergeNode(g, kind, prop, value, p, Some(p));
            MergeNode(once, kind, prop, value, p, Some(p)) == once
  {
    var once := MergeNode(g, kind, prop, value, p, Some(p));
    MergeNodeFinds(g, kind, prop, value, p, Some(p));
    MergedNodesSettle(g, kind, prop, value, p);
    MergeSettledNodes(once, kind, prop, value, p);
  }

  /** After `MERGE ... SET u = p`, every node matching the merge key is exactly `Node(kind, p)`. */
  lemma MergedNodesSettle(g: Graph, kind: string, prop: string, value: string, p: Props)
    ensures var once := MergeNode(g, kind, prop, value, p, Some(p));
            forall i :: 0 <= i < |once.nodes| && Has(once.nodes[i], kind, prop, value) ==> once.nodes[i] == Node(kind, p)
  {
    var once := MergeNode(g, kind, prop, value, p, Some(p));
    forall i | 0 <= i < |once.nodes| && Has(once.nodes[i], kind, prop, value)
      ensures once.nodes[i] == Node(kind, p)
    {
    }
  }

  /** A merge whose matches already hold exactly the map it sets changes nothing. */
  lemma MergeSettledNodes(h: Graph, kind: string, prop: string, value: string, p: Props)
    requires Find(h.nodes, kind, prop, value).Some?
    requires forall i :: 0 <= i < |h.nodes| && Has(h.nodes[i], kind, prop, value) ==> h.nodes[i] == Node(kind, p)
    ensures MergeNode(h, kind, prop, value, p, Some(p)) == h
  {
    var twice := MergeNode(h, kind, prop, value, p, Some(p));
    assert |twice.nodes| == |h.nodes|;
    assert twice.nodes == h.nodes;
  }

  /**
   * `MERGE (n1)-[:k1]->(n2)-[:k2]->(n1)` on bound nodes `a` and `b`: the whole pattern is created unless
   * both relationships already exist.
   */
  function MergePair(g: Graph, a: nat, b: nat, k1: string, k2: string): (r: Graph)
    ensures r.nodes == g.nodes
    ensures Rel(a, b, k1) in r.rels && Rel(b, a, k2) in r.rels
    ensures forall x :: x in g.rels ==> x in r.rels
    ensures forall x :: x in r.rels ==> x in g.rels || x == Rel(a, b, k1) || x == Rel(b, a, k2)
    ensures Rel(a, b, k1) in g.rels && Rel(b, a, k2) in g.rels ==> r == g
  {
    if Rel(a, b, k1) in g.rels && Rel(b, a, k2) in g.rels then g
    else Graph(g.nodes, g.rels + [Rel(a, b, k1), Rel(b, a, k2)])
  }

  /**
   * `MATCH (n1:kindA {propA: valueA}), (n2:kindB {propB: valueB}) MERGE (n1)-[:k1]->(n2)-[:k2]->(n1)
   * RETURN ...`: no row (None) unless both nodes are found.
   */
  function MergeRelation(g: Graph, kindA: string, propA: string, valueA: string,
                         kindB: string, propB: string, valueB: string, k1: string, k2: string): (r: Option<Graph>)
    ensures r.Some? <==> Find(g.nodes, kindA, propA, valueA).Some? && Find(g.nodes, kindB, propB, valueB).Some?
    ensures r.Some? ==> (r.value.nodes == g.nodes &&
      var a := Find(g.nodes, kindA, propA, valueA).value;
      var b := Find(g.nodes, kindB, propB, valueB).value;
      Rel(a, b, k1) in r.value.rels && Rel(b, a, k2) in r.value.rels &&
      (forall x :: x in g.rels ==> x in r.value.rels) &&
      (forall x :: x in r.value.rels ==> x in g.rels || x == Rel(a, b, k1) || x == Rel(b, a, k2)))
  {
    var a := Find(g.nodes, kindA, propA, valueA);
    var b := Find(g.nodes, kindB, propB, valueB);
    if a.Some? && b.Some? then Some(MergePair(g, a.value, b.value, k1, k2)) else None
  }

  /** The relationships other than `x` and `y`, in order. */
  function Without(rels: seq<Rel>, x: Rel, y: Rel): (r: seq<Rel>)
    ensures forall z :: z in r <==> z in rels && z != x && z != y
    ensures |r| <= |rels|
  {
    if |rels| == 0 then []
    else
      var rest := Without(rels[1..], x, y);
      assert forall z :: z in rels <==> z == rels[0] || z in rels[1..];
      if rels[0] == x || rels[0] == y then rest else [rels[0]] + rest
  }

  /**
   * `MATCH (n1 ...)-[r1:k1]->(n2 ...)-[r2:k2]->(n1) DELETE r1, r2` on bound nodes `a` and `b`: both
   * relationships go, and only when both are there.
   */
  function DeletePair(g: Graph, a: nat, b: nat, k1: string, k2: string): (r: Graph)
    ensures r.nodes == g.nodes
    ensures !(Rel(a, b, k1) in g.rels && Rel(b, a, k2) in g.rels) ==> r == g
    ensures Rel(a, b, k1) in g.rels && Rel(b, a, k2) in g.rels ==>
      forall x :: x in r.rels <==> x in g.rels && x != Rel(a, b, k1) && x != Rel(b, a, k2)
  {
    if Rel(a, b, k1) in g.rels && Rel(b, a, k2) in g.rels then Graph(g.nodes, Without(g.rels, Rel(a, b, k1), Rel(b, a, k2)))
    else g
  }

  /** The pattern delete undoes the pattern merge: neither relationship survives. */
  lemma DeleteAfterMerge(g: Graph, a: nat, b: nat, k1: string, k2: string)
    ensures var r := DeletePair(MergePair(g, a, b, k1, k2), a, b, k1, k2);
            Rel(a, b, k1) !in r.rels && Rel(b, a, k2) !in r.rels && r.nodes == g.nodes
  {
  }

  /** The positions `kind`-relationships lead to from node `i`, in relationship order, restricted to `nodeKind` nodes. */
  function Targets(g: Graph, rels: seq<Rel>, i: nat, kind: string, nodeKind: string): (r: seq<nat>)
    ensures forall k :: 0 <= k < |r| ==> r[k] < |g.nodes| && g.nodes[r[k]].kind == nodeKind && Rel(i, r[k], kind) in rels
    ensures forall d: nat :: Rel(i, d, kind) in rels && d < |g.nodes| && g.nodes[d].kind == nodeKind ==> d in r
  {
    if |rels| == 0 then []
    else
      var rest := Targets(g, rels[1..], i, kind, nodeKind);
      assert forall z :: z in rels <==> z == rels[0] || z in rels[1..];
      var x := rels[0];
      if x.src == i && x.kind == kind && x.dst < |g.nodes| && g.nodes[x.dst].kind == nodeKind then [x.dst] + rest else rest
  }
}

=== FILE: proxy_factory.dfy ===
/**
 * The proxy factory: the process-wide client that `get_proxy_client` hands out and recycles after an
 * hour, and the parameter map `_create_proxy` builds, rewritten for Amazon Neptune.
 */
module ProxyFactory {
  import opened Common
  import opened Strings

  // ---------------------------------------------------------------------------------------------
  // Recycling

  /** `PROXY_LIFE_SPAN_SECONDS`. */
  const ProxyLifeSpanSeconds: int := 3599

  const MicrosPerSecond: int := 1000000
  const SecondsPerDay: int := 86400

  /**
   * `(now - created_at).seconds` on datetimes counted in microseconds: the seconds part of the
   * normalised `timedelta`, which leaves out whole days (and is never negative).
   */
  function AgeSeconds(now: int, createdAt: int): (s: int)
    ensures 0 <= s < SecondsPerDay
    ensures 0 <= now - createdAt < SecondsPerDay * MicrosPerSecond ==> s * MicrosPerSecond <= now - createdAt < (s + 1) * MicrosPerSecond
  {
    ((now - createdAt) / MicrosPerSecond) % SecondsPerDay
  }

  /** The module globals `_proxy_client` and `_proxy_created_at`. */
  datatype State<C> = State(client: Option<C>, createdAt: Option<int>)

  /** What one call returned or raised, the state it left, and whether it tried `close_driver` on the old client. */
  datatype Step<C> = Step(result: Result<C>, state: State<C>, closeAttempted: bool)

  predicate NeedsRecycling<C>(s: State<C>, now: int)
  {
    s.createdAt.Some? && AgeSeconds(now, s.createdAt.value) > ProxyLifeSpanSeconds
  }

  /**
   * `get_proxy_client` at time `now`: keep a live client that does not need recycling; otherwise try to
   * close the old one (if recycling; any error is swallowed), drop it, and install `newClient`, what
   * `_create_proxy()` builds or raises, stamped with `later`, the time read after building it. When
   * `_create_proxy()` raises, the exception propagates and the globals keep no client and the old stamp.
   */
  function GetProxyClient<C>(s: State<C>, now: int, newClient: Result<C>, later: int): (r: Step<C>)
    ensures s.client.Some? && !NeedsRecycling(s, now) ==> r == Step(Success(s.client.value), s, false)
    ensures s.client.None? || NeedsRecycling(s, now) ==> r.result == newClient
    ensures (s.client.None? || NeedsRecycling(s, now)) && newClient.Success? ==>
              r.state == State(Some(newClient.value), Some(later))
    ensures (s.client.None? || NeedsRecycling(s, now)) && newClient.Failure? ==>
              r.state == State(None, s.createdAt)
    ensures r.closeAttempted <==> NeedsRecycling(s, now)
    ensures r.result.Success? ==> r.state.client == Some(r.result.value)
  {
    var recycle := NeedsRecycling(s, now);
    if s.client.Some? && !recycle then Step(Success(s.client.value), s, false)
    else
      match newClient
      case Success(c) => Step(newClient, State(Some(c), Some(later)), recycle)
      case Failure(_) => Step(newClient, State(None, s.createdAt), recycle)
  }

  /** A newly created client is handed out again, unchanged, at any time less than an hour after its creation. */
  lemma ReusedWithinAnHour<C>(s: State<C>, now: int, newClient: C, later: int, next: int, other: Result<C>, after: int)
    requires s.client.None? || NeedsRecycling(s, now)
    requires later <= next < later + (ProxyLifeSpanSeconds + 1) * MicrosPerSecond
    ensures var first := GetProxyClient(s, now, Success(newClient), later);
            var second := GetProxyClient(first.state, next, other, after);
            second.result == Success(newClient) && second.state == first.state && !second.closeAttempted
  {
    var first := GetProxyClient(s, now, Success(newClient), later);
    assert first.state == State(Some(newClient), Some(later));
    assert AgeSeconds(next, later) <= ProxyLifeSpanSeconds;
  }

  /** Between one hour and one day after its creation, the client is closed and replaced on the next call. */
  lemma RecycledAfterAnHour<C>(c: C, created: int, next: int, other: C, after: int)
    requires created + (ProxyLifeSpanSeconds + 1) * MicrosPerSecond <= next < created + SecondsPerDay * MicrosPerSecond
    ensures var r := GetProxyClient(State(Some(c), Some(created)), next, Success(other), after);
            r.closeAttempted && r.result == Success(other) && r.state == State(Some(other), Some(after))
  {
    assert AgeSeconds(next, created) > ProxyLifeSpanSeconds;
  }

  /** After `_create_proxy()` raised, the next call builds a client again rather than handing out a stale one. */
  lemma RetriedAfterFailedCreate<C>(s: State<C>, now: int, e: Error, later: int, next: int, other: Result<C>, after: int)
    requires s.client.None? || NeedsRecycling(s, now)
    ensures var first := GetProxyClient(s, now, Failure(e), later);
            var second := GetProxyClient(first.state, next, other, after);
            first.result == Failure(e) && second.result == other
  {
  }

  /** Ages that differ by whole days look the same: the recycling decision only sees the age modulo a day. */
  lemma AgeIgnoresWholeDays(now: int, createdAt: int, days: nat)
    ensures AgeSeconds(now + days * SecondsPerDay * MicrosPerSecond, createdAt) == AgeSeconds(now, createdAt)
  {
    var d := now - createdAt;
    var shift := days * SecondsPerDay * MicrosPerSecond;
    assert (d + shift) / MicrosPerSecond == d / MicrosPerSecond + days * SecondsPerDay by {
      assert d + shift == (d / MicrosPerSecond + days * SecondsPerDay) * MicrosPerSecond + d % MicrosPerSecond;
    }
  }

  // ---------------------------------------------------------------------------------------------
  // Client parameters

  /** A configuration value as Python would print it with `format`. */
  datatype Scalar = SStr(s: string) | SInt(i: int) | SBool(b: bool) | SNone

  /** A parameter: a configuration value, or a dict of them. */
  datatype Param = Plain(v: Scalar) | Nested(m: map<string, Scalar>)

  function Show(v: Scalar): string
  {
    match v
    case SStr(s) => s
    case SInt(i) => IntToString(i)
    case SBool(b) => if b then "True" else "False"
    case SNone => "None"
  }

  /** The `PROXY_*` settings `_create_proxy` reads. */
  datatype Config = Config(host: Scalar, port: Scalar, user: Scalar, password: Scalar, encrypted: Scalar,
                           validateSsl: Scalar, clientName: string, awsRegion: Scalar)

  /** The AWS session's credentials (looked up through boto3, which is not modelled). */
  datatype AwsCredentials = AwsCredentials(accessKey: Scalar, secretKey: Scalar, token: Scalar)

  function NeptuneHost(cfg: Config): string
  {
    "wss://" + Show(cfg.host) + ":" + Show(cfg.port) + "/gremlin"
  }

  /**
   * `client_init_params` as passed to the client class: the six settings, and for NEPTUNE the signed
   * websocket endpoint, the AWS credentials as `password` and the session token in `aws4auth_options`.
   */
  function CreateProxyParams(cfg: Config, creds: AwsCredentials): (r: map<string, Param>)
    ensures cfg.clientName != "NEPTUNE" ==>
      r.Keys == {"host", "port", "user", "password", "encrypted", "validate_ssl"} &&
      r["host"] == Plain(cfg.host) && r["port"] == Plain(cfg.port) && r["user"] == Plain(cfg.user) &&
      r["password"] == Plain(cfg.password) && r["encrypted"] == Plain(cfg.encrypted) && r["validate_ssl"] == Plain(cfg.validateSsl)
    ensures cfg.clientName == "NEPTUNE" ==>
      r.Keys == {"host", "password", "aws4auth_options"} &&
      r["host"] == Plain(SStr(NeptuneHost(cfg))) &&
      r["password"] == Nested(map["aws_access_key_id" := creds.accessKey, "aws_secret_access_key" := creds.secretKey,
                                  "service_region" := cfg.awsRegion]) &&
      r["aws4auth_options"] == Nested(map["session_token" := creds.token])
  {
    var params := map["host" := Plain(cfg.host), "port" := Plain(cfg.port), "user" := Plain(cfg.user),
                      "password" := Plain(cfg.password), "encrypted" := Plain(cfg.encrypted),
                      "validate_ssl" := Plain(cfg.validateSsl)];
    if cfg.clientName != "NEPTUNE" then params
    else
      var signed := params["password" := Nested(map["aws_access_key_id" := creds.accessKey,
                                                    "aws_secret_access_key" := creds.secretKey,
                                                    "service_region" := cfg.awsRegion])]
                          ["aws4auth_options" := Nested(map["session_token" := creds.token])];
      var endpoint := Show(cfg.host);
      var port := Show(cfg.port);
      var stripped := signed - {"encrypted", "validate_ssl", "port", "host", "user"};
      stripped["host" := Plain(SStr("wss://" + endpoint + ":" + port + "/gremlin"))]
  }

  /** Round trip: the host and port are read back from the Neptune endpoint when neither contains a colon. */
  lemma NeptuneHostSplits(cfg: Config)
    requires ':' !in Show(cfg.host) && ':' !in Show(cfg.port)
    ensures Split(NeptuneHost(cfg), ':') == ["wss", "//" + Show(cfg.host), Show(cfg.port) + "/gremlin"]
  {
    var h := Show(cfg.host);
    var p := Show(cfg.port);
    var parts := ["wss", "//" + h, p + "/gremlin"];
    assert Join(parts[2..], ':') == p + "/gremlin";
    assert Join(parts[1..], ':') == "//" + h + [':'] + (p + "/gremlin");
    assert Join(parts, ':') == NeptuneHost(cfg);
    assert ':' !in "//" + h;
    assert ':' !in p + "/gremlin";
    SplitJoin(parts, ':');
  }
}

=== FILE: ranking.dfy ===
/**
 * Ordering of query results: the `ORDER BY ... ASC` of a column query and the
 * `order().by(..., desc).limit(n)` of the reader and frequently-used-table traversals.
 * Both databases leave the order of ties unspecified, so the contracts below say nothing about ties.
 */
module Ranking {

  ghost predicate SortedBy<T>(s: seq<T>, key: T -> int)
  {
    forall i, j :: 0 <= i < j < |s| ==> key(s[i]) <= key(s[j])
  }

  ghost predicate SortedDescBy<T>(s: seq<T>, key: T -> int)
  {
    forall i, j :: 0 <= i < j < |s| ==> key(s[i]) >= key(s[j])
  }

  /** Inserts `x` in front of the first element whose key is not smaller. */
  function Insert<T>(x: T, s: seq<T>, key: T -> int): (r: seq<T>)
    requires SortedBy(s, key)
    ensures SortedBy(r, key)
    ensures multiset(r) == multiset(s) + multiset{x}
  {
    if |s| == 0 then [x]
    else if key(x) <= key(s[0]) then [x] + s
    else
      var rest := Insert(x, s[1..], key);
      InsertKeepsHeadFirst(x, s, key, rest);
      assert s == [s[0]] + s[1..];
      [s[0]] + rest
  }

  /** What `Insert` puts behind the head of a sorted sequence (its tail and a larger `x`) is not smaller than the head. */
  lemma InsertKeepsHeadFirst<T>(x: T, s: seq<T>, key: T -> int, rest: seq<T>)
    requires SortedBy(s, key) && |s| > 0 && key(s[0]) < key(x)
    requires multiset(rest) == multiset(s[1..]) + multiset{x}
    ensures forall k :: 0 <= k < |rest| ==> key(s[0]) <= key(rest[k])
  {
    forall k | 0 <= k < |rest|
      ensures key(s[0]) <= key(rest[k])
    {
      assert rest[k] in multiset(rest);
      if rest[k] != x {
        assert rest[k] in multiset(s[1..]);
        var m :| 0 <= m < |s[1..]| && s[1..][m] == rest[k];
        assert s[m + 1] == rest[k];
      }
    }
  }

  /** Insertion sort, ascending by `key`, keeping equal keys in their input order. */
  function SortBy<T>(s: seq<T>, key: T -> int): (r: seq<T>)
    ensures SortedBy(r, key)
    ensures multiset(r) == multiset(s)
    ensures |r| == |s|
  {
    if |s| == 0 then []
    else
      assert s == [s[0]] + s[1..];
      Insert(s[0], SortBy(s[1..], key), key)
  }

  function Min(a: nat, b: nat): nat { if a < b then a else b }

  /** `f` applied to every element, in order. */
  function MapSeq<A, B>(s: seq<A>, f: A -> B): (r: seq<B>)
    ensures |r| == |s| && forall i :: 0 <= i < |s| ==> r[i] == f(s[i])
  {
    seq(|s|, i requires 0 <= i < |s| => f(s[i]))
  }

  /** Taking the first element of `a` out of its permutation `b` leaves a permutation of the rest of `a`. */
  lemma RemoveAt<A>(a: seq<A>, b: seq<A>, j: nat)
    requires multiset(a) == multiset(b) && |a| > 0 && j < |b| && b[j] == a[0]
    ensures multiset(b[..j] + b[j + 1..]) == multiset(a[1..])
  {
    var pre, post := b[..j], b[j + 1..];
    assert b == pre + [b[j]] + post;
    assert a == [a[0]] + a[1..];
    assert multiset(b) == multiset(pre) + multiset{b[j]} + multiset(post);
    assert multiset(a) == multiset{a[0]} + multiset(a[1..]);
    assert multiset(pre + post) == multiset(pre) + multiset(post);
    calc {
      multiset(a[1..]);
      multiset(a) - multiset{a[0]};
      multiset(b) - multiset{b[j]};
      multiset(pre) + multiset(post);
    }
  }

  /** Mapping a sequence with one element put back between two parts adds that element's image to the multiset. */
  lemma MapSplit<A, B>(pre: seq<A>, x: A, post: seq<A>, f: A -> B)
    ensures multiset(MapSeq(pre + [x] + post, f)) == multiset(MapSeq(pre + post, f)) + multiset{f(x)}
  {
    assert MapSeq(pre + [x] + post, f) == MapSeq(pre, f) + [f(x)] + MapSeq(post, f);
    assert MapSeq(pre + post, f) == MapSeq(pre, f) + MapSeq(post, f);
  }

  /** Reordering the input reorders the output: mapping two permutations of a sequence gives permutations. */
  lemma {:induction false} MapPermutes<A, B>(a: seq<A>, b: seq<A>, f: A -> B)
    requires multiset(a) == multiset(b)
    ensures multiset(MapSeq(a, f)) == multiset(MapSeq(b, f))
    decreases |a|
  {
    if |a| == 0 {
      assert |b| == |multiset(b)|;
    } else {
      assert a[0] in multiset(b);
      var j :| 0 <= j < |b| && b[j] == a[0];
      RemoveAt(a, b, j);
      MapPermutes(a[1..], b[..j] + b[j + 1..], f);
      assert b == b[..j] + [a[0]] + b[j + 1..];
      MapSplit(b[..j], a[0], b[j + 1..], f);
      MapSplit([], a[0], a[1..], f);
      assert [] + [a[0]] + a[1..] == a;
      assert [] + a[1..] == a[1..];
    }
  }

  /** A descending sequence keeps its largest keys in front: whatever is not in a prefix is beaten by all of it. */
  lemma SortedPrefixIsTop<T>(s: seq<T>, sorted: seq<T>, key: T -> int, k: nat)
    requires multiset(sorted) == multiset(s)
    requires SortedDescBy(sorted, key)
    requires k <= |sorted|
    ensures multiset(sorted[..k]) <= multiset(s)
    ensures forall i, j :: 0 <= i < |s| && s[i] !in sorted[..k] && 0 <= j < k ==> key(s[i]) <= key(sorted[j])
  {
    var r := sorted[..k];
    assert sorted == r + sorted[k..];
    assert multiset(sorted) == multiset(r) + multiset(sorted[k..]);
    forall i, j | 0 <= i < |s| && s[i] !in r && 0 <= j < k
      ensures key(s[i]) <= key(sorted[j])
    {
      assert s[i] in multiset(sorted);
      var m :| 0 <= m < |sorted| && sorted[m] == s[i];
      assert forall p :: 0 <= p < k ==> sorted[p] == r[p] && r[p] != s[i];
    }
  }

  /**
   * The first `n` elements by `key` descending, as `order().by(key, desc).limit(n)` returns them:
   * at most `n` of the input's elements, largest keys first, and nothing left out that beats
   * anything kept.
   */
  function TopBy<T>(s: seq<T>, key: T -> int, n: nat): (r: seq<T>)
    ensures |r| == Min(|s|, n)
    ensures SortedDescBy(r, key)
    ensures multiset(r) <= multiset(s)
    ensures forall i, j :: 0 <= i < |s| && s[i] !in r && 0 <= j < |r| ==> key(s[i]) <= key(r[j])
  {
    var neg := (x: T) => -key(x);
    var sorted := SortBy(s, neg);
    assert SortedDescBy(sorted, key) by {
      forall i, j | 0 <= i < j < |sorted|
        ensures key(sorted[i]) >= key(sorted[j])
      {
        assert neg(sorted[i]) <= neg(sorted[j]);
      }
    }
    SortedPrefixIsTop(s, sorted, key, Min(|s|, n));
    sorted[..Min(|s|, n)]
  }
}

=== FILE: resource_type.dfy ===
/** The `ResourceType` enum and the label parser `to_resource_type`. */
module ResourceTypes {
  import opened Common
  import opened Strings

  datatype ResourceType = Table | Dashboard | User

  /**
   * `UserResourceRel`, the relation between a user and a resource; `Unrecognised` stands for any value
   * the proxies' `if` chains do not name.
   */
  datatype UserResourceRel = Follow | Own | Read | Unrecognised(name: string)

  /** The member's name, as `ResourceType.X.name` spells it. */
  function Name(r: ResourceType): string
  {
    match r
    case Table => "Table"
    case Dashboard => "Dashboard"
    case User => "User"
  }

  /** Enum lookup by name, `ResourceType[name]`: a name that is no member's raises KeyError. */
  function FromName(name: string): (r: Result<ResourceType>)
    ensures r.Success? ==> Name(r.value) == name
    ensures r.Failure? <==> (forall t: ResourceType :: Name(t) != name)
    ensures r.Failure? ==> r.error == KeyError(name)
  {
    if name == "Table" then Success(Table)
    else if name == "Dashboard" then Success(Dashboard)
    else if name == "User" then Success(User)
    else Failure(KeyError(name))
  }

  /** `to_resource_type(label=...)`: the member whose name is the title-cased `text`. */
  function ToResourceType(text: string): (r: Result<ResourceType>)
    ensures r.Success? ==> Name(r.value) == Title(text)
    ensures r.Failure? <==> (forall t: ResourceType :: Name(t) != Title(text))
  {
    FromName(Title(text))
  }

  /** Round trip: every member is recovered from its lower-cased name. */
  lemma LowerNameRoundTrip(r: ResourceType)
    ensures ToResourceType(Lower(Name(r))) == Success(r)
  {
    CapitalisedWordIsTitle(Name(r));
  }

  /** The label the service passes for tables maps to its member. */
  lemma TableLabel()
    ensures ToResourceType("table") == Success(Table)
  {
    var l := Lower(Name(Table));
    assert l == "table" by {
      assert |l| == 5;
      assert l[0] == 't' && l[1] == 'a' && l[2] == 'b' && l[3] == 'l' && l[4] == 'e';
    }
    LowerNameRoundTrip(Table);
  }

  /** Parsing is case-insensitive: labels equal up to case parse to the same outcome. */
  lemma ParseIgnoresCase(a: string, b: string)
    requires Lower(a) == Lower(b)
    ensures ToResourceType(a) == ToResourceType(b)
  {
    TitleIgnoresCase(a, b);
  }
}

=== FILE: strings.dfy ===
/** The pieces of Python's `str` API the service relies on: `split`, `title`, `lower` and `str(int)`. */
module Strings {

  /** Python's `s.split(sep)` for a one-character separator: the pieces between separators, in order. */
  function Split(s: string, sep: char): (parts: seq<string>)
    ensures |parts| >= 1
    ensures forall i :: 0 <= i < |parts| ==> sep !in parts[i]
    ensures Join(parts, sep) == s
    decreases |s|
  {
    if |s| == 0 then [""]
    else
      var rest := Split(s[1..], sep);
      if s[0] == sep then
        [""] + rest
      else
        assert Join(rest, sep) == s[1..];
        assert [s[0]] + rest[0] + (if |rest| == 1 then "" else [sep] + Join(rest[1..], sep)) == s;
        [[s[0]] + rest[0]] + rest[1..]
  }

  /** Python's `sep.join(parts)`. */
  function Join(parts: seq<string>, sep: char): string
  {
    if |parts| == 0 then ""
    else if |parts| == 1 then parts[0]
    else parts[0] + [sep] + Join(parts[1..], sep)
  }

  /** Splitting at a separator that is spelled out distributes over the two sides. */
  lemma {:induction false} SplitAround(a: string, b: string, sep: char)
    ensures Split(a + [sep] + b, sep) == Split(a, sep) + Split(b, sep)
    decreases |a|
  {
    if |a| == 0 {
      assert a + [sep] + b == [sep] + b;
      assert ([sep] + b)[1..] == b;
    } else {
      var s := a + [sep] + b;
      assert s[0] == a[0] && s[1..] == a[1..] + [sep] + b;
      SplitAround(a[1..], b, sep);
    }
  }

  /** A string without the separator is a single piece. */
  lemma {:induction false} SplitWithoutSeparator(s: string, sep: char)
    requires sep !in s
    ensures Split(s, sep) == [s]
    decreases |s|
  {
    if |s| > 0 {
      assert sep !in s[1..];
      SplitWithoutSeparator(s[1..], sep);
      assert [s[0]] + s[1..] == s;
    }
  }

  /** Splitting undoes joining when no piece contains the separator. */
  lemma {:induction false} SplitJoin(parts: seq<string>, sep: char)
    requires |parts| >= 1
    requires forall i :: 0 <= i < |parts| ==> sep !in parts[i]
    ensures Split(Join(parts, sep), sep) == parts
    decreases |parts|
  {
    SplitWithoutSeparator(parts[0], sep);
    if |parts| > 1 {
      SplitJoin(parts[1..], sep);
      SplitAround(parts[0], Join(parts[1..], sep), sep);
      assert [parts[0]] + parts[1..] == parts;
    }
  }

  predicate IsUpper(c: char) { 'A' <= c <= 'Z' }
  predicate IsLower(c: char) { 'a' <= c <= 'z' }

  /** A cased character in the sense of `str.title()`; only ASCII letters are modelled. */
  predicate IsCased(c: char) { IsUpper(c) || IsLower(c) }

  function UpperChar(c: char): char
  {
    if IsLower(c) then (c as int - 32) as char else c
  }

  function LowerChar(c: char): char
  {
    if IsUpper(c) then (c as int + 32) as char else c
  }

  /** Python's `s.lower()` (ASCII letters). */
  function Lower(s: string): (r: string)
    ensures |r| == |s|
    ensures forall i :: 0 <= i < |s| ==> r[i] == LowerChar(s[i])
  {
    if |s| == 0 then "" else [LowerChar(s[0])] + Lower(s[1..])
  }

  /** Whether position `i` of `s` follows a cased character, the one before `s` counting as `afterCased`. */
  predicate AfterCasedAt(s: string, i: nat, afterCased: bool)
    requires i < |s|
  {
    if i == 0 then afterCased else IsCased(s[i - 1])
  }

  /** `str.title()` from a position whose preceding character is cased (`afterCased`) or not. */
  function TitleFrom(s: string, afterCased: bool): (r: string)
    ensures |r| == |s|
    ensures forall i :: 0 <= i < |s| ==>
      r[i] == (if !IsCased(s[i]) then s[i] else if AfterCasedAt(s, i, afterCased) then LowerChar(s[i]) else UpperChar(s[i]))
  {
    if |s| == 0 then ""
    else
      var c := if !IsCased(s[0]) then s[0] else if afterCased then LowerChar(s[0]) else UpperChar(s[0]);
      var r := [c] + TitleFrom(s[1..], IsCased(s[0]));
      assert forall i :: 1 <= i < |s| ==> r[i] == TitleFrom(s[1..], IsCased(s[0]))[i - 1] && s[i] == s[1..][i - 1];
      r
  }

  /** Python's `s.title()`: a cased character is upper-cased when it starts a word, lower-cased otherwise. */
  function Title(s: string): (r: string)
    ensures |r| == |s|
    ensures |s| > 0 && IsCased(s[0]) ==> r[0] == UpperChar(s[0])
    ensures forall i :: 0 < i < |s| && IsCased(s[i]) ==> r[i] == (if IsCased(s[i - 1]) then LowerChar(s[i]) else UpperChar(s[i]))
    ensures forall i :: 0 <= i < |s| && !IsCased(s[i]) ==> r[i] == s[i]
  {
    TitleFrom(s, false)
  }

  /** `title()` does not see the case of its input: strings equal up to case title-case alike. */
  lemma {:induction false} TitleFromIgnoresCase(a: string, b: string, afterCased: bool)
    requires Lower(a) == Lower(b)
    ensures TitleFrom(a, afterCased) == TitleFrom(b, afterCased)
    decreases |a|
  {
    if |a| > 0 {
      assert LowerChar(a[0]) == LowerChar(b[0]);
      assert IsCased(a[0]) == IsCased(b[0]);
      assert Lower(a[1..]) == Lower(b[1..]) by {
        forall i | 0 <= i < |a| - 1
          ensures Lower(a[1..])[i] == Lower(b[1..])[i]
        {
          assert Lower(a)[i + 1] == Lower(b)[i + 1];
        }
      }
      TitleFromIgnoresCase(a[1..], b[1..], IsCased(a[0]));
    }
  }

  lemma TitleIgnoresCase(a: string, b: string)
    requires Lower(a) == Lower(b)
    ensures Title(a) == Title(b)
  {
    TitleFromIgnoresCase(a, b, false);
  }

  /** After a cased character, a run of lower-case letters is left as it is. */
  lemma {:induction false} TitleKeepsLowerRun(s: string)
    requires forall i :: 0 <= i < |s| ==> IsLower(s[i])
    ensures TitleFrom(s, true) == s
    decreases |s|
  {
    if |s| > 0 {
      TitleKeepsLowerRun(s[1..]);
      assert [s[0]] + s[1..] == s;
    }
  }

  /** A capitalised word (one upper-case letter, then lower-case letters) is the title of its lower-case form. */
  lemma CapitalisedWordIsTitle(w: string)
    requires |w| >= 1 && IsUpper(w[0])
    requires forall i :: 1 <= i < |w| ==> IsLower(w[i])
    ensures Title(Lower(w)) == w
  {
    var l := Lower(w);
    assert l[1..] == w[1..];
    TitleKeepsLowerRun(l[1..]);
    assert Title(l) == [UpperChar(l[0])] + TitleFrom(l[1..], true);
    assert [w[0]] + w[1..] == w;
  }

  function DigitChar(d: nat): char
    requires d < 10
  {
    ('0' as int + d) as char
  }

  /** The number a string of decimal digits denotes, most significant digit first. */
  function DigitsValue(s: string): nat
    requires forall i :: 0 <= i < |s| ==> '0' <= s[i] <= '9'
  {
    if |s| == 0 then 0 else DigitsValue(s[..|s| - 1]) * 10 + (s[|s| - 1] as int - '0' as int)
  }

  /** Python's `str(n)` for a non-negative integer: the decimal digits of `n`, without leading zeros. */
  function NatToString(n: nat): (r: string)
    ensures |r| >= 1
    ensures forall i :: 0 <= i < |r| ==> '0' <= r[i] <= '9'
    ensures DigitsValue(r) == n
    ensures |r| > 1 ==> r[0] != '0'
  {
    if n < 10 then [DigitChar(n)]
    else
      var r := NatToString(n / 10) + [DigitChar(n % 10)];
      assert r[..|r| - 1] == NatToString(n / 10);
      r
  }

  /** Python's `str(i)` for any integer: a minus sign exactly for negative `i`, then the digits of its magnitude. */
  function IntToString(i: int): (r: string)
    ensures |r| >= 1
    ensures (r[0] == '-') <==> i < 0
    ensures i < 0 ==> r[1..] == NatToString(-i)
    ensures i >= 0 ==> r == NatToString(i)
  {
    if i < 0 then "-" + NatToString(-i) else NatToString(i)
  }

  /** Distinct integers print differently, so a printed setting names one value. */
  lemma IntToStringInjective(a: int, b: int)
    requires IntToString(a) == IntToString(b)
    ensures a == b
  {
    if a < 0 {
      assert IntToString(a)[1..] == IntToString(b)[1..];
    }
  }
}

=== FILE: table_api.dfy ===
/**
 * The table endpoints' decisions: which tags `TableTagAPI` admits, which proxy calls it makes, and how
 * the proxy's outcome becomes an HTTP status in the tag, detail and description handlers. The proxy
 * call's outcome is an input; the lemmas at the end plug in the Neo4j and Gremlin models.
 */
module TableApi {
  import opened Common
  import opened Values
  import Http
  import PatternGraph
  import Neo4jProxy
  import TraversalGraph
  import GremlinProxy

  const DefaultTagType: string := "default"
  const BadgeTagType: string := "badge"

  /** The `tag_type` request argument: optional, `'default'` when absent. */
  function TagTypeArg(arg: Option<string>): (t: string)
    ensures arg.None? ==> t == DefaultTagType
    ensures arg.Some? ==> t == arg.value
  {
    arg.GetOr(DefaultTagType)
  }

  /**
   * The reserved-name checks of `put`: a badge must be whitelisted (NOT_FOUND otherwise), and a
   * whitelisted name cannot be used as a plain tag (CONFLICT). None: the tag goes through.
   */
  function Admission(tag: string, tagType: string, whitelist: seq<string>): (r: Option<Http.Status>)
    ensures r.None? <==> (tagType == BadgeTagType <==> tag in whitelist)
    ensures r == Some(Http.NotFound) <==> tagType == BadgeTagType && tag !in whitelist
    ensures r == Some(Http.Conflict) <==> tagType != BadgeTagType && tag in whitelist
  {
    if tagType == BadgeTagType then
      if tag !in whitelist then Some(Http.NotFound) else None
    else
      if tag in whitelist then Some(Http.Conflict) else None
  }

  /**
   * The outcome of the `try` block once the tag is admitted: `add_tag`, then, with
   * `SHOULD_UPDATE_ELASTIC`, the search document fetch and index update.
   */
  function Attempt(addTag: Result<()>, shouldUpdateElastic: bool, searchUpdate: Result<()>): (r: Result<()>)
    ensures r.Success? <==> addTag.Success? && (shouldUpdateElastic ==> searchUpdate.Success?)
    ensures addTag.Failure? ==> r == addTag
  {
    if addTag.Failure? then addTag
    else if shouldUpdateElastic then searchUpdate
    else Success(())
  }

  /** What `put` did: its reply, the `(tag, tag_type)` it passed to `add_tag` if it called it, and whether the index was updated. */
  datatype TagPut = TagPut(reply: Http.Reply<()>, addTagCall: Option<(string, string)>, searchUpdated: bool)

  /** `TableTagAPI.put`. NotFoundException from the `try` block becomes NOT_FOUND; any other exception propagates. */
  function PutTag(tag: string, tagType: string, whitelist: seq<string>, shouldUpdateElastic: bool,
                  addTag: Result<()>, searchUpdate: Result<()>): (r: TagPut)
    ensures Admission(tag, tagType, whitelist).Some? ==>
      r == TagPut(Http.Respond(Admission(tag, tagType, whitelist).value, ()), None, false)
    ensures r.addTagCall.Some? <==> Admission(tag, tagType, whitelist).None?
    ensures r.addTagCall.Some? ==> r.addTagCall.value == (tag, tagType)
    ensures r.searchUpdated <==> r.addTagCall.Some? && addTag.Success? && shouldUpdateElastic && searchUpdate.Success?
    ensures r.reply == Http.Respond(Http.Ok, ()) <==>
      r.addTagCall.Some? && addTag.Success? && (shouldUpdateElastic ==> searchUpdate.Success?)
    ensures r.reply.Raise? <==>
      r.addTagCall.Some? && Attempt(addTag, shouldUpdateElastic, searchUpdate).Failure? &&
      !Attempt(addTag, shouldUpdateElastic, searchUpdate).error.NotFound?
    ensures r.reply.Raise? ==> r.reply.error == Attempt(addTag, shouldUpdateElastic, searchUpdate).error
    ensures r.reply == Http.Respond(Http.NotFound, ()) <==>
      Admission(tag, tagType, whitelist) == Some(Http.NotFound) ||
      (r.addTagCall.Some? && Attempt(addTag, shouldUpdateElastic, searchUpdate).Failure? &&
       Attempt(addTag, shouldUpdateElastic, searchUpdate).error.NotFound?)
  {
    var refused := Admission(tag, tagType, whitelist);
    if refused.Some? then TagPut(Http.Respond(refused.value, ()), None, false)
    else
      var updated := addTag.Success? && shouldUpdateElastic && searchUpdate.Success?;
      var outcome := Attempt(addTag, shouldUpdateElastic, searchUpdate);
      var reply := if outcome.Success? then Http.Respond(Http.Ok, ())
                   else if outcome.error.NotFound? then Http.Respond(Http.NotFound, ())
                   else Http.Raise(outcome.error);
      TagPut(reply, Some((tag, tagType)), updated)
  }

  /** A name is usable either as a badge or as a plain tag, never both and never neither. */
  lemma TagOrBadge(tag: string, tagType: string, whitelist: seq<string>, shouldUpdateElastic: bool,
                   addTag: Result<()>, searchUpdate: Result<()>)
    requires tagType != BadgeTagType
    ensures PutTag(tag, BadgeTagType, whitelist, shouldUpdateElastic, addTag, searchUpdate).addTagCall.Some? !=
            PutTag(tag, tagType, whitelist, shouldUpdateElastic, addTag, searchUpdate).addTagCall.Some?
  {
  }

  /** Without a `tag_type` argument a tag is added as `'default'` exactly when its name is not reserved for a badge. */
  lemma DefaultTagAdmitted(tag: string, whitelist: seq<string>, shouldUpdateElastic: bool, addTag: Result<()>, searchUpdate: Result<()>)
    ensures var r := PutTag(tag, TagTypeArg(None), whitelist, shouldUpdateElastic, addTag, searchUpdate);
            (r.addTagCall == Some((tag, "default")) <==> tag !in whitelist) &&
            (tag in whitelist <==> r.reply == Http.Respond(Http.Conflict, ()))
  {
  }

  /**
   * Over the Neo4j proxy, with no index update: an admitted tag on an existing table answers OK and a
   * missing table answers NOT_FOUND, leaving the database as it was.
   */
  lemma PutTagOverNeo4j(g: PatternGraph.Graph, table: string, tag: string, tagType: string, whitelist: seq<string>)
    requires Admission(tag, tagType, whitelist).None?
    ensures var o := Neo4jProxy.AddTag(g, table, tag);
            var r := PutTag(tag, tagType, whitelist, false, o.result, Success(()));
            (r.reply == Http.Respond(Http.Ok, ()) <==> PatternGraph.Find(g.nodes, "Table", "table_key", table).Some?) &&
            (r.reply == Http.Respond(Http.NotFound, ()) <==> PatternGraph.Find(g.nodes, "Table", "table_key", table).None?) &&
            (r.reply == Http.Respond(Http.NotFound, ()) ==> o.db == g)
  {
  }

  /** What `delete` did: its reply and the `(tag, tag_type)` it passed to `delete_tag`. */
  datatype TagDelete = TagDelete(reply: Http.Reply<()>, deleteTagCall: (string, string))

  /**
   * `TableTagAPI.delete`: `delete_tag` with the tag and the `tag_type` argument (`'default'` when
   * absent); OK on success, NOT_FOUND on NotFoundException; other exceptions propagate.
   */
  function DeleteTag(tag: string, tagTypeArg: Option<string>, outcome: Result<()>): (r: TagDelete)
    ensures r.deleteTagCall == (tag, TagTypeArg(tagTypeArg))
    ensures r.reply == Http.Respond(Http.Ok, ()) <==> outcome.Success?
    ensures r.reply == Http.Respond(Http.NotFound, ()) <==> outcome.Failure? && outcome.error.NotFound?
    ensures r.reply.Raise? <==> outcome.Failure? && !outcome.error.NotFound?
    ensures r.reply.Raise? ==> r.reply.error == outcome.error
  {
    TagDelete(Http.DeleteReply(outcome), (tag, TagTypeArg(tagTypeArg)))
  }

  /** Over the Neo4j proxy `delete` always answers OK: `delete_tag` raises nothing, even for a missing table or tag. */
  lemma DeleteTagOverNeo4j(g: PatternGraph.Graph, table: string, tag: string, tagTypeArg: Option<string>)
    ensures DeleteTag(tag, tagTypeArg, Neo4jProxy.DeleteTag(g, table, tag).result).reply == Http.Respond(Http.Ok, ())
  {
  }

  /** `TableDetailAPI.get`: the table on success, NOT_FOUND on NotFoundException; other exceptions propagate. */
  function GetTableDetail<T>(outcome: Result<T>): (r: Http.Reply<Option<T>>)
    ensures outcome.Success? ==> r == Http.Respond(Http.Ok, Some(outcome.value))
    ensures r.Respond? && r.status == Http.Ok <==> outcome.Success?
    ensures r == Http.Respond(Http.NotFound, None) <==> outcome.Failure? && outcome.error.NotFound?
    ensures r.Raise? <==> outcome.Failure? && !outcome.error.NotFound?
  {
    match outcome
    case Success(t) => Http.Respond(Http.Ok, Some(t))
    case Failure(NotFound(_)) => Http.Respond(Http.NotFound, None)
    case Failure(e) => Http.Raise(e)
  }

  /**
   * `TableDescriptionAPI.get`: the description (possibly None) on success, NOT_FOUND on
   * NotFoundException, INTERNAL_SERVER_ERROR on any other exception; nothing propagates.
   */
  function GetTableDescription<T>(outcome: Result<Option<T>>): (r: Http.Reply<Option<T>>)
    ensures r.Respond?
    ensures outcome.Success? ==> r == Http.Respond(Http.Ok, outcome.value)
    ensures r.status == Http.Ok <==> outcome.Success?
    ensures r == Http.Respond(Http.NotFound, None) <==> outcome.Failure? && outcome.error.NotFound?
    ensures r == Http.Respond(Http.InternalServerError, None) <==> outcome.Failure? && !outcome.error.NotFound?
  {
    match outcome
    case Success(d) => Http.Respond(Http.Ok, d)
    case Failure(NotFound(_)) => Http.Respond(Http.NotFound, None)
    case Failure(_) => Http.Respond(Http.InternalServerError, None)
  }

  /** Over the Neo4j proxy the description read never answers NOT_FOUND: a missing table reads as OK with no description. */
  lemma DescriptionOverNeo4j(g: PatternGraph.Graph, table: string)
    ensures GetTableDescription(Success(Neo4jProxy.GetTableDescription(g, table))).status == Http.Ok
    ensures PatternGraph.Find(g.nodes, "Table", "table_key", table).None? ==>
      GetTableDescription(Success(Neo4jProxy.GetTableDescription(g, table))) == Http.Respond(Http.Ok, None)
  {
  }

  /** The Gremlin read as the handler sees it: the value, or the exception `next()` raised. */
  function GremlinDescription(g: TraversalGraph.Store, uri: string): Result<Option<Value>>
  {
    var d := GremlinProxy.GetTableDescription(g, uri);
    if d.Success? then Success(Some(d.value)) else Failure(d.error)
  }

  /** Over the Gremlin proxy a table without a description answers INTERNAL_SERVER_ERROR rather than OK with None or NOT_FOUND. */
  lemma DescriptionOverGremlin(g: TraversalGraph.Store, uri: string)
    requires TraversalGraph.Out(g, uri, "DESCRIPTION") == []
    ensures GetTableDescription(GremlinDescription(g, uri)) == Http.Respond(Http.InternalServerError, None)
  {
  }

  /** `TableDescriptionAPI.put`: OK on success, NOT_FOUND on NotFoundException; other exceptions propagate. */
  function PutTableDescription(outcome: Result<()>): (r: Http.Reply<Option<()>>)
    ensures r == Http.Respond(Http.Ok, None) <==> outcome.Success?
    ensures r == Http.Respond(Http.NotFound, None) <==> outcome.Failure? && outcome.error.NotFound?
    ensures r.Raise? <==> outcome.Failure? && !outcome.error.NotFound?
  {
    match outcome
    case Success(_) => Http.Respond(Http.Ok, None)
    case Failure(NotFound(_)) => Http.Respond(Http.NotFound, None)
    case Failure(e) => Http.Raise(e)
  }

  /**
   * Over the Neo4j proxy a description put on a missing table does not answer NOT_FOUND: the proxy's
   * RuntimeError propagates. On an existing table it answers OK and the read then returns the text.
   */
  lemma PutDescriptionOverNeo4j(g: PatternGraph.Graph, table: string, text: string)
    requires Neo4jProxy.DescribedOnlyBy(g, table)
    ensures var o := Neo4jProxy.PutTableDescription(g, table, text);
            var r := PutTableDescription(o.result);
            (PatternGraph.Find(g.nodes, "Table", "table_key", table).None? ==> r.Raise? && r.error.RuntimeError?) &&
            (PatternGraph.Find(g.nodes, "Table", "table_key", table).Some? ==>
               r == Http.Respond(Http.Ok, None) &&
               GetTableDescription(Success(Neo4jProxy.GetTableDescription(o.db, table))) == Http.Respond(Http.Ok, Some(VStr(text))))
  {
    if PatternGraph.Find(g.nodes, "Table", "table_key", table).Some? {
      Neo4jProxy.PutThenGetTableDescription(g, table, text);
    }
  }
}

=== FILE: transactions.dfy ===
/**
 * The explicit transactions of the Neo4j write paths, as the 1.x Python driver runs them: work done in
 * an open transaction becomes visible only on commit; commit, rollback and close on a transaction that
 * is already closed do nothing; closing an open transaction rolls it back.
 */
module Transactions {
  import opened Common
  import opened PatternGraph

  datatype Status = Open | Committed | RolledBack

  /** The calls the proxy makes on a transaction, in order. */
  datatype Call = Run | Commit | Rollback | Close

  /** A transaction over `base`: the graph its statements have produced so far, its status and the calls made. */
  datatype Tx = Tx(base: Graph, work: Graph, status: Status, log: seq<Call>)

  /** `session().begin_transaction()`. */
  function Begin(g: Graph): (tx: Tx)
    ensures tx.status == Open && tx.log == [] && Visible(tx) == g && tx.work == g
  {
    Tx(g, g, Open, [])
  }

  /** `tx.closed()`. */
  predicate IsClosed(tx: Tx)
  {
    tx.status != Open
  }

  /** What the rest of the database sees: the transaction's work once committed, the base otherwise. */
  function Visible(tx: Tx): Graph
  {
    if tx.status == Committed then tx.work else tx.base
  }

  /** `tx.run(...)` of a statement that turns the transaction's graph into `next`. */
  function RunTx(tx: Tx, next: Graph): (r: Tx)
    requires !IsClosed(tx)
    ensures !IsClosed(r) && r.base == tx.base && r.work == next && Visible(r) == Visible(tx)
    ensures r.log == tx.log + [Run]
  {
    Tx(tx.base, next, tx.status, tx.log + [Run])
  }

  /** `tx.commit()`: publishes the work of an open transaction; on a closed one it has no effect. */
  function CommitTx(tx: Tx): (r: Tx)
    ensures IsClosed(r)
    ensures !IsClosed(tx) ==> Visible(r) == tx.work
    ensures IsClosed(tx) ==> Visible(r) == Visible(tx) && r.status == tx.status
    ensures r.log == tx.log + [Commit]
  {
    if tx.status == Open then Tx(tx.base, tx.work, Committed, tx.log + [Commit])
    else Tx(tx.base, tx.work, tx.status, tx.log + [Commit])
  }

  /** `tx.rollback()`: discards the work of an open transaction; on a closed one it has no effect. */
  function RollbackTx(tx: Tx): (r: Tx)
    ensures IsClosed(r)
    ensures !IsClosed(tx) ==> Visible(r) == tx.base
    ensures IsClosed(tx) ==> Visible(r) == Visible(tx) && r.status == tx.status
    ensures r.log == tx.log + [Rollback]
  {
    if tx.status == Open then Tx(tx.base, tx.work, RolledBack, tx.log + [Rollback])
    else Tx(tx.base, tx.work, tx.status, tx.log + [Rollback])
  }

  /** `tx.close()`: an open transaction that was never committed is rolled back. */
  function CloseTx(tx: Tx): (r: Tx)
    ensures IsClosed(r)
    ensures Visible(r) == Visible(tx) && r.base == tx.base
    ensures r.log == tx.log + [Close]
  {
    if tx.status == Open then Tx(tx.base, tx.work, RolledBack, tx.log + [Close])
    else Tx(tx.base, tx.work, tx.status, tx.log + [Close])
  }

  /** A rolled-back transaction stays rolled back: a later commit publishes nothing. */
  lemma CommitAfterRollback(tx: Tx)
    requires !IsClosed(tx)
    ensures Visible(CloseTx(CommitTx(RollbackTx(tx)))) == tx.base
  {
  }

  /** The outcome of a write method: the database afterwards, what the call returned or raised, and the transaction calls made. */
  datatype Outcome = Outcome(db: Graph, result: Result<()>, log: seq<Call>)

  function Finish(tx: Tx, result: Result<()>): (o: Outcome)
    ensures o.db == Visible(tx) && o.log == tx.log
  {
    Outcome(Visible(tx), result, tx.log)
  }

  /**
   * Two statements in one transaction, the second of which must return a row (`second` is None when it
   * does not): on no row the proxy rolls back, raises `err` and its `finally` closes; otherwise it
   * commits and closes. This is the flow of the description writes.
   */
  function RollbackOrCommit(g: Graph, first: Graph, second: Option<Graph>, err: Error): (o: Outcome)
    ensures second.None? ==> o == Outcome(g, Failure(err), [Run, Run, Rollback, Close])
    ensures second.Some? ==> o == Outcome(second.value, Success(()), [Run, Run, Commit, Close])
  {
    var tx1 := RunTx(Begin(g), first);
    if second.None? then
      var done := CloseTx(RollbackTx(RunTx(tx1, first)));
      assert done.log == [Run, Run, Rollback, Close];
      Finish(done, Failure(err))
    else
      var done := CloseTx(CommitTx(RunTx(tx1, second.value)));
      assert done.log == [Run, Run, Commit, Close];
      Finish(done, Success(()))
  }

  /**
   * The same two statements with the flow of `add_owner` / `delete_owner`: on no row the proxy rolls
   * back and raises `err`, and its `finally` then commits (a no-op on the rolled-back transaction)
   * and closes.
   */
  function RollbackThenCommit(g: Graph, first: Graph, second: Option<Graph>, err: Error): (o: Outcome)
    ensures second.None? ==> o == Outcome(g, Failure(err), [Run, Run, Rollback, Commit, Close])
    ensures second.Some? ==> o == Outcome(second.value, Success(()), [Run, Run, Commit, Close])
  {
    var tx1 := RunTx(Begin(g), first);
    if second.None? then
      var done := CloseTx(CommitTx(RollbackTx(RunTx(tx1, first))));
      assert done.log == [Run, Run, Rollback, Commit, Close];
      Finish(done, Failure(err))
    else
      var done := CloseTx(CommitTx(RunTx(tx1, second.value)));
      assert done.log == [Run, Run, Commit, Close];
      Finish(done, Success(()))
  }

  /**
   * A validation statement followed by two writes: when the validation finds nothing the proxy rolls
   * back and raises `err` (the `finally` sees a closed transaction and does not close it again);
   * otherwise the writes produce `second` and are committed, which closes the transaction. This is the
   * flow of `add_tag`.
   */
  function CheckedWrite(g: Graph, found: bool, first: Graph, second: Graph, err: Error): (o: Outcome)
    ensures !found ==> o == Outcome(g, Failure(err), [Run, Rollback])
    ensures found ==> o == Outcome(second, Success(()), [Run, Run, Run, Commit])
  {
    var tx1 := RunTx(Begin(g), g);
    if !found then
      var done := RollbackTx(tx1);
      assert done.log == [Run, Rollback];
      Finish(done, Failure(err))
    else
      var done := CommitTx(RunTx(RunTx(tx1, first), second));
      assert done.log == [Run, Run, Run, Commit];
      Finish(done, Success(()))
  }
}

=== FILE: traversal_graph.dfy ===
/**
 * The property graph behind a Gremlin server as `AbstractGremlinProxy` uses it: vertices found by the
 * value of their key property (`key`, or `_key` on JanusGraph), edges in the order the server iterates
 * them, and the fold/coalesce upserts every write of the proxy is built from.
 */
module TraversalGraph {
  import opened Common
  import opened Values

  /** A vertex: its label and its properties other than the key property. */
  datatype Vertex = Vertex(kind: string, props: Props)

  /** An edge between two vertex keys; its own key property, when it has one, is among `props`. */
  datatype Edge = Edge(src: string, dst: string, kind: string, props: Props)

  /** Vertices by the value of their key property; edges in iteration order. */
  datatype Store = Store(vertices: map<string, Vertex>, edges: seq<Edge>)

  /** The synthetic edge id `"{start}_{end}_{label}"` the upserts write and the deletes look for. */
  function EdgeId(start: string, end: string, kind: string): string
  {
    start + "_" + end + "_" + kind
  }

  /** `has(key_property_name, id)` on an edge. */
  predicate HasId(e: Edge, keyProp: string, id: string)
  {
    keyProp in e.props && e.props[keyProp] == VStr(id)
  }

  /** Every edge joins two vertices of the store. */
  ghost predicate Closed(g: Store)
  {
    forall i :: 0 <= i < |g.edges| ==> g.edges[i].src in g.vertices && g.edges[i].dst in g.vertices
  }

  /** Every edge carries the synthetic id of its own endpoints and label, as the upserts write it. */
  ghost predicate Canonical(g: Store, keyProp: string)
  {
    forall i :: 0 <= i < |g.edges| ==>
      HasId(g.edges[i], keyProp, EdgeId(g.edges[i].src, g.edges[i].dst, g.edges[i].kind))
  }

  /** Two ids with the same start and label name the same end vertex. */
  lemma EdgeIdMiddle(start: string, a: string, b: string, kind: string)
    requires EdgeId(start, a, kind) == EdgeId(start, b, kind)
    ensures a == b
  {
    var x := EdgeId(start, a, kind);
    assert |a| == |b|;
    assert x[|start| + 1 .. |start| + 1 + |a|] == a;
    assert EdgeId(start, b, kind)[|start| + 1 .. |start| + 1 + |b|] == b;
  }

  /** A canonical edge found by the id `start_end_label` out of `start` does end at `end`. */
  lemma CanonicalMatchEnds(g: Store, keyProp: string, i: nat, start: string, end: string, kind: string)
    requires Canonical(g, keyProp)
    requires i < |g.edges|
    requires g.edges[i].src == start && g.edges[i].kind == kind && HasId(g.edges[i], keyProp, EdgeId(start, end, kind))
    ensures g.edges[i].dst == end
  {
    EdgeIdMiddle(start, g.edges[i].dst, end, kind);
  }

  // ---------------------------------------------------------------------------------------------
  // Vertex upsert

  /** Sets every present (non-None) update on `p`; a None-valued update is skipped. */
  function Assign(p: Props, updates: map<string, Option<Value>>): (r: Props)
    ensures forall k :: k in updates && updates[k].Some? ==> k in r && r[k] == updates[k].value
    ensures forall k :: k in p && (k !in updates || updates[k].None?) ==> k in r && r[k] == p[k]
    ensures forall k :: k in r ==> k in p || (k in updates && updates[k].Some?)
  {
    p + map k | k in updates && updates[k].Some? :: updates[k].value
  }

  /**
   * `upsert_node_as_tx`: reuse the vertex whose key is `id` or add one labelled `kind`, then one
   * `property(single, k, v)` per non-None entry of `props`. The key property itself is not among them.
   */
  function UpsertNode(g: Store, keyProp: string, id: string, kind: string, props: map<string, Option<Value>>): (r: Store)
    requires keyProp !in props
    ensures r.edges == g.edges
    ensures r.vertices.Keys == g.vertices.Keys + {id}
    ensures forall k :: k in g.vertices && k != id ==> r.vertices[k] == g.vertices[k]
    ensures id in g.vertices ==> r.vertices[id].kind == g.vertices[id].kind
    ensures id !in g.vertices ==> r.vertices[id].kind == kind
    ensures forall k :: k in props && props[k].Some? ==>
      k in r.vertices[id].props && r.vertices[id].props[k] == props[k].value
    ensures forall k :: k in r.vertices[id].props && (k !in props || props[k].None?) ==>
      id in g.vertices && k in g.vertices[id].props && r.vertices[id].props[k] == g.vertices[id].props[k]
    ensures id in g.vertices ==> forall k :: k in g.vertices[id].props ==> k in r.vertices[id].props
  {
    var v0 := if id in g.vertices then g.vertices[id] else Vertex(kind, map[]);
    g.(vertices := g.vertices[id := v0.(props := Assign(v0.props, props))])
  }

  /** Upserting the same vertex twice is the same as upserting it once: one vertex, the latest values. */
  lemma UpsertNodeIdempotent(g: Store, keyProp: string, id: string, kind: string, props: map<string, Option<Value>>)
    requires keyProp !in props
    ensures UpsertNode(UpsertNode(g, keyProp, id, kind, props), keyProp, id, kind, props)
         == UpsertNode(g, keyProp, id, kind, props)
  {
    var g1 := UpsertNode(g, keyProp, id, kind, props);
    var g2 := UpsertNode(g1, keyProp, id, kind, props);
    assert g2.vertices[id].props == g1.vertices[id].props;
    assert g2.vertices == g1.vertices;
  }

  // ---------------------------------------------------------------------------------------------
  // Edge upsert

  /** The edges `V().has(key, start).outE(label).has(key, id)` finds; their end vertex is not looked at. */
  predicate Matches(e: Edge, keyProp: string, start: string, kind: string, id: string)
  {
    e.src == start && e.kind == kind && HasId(e, keyProp, id)
  }

  predicate AnyMatch(es: seq<Edge>, keyProp: string, start: string, kind: string, id: string)
  {
    exists i :: 0 <= i < |es| && Matches(es[i], keyProp, start, kind, id)
  }

  /** How many edges out of `start` labelled `kind` carry the id `id`. */
  function CountMatches(es: seq<Edge>, keyProp: string, start: string, kind: string, id: string): nat
  {
    if |es| == 0 then 0
    else CountMatches(es[..|es| - 1], keyProp, start, kind, id)
         + (if Matches(es[|es| - 1], keyProp, start, kind, id) then 1 else 0)
  }

  lemma {:induction false} CountMatchesPositive(es: seq<Edge>, keyProp: string, start: string, kind: string, id: string)
    ensures CountMatches(es, keyProp, start, kind, id) > 0 <==> AnyMatch(es, keyProp, start, kind, id)
    decreases |es|
  {
    if |es| > 0 {
      var init := es[..|es| - 1];
      CountMatchesPositive(init, keyProp, start, kind, id);
      if AnyMatch(init, keyProp, start, kind, id) {
        var i :| 0 <= i < |init| && Matches(init[i], keyProp, start, kind, id);
        assert es[i] == init[i];
      }
      if AnyMatch(es, keyProp, start, kind, id) && !Matches(es[|es| - 1], keyProp, start, kind, id) {
        var i :| 0 <= i < |es| && Matches(es[i], keyProp, start, kind, id);
        assert init[i] == es[i];
      }
    }
  }

  /** `property(k, v)` on every edge the upsert reused: props merge in, nothing else moves. */
  function MergeInto(es: seq<Edge>, keyProp: string, start: string, kind: string, id: string, props: Props): (r: seq<Edge>)
    ensures |r| == |es|
    ensures forall i :: 0 <= i < |es| ==> r[i].src == es[i].src && r[i].dst == es[i].dst && r[i].kind == es[i].kind
    ensures forall i :: 0 <= i < |es| && !Matches(es[i], keyProp, start, kind, id) ==> r[i] == es[i]
    ensures forall i :: 0 <= i < |es| && Matches(es[i], keyProp, start, kind, id) ==> r[i].props == es[i].props + props
  {
    seq(|es|, i requires 0 <= i < |es| =>
      if Matches(es[i], keyProp, start, kind, id) then es[i].(props := es[i].props + props) else es[i])
  }

  /** Merging properties other than the key property keeps every edge's match status. */
  lemma {:induction false} CountMatchesMerge(es: seq<Edge>, keyProp: string, start: string, kind: string, id: string, props: Props)
    requires keyProp !in props
    ensures CountMatches(MergeInto(es, keyProp, start, kind, id, props), keyProp, start, kind, id)
         == CountMatches(es, keyProp, start, kind, id)
    decreases |es|
  {
    if |es| > 0 {
      var r := MergeInto(es, keyProp, start, kind, id, props);
      assert r[..|r| - 1] == MergeInto(es[..|es| - 1], keyProp, start, kind, id, props);
      CountMatchesMerge(es[..|es| - 1], keyProp, start, kind, id, props);
      assert Matches(r[|r| - 1], keyProp, start, kind, id) == Matches(es[|es| - 1], keyProp, start, kind, id);
    }
  }

  /** The outcome of a traversal step: a traverser flows on, none does (`next()` will find nothing), or the server raised and rolled the request back. */
  datatype Step = Flowing(g: Store) | Dry(g: Store) | Raised(error: Error)

  /** The edge `upsert_edge_as_tx` adds when no matching edge exists. */
  function NewEdge(keyProp: string, start: string, end: string, kind: string, props: Props): Edge
  {
    Edge(start, end, kind, props[keyProp := VStr(EdgeId(start, end, kind))])
  }

  /**
   * `upsert_edge_as_tx`: reuse every edge out of `start` labelled `kind` whose id is
   * `"{start}_{end}_{kind}"`, else add one to `end`; then set `props` on the edges found or added.
   * Without a `start` vertex the create branch yields no traverser; without an `end` vertex `to()`
   * raises on the server.
   */
  function UpsertEdge(g: Store, keyProp: string, start: string, end: string, kind: string, props: Props): (r: Step)
    requires keyProp !in props
    ensures r.Dry? <==> start !in g.vertices
    ensures r.Dry? ==> r.g == g
    ensures r.Raised? <==>
      start in g.vertices && !AnyMatch(g.edges, keyProp, start, kind, EdgeId(start, end, kind)) && end !in g.vertices
    ensures r.Flowing? ==> r.g.vertices == g.vertices && KeepsLinks(g.edges, r.g.edges)
  {
    var id := EdgeId(start, end, kind);
    if start !in g.vertices then Dry(g)
    else if AnyMatch(g.edges, keyProp, start, kind, id) then
      Flowing(g.(edges := MergeInto(g.edges, keyProp, start, kind, id, props)))
    else if end !in g.vertices then Raised(ServerError("the end vertex of the new edge does not exist"))
    else Flowing(g.(edges := g.edges + [NewEdge(keyProp, start, end, kind, props)]))
  }

  /** The edges of `es` keep their place, endpoints and label in `rs`, which may add more after them. */
  ghost predicate KeepsLinks(es: seq<Edge>, rs: seq<Edge>)
  {
    |rs| >= |es| &&
    forall i :: 0 <= i < |es| ==> rs[i].src == es[i].src && rs[i].dst == es[i].dst && rs[i].kind == es[i].kind
  }

  /**
   * What the edge upsert writes: with no edge found, exactly one new edge after the others; with edges
   * found, the same edges with `props` merged into the ones found.
   */
  lemma UpsertEdgeWrites(g: Store, keyProp: string, start: string, end: string, kind: string, props: Props)
    requires keyProp !in props
    requires UpsertEdge(g, keyProp, start, end, kind, props).Flowing?
    ensures var r := UpsertEdge(g, keyProp, start, end, kind, props).g;
            var id := EdgeId(start, end, kind);
            (!AnyMatch(g.edges, keyProp, start, kind, id) ==> r.edges == g.edges + [NewEdge(keyProp, start, end, kind, props)]) &&
            (AnyMatch(g.edges, keyProp, start, kind, id) ==>
              |r.edges| == |g.edges| &&
              (forall i :: 0 <= i < |g.edges| && !Matches(g.edges[i], keyProp, start, kind, id) ==> r.edges[i] == g.edges[i]) &&
              (forall i :: 0 <= i < |g.edges| && Matches(g.edges[i], keyProp, start, kind, id) ==>
                r.edges[i].props == g.edges[i].props + props))
  {
  }

  /**
   * Repeating the upsert creates no second edge: afterwards exactly one edge out of `start` carries the
   * id if none did before, and the count is unchanged otherwise.
   */
  lemma UpsertEdgeCount(g: Store, keyProp: string, start: string, end: string, kind: string, props: Props)
    requires keyProp !in props
    requires UpsertEdge(g, keyProp, start, end, kind, props).Flowing?
    ensures var r := UpsertEdge(g, keyProp, start, end, kind, props).g;
            var id := EdgeId(start, end, kind);
            CountMatches(r.edges, keyProp, start, kind, id)
              == (if CountMatches(g.edges, keyProp, start, kind, id) == 0 then 1 else CountMatches(g.edges, keyProp, start, kind, id))
  {
    var id := EdgeId(start, end, kind);
    var r := UpsertEdge(g, keyProp, start, end, kind, props).g;
    CountMatchesPositive(g.edges, keyProp, start, kind, id);
    if AnyMatch(g.edges, keyProp, start, kind, id) {
      CountMatchesMerge(g.edges, keyProp, start, kind, id, props);
    } else {
      assert r.edges[..|r.edges| - 1] == g.edges;
    }
  }

  lemma MergeTwice(p: Props, q: Props)
    ensures p + q + q == p + q
  {
  }

  /** Merging the same properties into the same edges a second time changes nothing. */
  lemma MergeIntoTwice(es: seq<Edge>, keyProp: string, start: string, kind: string, id: string, props: Props)
    requires keyProp !in props
    ensures var r := MergeInto(es, keyProp, start, kind, id, props);
            MergeInto(r, keyProp, start, kind, id, props) == r
  {
    var r := MergeInto(es, keyProp, start, kind, id, props);
    var r2 := MergeInto(r, keyProp, start, kind, id, props);
    forall i | 0 <= i < |es|
      ensures r2[i] == r[i]
    {
      if Matches(es[i], keyProp, start, kind, id) {
        MergeTwice(es[i].props, props);
      }
    }
  }

  /** A second upsert of the same edge finds the first one and changes nothing. */
  lemma UpsertEdgeIdempotent(g: Store, keyProp: string, start: string, end: string, kind: string, props: Props)
    requires keyProp !in props
    requires UpsertEdge(g, keyProp, start, end, kind, props).Flowing?
    ensures var g1 := UpsertEdge(g, keyProp, start, end, kind, props).g;
            UpsertEdge(g1, keyProp, start, end, kind, props) == Flowing(g1)
  {
    var id := EdgeId(start, end, kind);
    var g1 := UpsertEdge(g, keyProp, start, end, kind, props).g;
    if AnyMatch(g.edges, keyProp, start, kind, id) {
      assert g1.edges == MergeInto(g.edges, keyProp, start, kind, id, props);
      MergeIntoTwice(g.edges, keyProp, start, kind, id, props);
      CountMatchesPositive(g1.edges, keyProp, start, kind, id);
    } else {
      var e := NewEdge(keyProp, start, end, kind, props);
      assert g1.edges == g.edges + [e];
      assert Matches(g1.edges[|g.edges|], keyProp, start, kind, id);
      var r := MergeInto(g1.edges, keyProp, start, kind, id, props);
      forall i | 0 <= i < |g1.edges|
        ensures r[i] == g1.edges[i]
      {
        if i == |g.edges| {
          MergeTwice(props, map[keyProp := VStr(id)]);
          assert e.props + props == e.props;
        }
      }
      assert r == g1.edges;
    }
  }

  /** The upsert writes canonical edges only, so it keeps a canonical store canonical. */
  lemma UpsertEdgeCanonical(g: Store, keyProp: string, start: string, end: string, kind: string, props: Props)
    requires keyProp !in props
    requires Canonical(g, keyProp)
    requires UpsertEdge(g, keyProp, start, end, kind, props).Flowing?
    ensures Canonical(UpsertEdge(g, keyProp, start, end, kind, props).g, keyProp)
  {
    var g1 := UpsertEdge(g, keyProp, start, end, kind, props).g;
    forall i | 0 <= i < |g1.edges|
      ensures HasId(g1.edges[i], keyProp, EdgeId(g1.edges[i].src, g1.edges[i].dst, g1.edges[i].kind))
    {
      if i < |g.edges| {
        assert HasId(g.edges[i], keyProp, EdgeId(g.edges[i].src, g.edges[i].dst, g.edges[i].kind));
      }
    }
  }

  /** The upsert only adds edges between existing vertices, so it keeps a closed store closed. */
  lemma UpsertEdgeClosed(g: Store, keyProp: string, start: string, end: string, kind: string, props: Props)
    requires keyProp !in props
    requires Closed(g)
    requires UpsertEdge(g, keyProp, start, end, kind, props).Flowing?
    ensures Closed(UpsertEdge(g, keyProp, start, end, kind, props).g)
  {
    var g1 := UpsertEdge(g, keyProp, start, end, kind, props).g;
    forall i | 0 <= i < |g1.edges|
      ensures g1.edges[i].src in g1.vertices && g1.edges[i].dst in g1.vertices
    {
      if i < |g.edges| {
        assert g.edges[i].src in g.vertices && g.edges[i].dst in g.vertices;
      }
    }
  }

  /** An edge from one vertex to another with the given label. */
  ghost predicate Linked(g: Store, src: string, dst: string, kind: string)
  {
    exists i :: 0 <= i < |g.edges| && g.edges[i].src == src && g.edges[i].dst == dst && g.edges[i].kind == kind
  }

  /** After an edge upsert goes through, an edge out of `start` carries the id it looked for. */
  lemma UpsertEdgeFinds(g: Store, keyProp: string, start: string, end: string, kind: string, props: Props)
    requires keyProp !in props
    requires UpsertEdge(g, keyProp, start, end, kind, props).Flowing?
    ensures AnyMatch(UpsertEdge(g, keyProp, start, end, kind, props).g.edges, keyProp, start, kind, EdgeId(start, end, kind))
  {
    var id := EdgeId(start, end, kind);
    var r := UpsertEdge(g, keyProp, start, end, kind, props).g;
    UpsertEdgeWrites(g, keyProp, start, end, kind, props);
    if AnyMatch(g.edges, keyProp, start, kind, id) {
      var i :| 0 <= i < |g.edges| && Matches(g.edges[i], keyProp, start, kind, id);
      assert Matches(r.edges[i], keyProp, start, kind, id);
    } else {
      assert Matches(r.edges[|g.edges|], keyProp, start, kind, id);
    }
  }

  /** Whatever an edge upsert adds comes after the old edges and leaves `start` under `kind`. */
  lemma UpsertEdgeTail(g: Store, keyProp: string, start: string, end: string, kind: string, props: Props)
    requires keyProp !in props
    requires UpsertEdge(g, keyProp, start, end, kind, props).Flowing?
    ensures var r := UpsertEdge(g, keyProp, start, end, kind, props).g;
            forall i :: |g.edges| <= i < |r.edges| ==> r.edges[i].src == start && r.edges[i].kind == kind
  {
    UpsertEdgeWrites(g, keyProp, start, end, kind, props);
  }

  /** An edge upsert keeps every edge that other upserts would find. */
  lemma UpsertEdgeKeepsMatches(g: Store, keyProp: string, start: string, end: string, kind: string, props: Props,
                               s: string, k: string, id: string)
    requires keyProp !in props
    requires UpsertEdge(g, keyProp, start, end, kind, props).Flowing?
    requires AnyMatch(g.edges, keyProp, s, k, id)
    ensures AnyMatch(UpsertEdge(g, keyProp, start, end, kind, props).g.edges, keyProp, s, k, id)
  {
    var r := UpsertEdge(g, keyProp, start, end, kind, props).g;
    UpsertEdgeWrites(g, keyProp, start, end, kind, props);
    var i :| 0 <= i < |g.edges| && Matches(g.edges[i], keyProp, s, k, id);
    assert Matches(r.edges[i], keyProp, s, k, id);
  }

  /** An edge upsert keeps every link and, on a canonical store, links `start` to `end`. */
  lemma UpsertEdgeLinks(g: Store, keyProp: string, start: string, end: string, kind: string, props: Props)
    requires keyProp !in props
    requires UpsertEdge(g, keyProp, start, end, kind, props).Flowing?
    ensures var r := UpsertEdge(g, keyProp, start, end, kind, props).g;
            forall s, d, k :: Linked(g, s, d, k) ==> Linked(r, s, d, k)
    ensures Canonical(g, keyProp) ==> Linked(UpsertEdge(g, keyProp, start, end, kind, props).g, start, end, kind)
  {
    var r := UpsertEdge(g, keyProp, start, end, kind, props).g;
    forall s, d, k | Linked(g, s, d, k)
      ensures Linked(r, s, d, k)
    {
      var i :| 0 <= i < |g.edges| && g.edges[i].src == s && g.edges[i].dst == d && g.edges[i].kind == k;
      assert r.edges[i].src == s && r.edges[i].dst == d && r.edges[i].kind == k;
    }
    if Canonical(g, keyProp) {
      var id := EdgeId(start, end, kind);
      UpsertEdgeWrites(g, keyProp, start, end, kind, props);
      if AnyMatch(g.edges, keyProp, start, kind, id) {
        var i :| 0 <= i < |g.edges| && Matches(g.edges[i], keyProp, start, kind, id);
        CanonicalMatchEnds(g, keyProp, i, start, end, kind);
        assert r.edges[i].src == start && r.edges[i].dst == end && r.edges[i].kind == kind;
      } else {
        assert r.edges[|g.edges|].src == start && r.edges[|g.edges|].dst == end && r.edges[|g.edges|].kind == kind;
      }
    }
  }

  /** An edge upsert with no properties that finds its edge changes nothing. */
  lemma UpsertEdgeFound(g: Store, keyProp: string, start: string, end: string, kind: string)
    requires start in g.vertices
    requires AnyMatch(g.edges, keyProp, start, kind, EdgeId(start, end, kind))
    ensures UpsertEdge(g, keyProp, start, end, kind, map[]) == Flowing(g)
  {
    var r := UpsertEdge(g, keyProp, start, end, kind, map[]).g;
    UpsertEdgeWrites(g, keyProp, start, end, kind, map[]);
    forall i | 0 <= i < |g.edges|
      ensures r.edges[i] == g.edges[i]
    {
      assert g.edges[i].props + map[] == g.edges[i].props;
    }
  }

  /** A vertex upsert whose values are all in place already changes nothing. */
  lemma UpsertNodeSettled(g: Store, keyProp: string, id: string, kind: string, props: map<string, Option<Value>>)
    requires keyProp !in props
    requires id in g.vertices
    requires forall k :: k in props && props[k].Some? ==> k in g.vertices[id].props && g.vertices[id].props[k] == props[k].value
    ensures UpsertNode(g, keyProp, id, kind, props) == g
  {
    var r := UpsertNode(g, keyProp, id, kind, props);
    assert r.vertices[id].props == g.vertices[id].props;
    assert r.vertices[id] == g.vertices[id];
    assert r.vertices == g.vertices;
  }

  /**
   * The create branch of `upsert_edge_as_tx` reached from an empty stream. `fold()` emits one empty
   * list even when no traverser reaches it, so `coalesce` runs
   * `V().has(key, start).addE(kind).to(V().has(key, end))` without an existing edge to reuse.
   */
  function CreateEdge(g: Store, keyProp: string, start: string, end: string, kind: string): (r: Step)
    ensures r.Dry? <==> start !in g.vertices
    ensures r.Dry? ==> r.g == g
    ensures r.Raised? <==> start in g.vertices && end !in g.vertices
    ensures r.Raised? ==> r.error.ServerError?
    ensures r.Flowing? ==> r.g.vertices == g.vertices && KeepsLinks(g.edges, r.g.edges) &&
                           |r.g.edges| == |g.edges| + 1 && Matches(r.g.edges[|g.edges|], keyProp, start, kind, EdgeId(start, end, kind))
  {
    if start !in g.vertices then Dry(g)
    else if end !in g.vertices then Raised(ServerError("the end vertex of the new edge does not exist"))
    else Flowing(g.(edges := g.edges + [NewEdge(keyProp, start, end, kind, map[])]))
  }

  /**
   * The next edge upsert in a chained traversal. An earlier server error ends the request; after a
   * flowing step the upsert runs as on its own; after a dry step only the create branch runs.
   */
  function AndUpsertEdge(s: Step, keyProp: string, start: string, end: string, kind: string): (r: Step)
    ensures s.Raised? ==> r == s
    ensures !s.Raised? ==> (r.Dry? <==> start !in s.g.vertices)
    ensures !s.Raised? && r.Dry? ==> r.g == s.g
    ensures r.Raised? <==>
              (s.Raised? ||
               (start in s.g.vertices && end !in s.g.vertices &&
                (s.Dry? || !AnyMatch(s.g.edges, keyProp, start, kind, EdgeId(start, end, kind)))))
    ensures r.Flowing? ==> r.g.vertices == s.g.vertices && KeepsLinks(s.g.edges, r.g.edges) &&
                           AnyMatch(r.g.edges, keyProp, start, kind, EdgeId(start, end, kind))
  {
    match s
    case Flowing(g) =>
      if UpsertEdge(g, keyProp, start, end, kind, map[]).Flowing? then
        UpsertEdgeFinds(g, keyProp, start, end, kind, map[]);
        UpsertEdge(g, keyProp, start, end, kind, map[])
      else UpsertEdge(g, keyProp, start, end, kind, map[])
    case Dry(g) => CreateEdge(g, keyProp, start, end, kind)
    case Raised(_) => s
  }

  /** The result of a write request: the store afterwards and what the call returned or raised. */
  datatype Written = Written(g: Store, result: Result<()>)

  /**
   * `tx.next()` ending a chained write: a flowing traverser returns; an empty stream raises
   * StopIteration but keeps what the earlier steps wrote; a server error rolls the whole request back.
   */
  function Next(g0: Store, s: Step): (w: Written)
    ensures w.result.Success? <==> s.Flowing?
    ensures !s.Raised? ==> w.g == s.g
    ensures s.Dry? ==> w.result == Failure(NoResult)
    ensures s.Raised? ==> w == Written(g0, Failure(s.error))
  {
    match s
    case Flowing(g) => Written(g, Success(()))
    case Dry(g) => Written(g, Failure(NoResult))
    case Raised(e) => Written(g0, Failure(e))
  }

  // ---------------------------------------------------------------------------------------------
  // Edge deletion

  /** An edge whose key property is one of `ids`. */
  predicate Dropped(e: Edge, keyProp: string, ids: set<string>)
  {
    keyProp in e.props && e.props[keyProp].VStr? && e.props[keyProp].s in ids
  }

  /** `E().has(key, within(ids)).drop()`: the edges left, in their order, each as often as before. */
  function DropEdges(es: seq<Edge>, keyProp: string, ids: set<string>): (r: seq<Edge>)
    ensures forall e :: multiset(r)[e] == if Dropped(e, keyProp, ids) then 0 else multiset(es)[e]
    ensures forall e :: e in r <==> e in es && !Dropped(e, keyProp, ids)
  {
    if |es| == 0 then []
    else
      assert es == [es[0]] + es[1..];
      (if Dropped(es[0], keyProp, ids) then [] else [es[0]]) + DropEdges(es[1..], keyProp, ids)
  }

  /** Dropping edges by id keeps every vertex. */
  function DeleteEdges(g: Store, keyProp: string, ids: set<string>): (r: Store)
    ensures r.vertices == g.vertices
    ensures forall e :: e in r.edges <==> e in g.edges && !Dropped(e, keyProp, ids)
  {
    g.(edges := DropEdges(g.edges, keyProp, ids))
  }

  lemma DeleteEdgesClosed(g: Store, keyProp: string, ids: set<string>)
    requires Closed(g)
    ensures Closed(DeleteEdges(g, keyProp, ids))
  {
    var r := DeleteEdges(g, keyProp, ids);
    forall i | 0 <= i < |r.edges|
      ensures r.edges[i].src in r.vertices && r.edges[i].dst in r.vertices
    {
      assert r.edges[i] in g.edges;
    }
  }

  // ---------------------------------------------------------------------------------------------
  // Reads

  /** `V().has(key, v).out(kind)`: the end vertices of `v`'s outgoing `kind` edges, in edge order. */
  function OutFrom(vs: map<string, Vertex>, es: seq<Edge>, v: string, kind: string): (r: seq<string>)
    ensures forall k :: 0 <= k < |r| ==> r[k] in vs
    ensures forall i :: 0 <= i < |es| && es[i].src == v && es[i].kind == kind && es[i].dst in vs ==> es[i].dst in r
    ensures forall x :: x in r ==> exists i :: 0 <= i < |es| && es[i].src == v && es[i].kind == kind && es[i].dst == x
    ensures |es| == 1 ==> r == (if es[0].src == v && es[0].kind == kind && es[0].dst in vs then [es[0].dst] else [])
  {
    if |es| == 0 then []
    else
      var rest := OutFrom(vs, es[1..], v, kind);
      assert forall x :: x in rest ==> exists i :: 0 <= i < |es| && es[i].src == v && es[i].kind == kind && es[i].dst == x by {
        forall x | x in rest
          ensures exists i :: 0 <= i < |es| && es[i].src == v && es[i].kind == kind && es[i].dst == x
        {
          var j :| 0 <= j < |es[1..]| && es[1..][j].src == v && es[1..][j].kind == kind && es[1..][j].dst == x;
          assert es[j + 1] == es[1..][j];
        }
      }
      forall i | 0 <= i < |es| && es[i].src == v && es[i].kind == kind && es[i].dst in vs
        ensures es[i].dst in (if es[0].src == v && es[0].kind == kind && es[0].dst in vs then [es[0].dst] else []) + rest
      {
        if i > 0 {
          assert es[1..][i - 1] == es[i];
        }
      }
      (if es[0].src == v && es[0].kind == kind && es[0].dst in vs then [es[0].dst] else []) + rest
  }

  /**
   * `out(kind)` keeps edge order: the ends reached through `a + b` are those reached through `a`,
   * followed by those reached through `b`. With the single-edge case this fixes the whole listing.
   */
  lemma {:induction false} OutFromConcat(vs: map<string, Vertex>, a: seq<Edge>, b: seq<Edge>, v: string, kind: string)
    ensures OutFrom(vs, a + b, v, kind) == OutFrom(vs, a, v, kind) + OutFrom(vs, b, v, kind)
    decreases |a|
  {
    if |a| == 0 {
      assert a + b == b;
    } else {
      assert (a + b)[1..] == a[1..] + b;
      OutFromConcat(vs, a[1..], b, v, kind);
    }
  }

  function Out(g: Store, v: string, kind: string): seq<string>
  {
    if v in g.vertices then OutFrom(g.vertices, g.edges, v, kind) else []
  }
}

=== FILE: values.dfy ===
/** Property values stored on vertices, nodes and edges of both graph back-ends. */
module Values {

  /** The scalar property values the service writes and reads. */
  datatype Value = VStr(s: string) | VInt(i: int) | VBool(b: bool)

  type Props = map<string, Value>
}
